=== FILE: README.md ===
# GRL: a model of the graph-language interpreter

GRL is a small language for building and querying graphs. Its statements create
directed or undirected graphs, add and remove nodes and edges, and set edge weights.
It also has conditionals, loops over graph-derived sequences, and printing, and it can
export a graph to a file and import it back. The implementation has three parts:

- a SLY lexer that turns text into tokens by trying a table of regular-expression rules;
- a grammar whose semantic actions build a tree of deferred computations instead of
  computing values;
- the deferred node (`ParseTreeNode`) that evaluates that tree.

This project models those three parts in Dafny and proves what the code promises about them.

| file | module | what it models |
|---|---|---|
| `wrappers.dfy` | `Wrappers` | `Option` and `Result`, the error-propagating results used throughout |
| `parse_tree_node.dfy` | `ParseTreeNode` | the deferred node: evaluator, parameters, left-to-right evaluation, `empty()`. It stands alone: `Interpreter` evaluates its syntax tree directly, and IF and FOR bodies stay unevaluated there because `Exec` runs a block only when it is chosen |
| `graphs.dfy` | `Graphs` | the graph record the actions manipulate: kind, nodes in insertion order, edges with optional weight |
| `runtime.dfy` | `Runtime` | values, the single variable table, errors, `_get_variable` and `_get_graph`, the negative-weight check, the comparator |
| `interpreter.dfy` | `Interpreter` | the syntax tree and the semantic actions as a functional interpreter (`Exec`), plus the saved-graph file format |
| `interpreter_properties.dfy` | `InterpreterProperties` | IF chains, FOR loops, ADD, RM, SET WEIGHT and the documented scenarios |
| `export.dfy` | `ExportImport` | EXPORT followed by IMPORT rebuilds the graph |
| `lexer.dfy` | `Lexer` | the rule table, a first-match tokenizer, and reference descriptions of each pattern |
| `rule_order.dfy` | `RuleOrder` | what the order of the rule table means for concrete inputs |
| `strings.dfy` | `Strings` | string ordering, and decimal rendering of integers |

Modelling choices:

- **State.** A statement maps a `State` to an `Outcome`. The state holds the variable
  table, the lines printed so far, and the saved graph files. The outcome is completion,
  a halt (`EXIT`), or a raised error.
- **Errors.** An error keeps the state reached when it was raised, because the source
  mutates the interpreter in place.
- **Graph library.** The graph algorithms and the library's edge enumeration order are
  the fields of a `Library` parameter, which every evaluation receives.
- **Undirected edges.** An undirected edge is stored under one canonical key: the
  smaller endpoint comes first. So `HAS EDGE` does not depend on the orientation.

Facts about the code that shape the model:

- **Minus signs.** `NUMBER` (grl_lexer.py:27) has no minus sign, and no rule accepts `-`,
  so a `-` is a lexical error.
- **First match.** SLY tries the rules in declaration order and takes the first that
  matches. `NODE` (line 38) comes before `NODES` (line 51), so `NODES` is never produced;
  the same holds for `EDGE` and `EDGES`.
- **Number literals.** Python's regular-expression alternation takes its first
  alternative that matches, so `NUMBER` reads only the digits of `1.5`, and the `.`
  that follows matches no rule.
- **Separators.** No rule produces `LINE_SEPARATOR` or `EXIT`, which the grammar uses.
- **The `tokens` set.** It names fewer kinds than the rules define (lines 18-22). The
  model treats every rule at lines 24-73 as active.
- **Export format.** EXPORT writes one `ADD`/`SET WEIGHT` statement per line
  (grl_parser.py:50-67), and IMPORT replays those lines. A negative weight is written
  with a minus sign, so that line does not lex again, and the round trip holds only for
  graphs with no negative weight.
- **`>=` and `IS GRAPH`.** `>=` computes `left > right` (grl_parser.py:526-527).
  `IS GRAPH` is true for a digraph too, because a digraph is an instance of the graph
  class (grl_parser.py:446).

## Model

| member | source | states |
|---|---|---|
| ParseTreeNode.EvaluateParam | parse_tree_node.py:19 | a parameter that is not a node reaches the evaluator exactly as given, and the state is untouched |
| ParseTreeNode.EvaluateParams | parse_tree_node.py:16-22 | on success the evaluator receives one argument per parameter, and every literal parameter is at its own position unchanged |
| ParseTreeNode.EmptyHasNoEffect | parse_tree_node.py:12-14 | the empty node yields "nothing" and leaves the interpreter state as it was |
| ParseTreeNode.LeftToRight | parse_tree_node.py:16-22 | evaluating the parameters `a + b` equals evaluating `a`, then `b` in the state `a` left behind, with the arguments concatenated |
| ParseTreeNode.ErrorStopsEvaluation | parse_tree_node.py:16-22 | an error raised by an earlier parameter is the result, and later parameters are never evaluated |
| ParseTreeNode.NodeParamIsItsResult | parse_tree_node.py:19 | a node parameter contributes exactly its own evaluation's value and state, or its error |
| ParseTreeNode.LiteralsAreNotEvaluated | parse_tree_node.py:16-22 | a node whose parameters are all plain values calls its evaluator on exactly those values, in order |
| ParseTreeNode.LiteralParamsKeepState | parse_tree_node.py:16-22 | plain-value parameters produce their own values and do not change the state |
| Graphs.EmptyGraph | grl_parser.py:362-367 | a freshly added graph has the requested kind, no nodes and no edges |
| Graphs.AddNode | grl_parser.py:369-374 | adding a node adds exactly that label; adding a present label changes nothing; edges are untouched |
| Graphs.AddNodeIdempotent | grl_parser.py:369-374 | adding the same node twice is the same as adding it once, and the node count does not grow |
| Graphs.AddEdge | grl_parser.py:369-374 | adding an edge adds its missing endpoints, appended `u` before `v`, and exactly that edge; existing edges keep their weights; a new edge has no weight |
| Graphs.UndirectedHasEdgeSymmetric | grl_parser.py:461-466 | in an undirected graph the edge u-v is present exactly when v-u is |
| Graphs.RemoveNode | grl_parser.py:388-390 | removing a node fails exactly when it is absent; otherwise it removes that node and exactly the edges touching it |
| Graphs.WithoutRemovesAt | grl_parser.py:388-390 | removing the label at position `k` of a list of distinct labels leaves the labels before and after it, in order |
| Graphs.RemoveNodeKeepsOrder | grl_parser.py:388-390 | removing a present node succeeds, and the surviving nodes keep their order |
| Graphs.RemoveEdge | grl_parser.py:391-392 | removing an edge fails exactly when it is absent; otherwise it removes exactly that edge and keeps every node |
| Graphs.SetWeight | grl_parser.py:398-409 | setting a weight fails exactly when the edge is absent; otherwise that edge stores the weight and no other edge changes |
| Graphs.GetWeight | grl_parser.py:482-491 | reading a weight fails exactly when the edge is absent; otherwise it is the stored weight, or 1 when none is stored |
| Graphs.SetThenGetWeight | grl_parser.py:398-409 | a weight that was set reads back unchanged, in both orientations for an undirected graph |
| Graphs.NewEdgeWeighsOne | grl_parser.py:489 | a freshly added edge weighs 1 |
| Runtime.GetVariable | grl_parser.py:25-29 | a lookup fails with an undefined-variable error exactly when the name is unbound, and otherwise yields the binding |
| Runtime.GetGraph | grl_parser.py:31-38 | a graph lookup succeeds exactly when the name is bound to a graph; it fails as missing when unbound and as not-a-graph otherwise |
| Runtime.GetGraphRefinesGetVariable | grl_parser.py:25-38 | a successful graph lookup agrees with the plain lookup, and a name the plain lookup misses is never a graph |
| Runtime.ScanForNegativeWeight | grl_parser.py:40-44 | scanning the edges in the library's order finds a negative weight exactly when some stored weight is negative; an edge with no weight counts as 1 |
| Runtime.ChooseAlgorithm | grl_parser.py:212-226 | Dijkstra is chosen exactly when every edge's effective weight is non-negative, and Bellman-Ford otherwise |
| Runtime.UnweightedGraphUsesDijkstra | grl_parser.py:40-44 | a graph with no stored weights always uses Dijkstra |
| Runtime.SetWeightAndAlgorithm | grl_parser.py:398-409 | setting one negative weight switches the next query to Bellman-Ford; a non-negative weight keeps a Dijkstra graph on Dijkstra |
| Runtime.AddEdgeKeepsAlgorithm | grl_parser.py:369-374 | adding an edge never switches a graph away from Dijkstra |
| Runtime.Compare | grl_parser.py:512-532 | `==` and `!=` always succeed; ordering needs two numbers (booleans count as 0/1) or two strings and fails otherwise; on numbers each comparator is its integer relation and on strings it is Python's code-point string order, except that `>=` means strictly greater |
| Runtime.GeqIsStrict | grl_parser.py:526-527 | `>=` gives the same answer as `>` on every pair of operands |
| Runtime.GeqIsIrreflexive | grl_parser.py:526-527 | `x >= x` is false for every comparable value |
| Runtime.ComparatorsAgree | grl_parser.py:512-532 | `<` is `>` with the operands swapped, `<=` is `<` or `==`, and exactly one of `<`, `==`, `>` holds |
| Runtime.Render | grl_parser.py:315-320 | a variable prints as `str` writes it: a number as decimal text that reads back as the number, a label as itself; a boolean would print as `True` or `False`, though no statement binds a variable to a boolean |
| Strings.Trichotomy | grl_parser.py:512-532 | string comparison is a strict total order: exactly one of less, equal, greater |
| Strings.LessTransitive | grl_parser.py:512-532 | string comparison is transitive |
| Strings.NatDigitsRoundTrip | grl_parser.py:307-309 | the decimal text PRINT writes for a number reads back as that number |
| Strings.IntToString | grl_parser.py:307-309 | a printed number is non-empty text that starts with a minus sign exactly when the number is negative, and whose digits read back as the number's magnitude |
| Interpreter.DecodeQuoted | grl_parser.py:574-576 | stripping the first and last character undoes quoting, so a quoted label reads back unchanged |
| Interpreter.EvalNode | grl_parser.py:554-560 | a string node is the decoded literal; an identifier node fails exactly when the name is unbound or not bound to a label |
| Interpreter.EvalEdge | grl_parser.py:548-552 | an edge succeeds exactly when both endpoints do; it yields the pair in order, and the source endpoint's error comes first |
| Interpreter.EvalComparand | grl_parser.py:534-544 | an operand of a comparison is never a graph |
| Interpreter.EvalPrint | grl_parser.py:301-320 | a boolean expression prints as `TRUE` or `FALSE`, a number as decimal text that reads back as the number, a quoted string without its quotes, a boolean variable as `True` or `False`; each fails exactly when its operand does |
| Interpreter.EvalBool | grl_parser.py:436-466 | EXISTS tests the binding; IS GRAPH holds for any graph and IS DIGRAPH only for directed ones; HAS NODE and HAS EDGE test membership once the graph is found; a failing comparison of two values is an ordering of incomparable operands |
| Interpreter.EvalNum | grl_parser.py:468-508 | NODE COUNT and EDGE COUNT are the sizes of the graph; GET WEIGHT fails exactly on an absent edge and otherwise yields the stored weight or 1; GET DISTANCE BETWEEN fails on an absent source, then on an absent target, and otherwise asks the library with Dijkstra exactly when no weight is negative |
| Interpreter.ExecAdd | grl_parser.py:359-374 | ADD GRAPH succeeds exactly when the id is unbound; ADD NODE and ADD EDGE need a graph and leave the node or edge present; an error leaves the state unchanged and no other binding changes |
| Interpreter.ExecRm | grl_parser.py:380-392 | RM needs a graph; RM GRAPH removes exactly that binding; RM NODE and RM EDGE leave the node or edge absent and change no other binding; an error leaves the state unchanged |
| Interpreter.ExecSetWeight | grl_parser.py:398-409 | SET WEIGHT changes only that graph, keeps its nodes, and the weight then reads back; an error leaves the state unchanged |
| Interpreter.Exec | grl_parser.py:71-141 | a statement only ever appends to the printed output and never removes a saved file |
| Interpreter.LabelRows | grl_parser.py:212-236 | a list of labels from the library becomes one single-value row per label, in order, and a library failure becomes an algorithm error |
| Interpreter.EvalSingle | grl_parser.py:192-236 | NODES yields the graph's nodes in order and fails exactly when the graph lookup fails; TOPOLOGICAL SORT, SHORTEST PATH and NEIGHBORS yield the library's answer, SHORTEST PATH with Dijkstra exactly when no weight is negative |
| Interpreter.EvalDouble | grl_parser.py:238-265 | EDGES yields one row per edge in the library's order; DISTANCE FROM fails when the node is absent, and otherwise yields the library's distances computed with the chosen algorithm, or its failure |
| Interpreter.EvalTriple | grl_parser.py:267-285 | DISTANCE MATRIX fails as the graph lookup does, and otherwise yields one row per entry of the library's matrix computed with the chosen algorithm, or its failure |
| Interpreter.Complete | grl_parser.py:46-48 | a saved line becomes an ADD or SET WEIGHT statement once the graph id is appended, except a line carrying a negative weight, which does not lex |
| Interpreter.ExportCommands | grl_parser.py:50-67 | a saved graph starts with the line creating a graph of its kind, then one node line per node in order, then only edge and weight lines |
| Interpreter.EdgeCommands | grl_parser.py:62-67 | each edge, in the library's order, gives an edge line, optionally followed by its weight line |
| Interpreter.Replay | grl_parser.py:46-48 | replaying saved lines never halts, prints nothing, writes no file and touches no binding but the imported id |
| Interpreter.ReplayCommand | grl_parser.py:46-48 | one saved line never halts, prints nothing and writes no file |
| InterpreterProperties.FirstTrue | grl_parser.py:79-124 | finds the first condition that holds, with all earlier ones false; or reports that none holds; or yields the first error, with all earlier conditions false |
| InterpreterProperties.ElseIfsAreChain | grl_parser.py:92-124 | an ELSEIF list runs the block of its first true condition, else the ELSE block, else nothing |
| InterpreterProperties.IfRunsFirstTrueBlock | grl_parser.py:79-103 | an IF statement runs exactly the block of the first true condition among IF and ELSEIFs, and ELSE only when none holds |
| InterpreterProperties.LaterConditionsIgnored | grl_parser.py:79-124 | conditions after the first true one are never evaluated: replacing them changes nothing, even by ones that would fail |
| InterpreterProperties.IfIgnoresLaterConditions | grl_parser.py:79-124 | two IF statements that agree up to the first true condition behave identically |
| InterpreterProperties.LoopRunsRowsInOrder | grl_parser.py:131-134 | looping over rows `r1 + r2` is looping over `r1`, then over `r2` from the state `r1` left behind |
| InterpreterProperties.LoopRunsBodyOncePerRow | grl_parser.py:131-134 | one row binds the loop ids to the row's values and runs the body once |
| InterpreterProperties.TeardownUnbinds | grl_parser.py:136 | deleting the loop ids removes exactly those bindings; it fails, as a missing loop variable, exactly when one of them is unbound |
| InterpreterProperties.ForUnbindsLoopId | grl_parser.py:128-141 | after a single-id FOR completes, the loop id is unbound |
| InterpreterProperties.ForUnbindsLoopIds | grl_parser.py:143-190 | after a two- or three-id FOR completes, every loop id is unbound |
| InterpreterProperties.ForOverNothing | grl_parser.py:128-141 | a FOR over nothing never runs its body; it fails when the loop id was unbound, and otherwise only removes that binding |
| InterpreterProperties.PrintLoop | grl_parser.py:315-320 | printing the loop id over a list of labels prints every label once, in order |
| InterpreterProperties.PrintLiterals | grl_parser.py:301-313 | PRINT of `TRUE`, `FALSE`, a number literal and a string literal appends exactly `TRUE`, `FALSE`, the number's decimal text and the unquoted string |
| InterpreterProperties.PrintNumberVariable | grl_parser.py:315-320 | a loop variable holding a distance prints as its decimal text, which reads back as the distance when it is non-negative |
| InterpreterProperties.ForNodesPrintsEachNodeOnce | grl_parser.py:192-200 | `FOR n OF NODES g { PRINT n }` prints every node of `g` exactly once, in the graph's own order, then unbinds `n` |
| InterpreterProperties.AddGraphBindsFreshGraph | grl_parser.py:359-367 | ADD GRAPH fails when the id is bound; otherwise it binds exactly that id to an empty graph of the requested kind and leaves every other binding alone |
| InterpreterProperties.AddNodeTwiceIsOnce | grl_parser.py:369-374 | running ADD NODE twice has the same effect as running it once |
| InterpreterProperties.RmGraphDropsBinding | grl_parser.py:380-386 | RM of a graph (of either kind) removes the binding, after which EXISTS is false and the graph cannot be found |
| InterpreterProperties.RmGraphNeedsGraph | grl_parser.py:380-383 | RM of a graph fails when the id is bound to something that is not a graph |
| InterpreterProperties.IsKindSemantics | grl_parser.py:440-452 | IS GRAPH holds for any graph, including digraphs; IS DIGRAPH holds only for directed graphs; an unbound id fails |
| InterpreterProperties.SetWeightChangesOnlyThatEdge | grl_parser.py:398-409 | SET WEIGHT fails when the edge is absent; otherwise it changes only that edge's weight, which then reads back, and no other binding |
| InterpreterProperties.GetWeightReadsStoredOrOne | grl_parser.py:482-491 | GET WEIGHT fails on an absent edge and otherwise yields the stored weight, or 1 |
| InterpreterProperties.BooleanLiterals | grl_parser.py:562-564 | the literal `TRUE` is true and `FALSE` is false |
| InterpreterProperties.DistanceBetweenQuery | grl_parser.py:493-508 | GET DISTANCE BETWEEN fails as a missing node for an absent source, then for an absent target, and otherwise passes the library Dijkstra exactly when every effective weight is non-negative |
| InterpreterProperties.ShortestPathQuery | grl_parser.py:212-226 | SHORTEST PATH yields the library's path as one row per label, chosen with Dijkstra exactly when every effective weight is non-negative |
| InterpreterProperties.DistanceFromQuery | grl_parser.py:248-265 | DISTANCE FROM fails as a missing node when the node is absent; otherwise it succeeds exactly when the library does, with one (label, distance) row per library entry |
| InterpreterProperties.DistanceMatrixQuery | grl_parser.py:267-285 | DISTANCE MATRIX succeeds exactly when the library does, with one (source, target, distance) row per library entry, under the algorithm the weights select |
| InterpreterProperties.DistanceScenario | grl_parser.py:493-508 | after building a digraph with nodes a and b, the distance from a to b is asked of the library with Dijkstra, and the distance to an absent c fails naming c |
| InterpreterProperties.BlockAppend | grl_parser.py:71-75 | a statement sequence `a + b` runs `a`, then `b` from the state `a` left behind, and stops at the first halt or error |
| InterpreterProperties.BuildTwoNodesRuns | grl_parser.py:359-374 | `ADD GRAPH g; ADD NODE "a" g; ADD NODE "b" g` yields a graph with exactly the nodes a, b and no edges |
| InterpreterProperties.WeightScenario | grl_parser.py:398-409 | after `ADD DIGRAPH g`, two nodes, `ADD EDGE "a" "b" g` and `SET WEIGHT OF EDGE "a" "b" 5 g`, GET WEIGHT of that edge is 5 |
| InterpreterProperties.HasEdgeScenario | grl_parser.py:461-466 | in an undirected graph, `HAS EDGE "a" "b"` is false before the edge is added, and both orientations are true after |
| ExportImport.ReplayAppend | grl_parser.py:46-48 | replaying lines `a + b` replays `a`, then `b` from the state `a` left behind |
| ExportImport.SavedLineIsStatement | grl_parser.py:46-48 | a saved line behaves exactly as the statement it becomes, and an unreadable line raises |
| ExportImport.NodeLine | grl_parser.py:59-60 | a saved node line adds that node to the graph being rebuilt |
| ExportImport.EdgeLine | grl_parser.py:62-63 | a saved edge line adds that edge to the graph being rebuilt |
| ExportImport.WeightLine | grl_parser.py:64-67 | a saved non-negative weight line restores that weight; a negative one raises |
| ExportImport.ReplayNodes | grl_parser.py:59-60 | replaying the node lines of distinct new labels appends exactly those labels, in order |
| ExportImport.ReplayEdges | grl_parser.py:62-67 | replaying the edge lines restores every listed edge with its weight; the first negative weight raises |
| ExportImport.NegativeInOrder | grl_parser.py:40-44 | the exported edge lines carry a negative weight exactly when the graph has one |
| ExportImport.ExportImportRoundTrip | grl_parser.py:46-67 | replaying an exported graph under a fresh id rebuilds a graph of the same kind, with the same node order, edges and weights, when no weight is negative, and raises otherwise |
| ExportImport.ExportStep | grl_parser.py:350-357 | EXPORT of a graph records, under the path with `.grlg` appended, the saved lines of that graph in the library's edge order |
| ExportImport.ImportStep | grl_parser.py:337-348 | IMPORT under an unbound id replays the saved lines of the file under that id |
| ExportImport.ExportThenImport | grl_parser.py:337-357 | `EXPORT x "p"` then `IMPORT h "p"` binds `h` to a graph of the same kind as `x`, with the same node order, edges and weights, and records the file `p.grlg` |
| Lexer.DigitRun | grl_lexer.py:27 | the digits scanned from a position are all digits, and the run stops at the end of input or at a non-digit |
| Lexer.IdRun | grl_lexer.py:73 | the identifier characters scanned are all identifier characters, and the run stops at the end of input or at a non-identifier character |
| Lexer.MatchLen | grl_lexer.py:24-73 | every match a pattern reports is non-empty, inside the input, and accepted by the pattern's reference description |
| Lexer.NumberMatchesMaximalDigits | grl_lexer.py:27 | NUMBER matches exactly `n` characters if and only if they are digits and the next character is not a digit |
| Lexer.IdMatchesMaximalIdentifier | grl_lexer.py:73 | ID matches exactly `n` characters if and only if they form an identifier that the next character does not extend |
| Lexer.StringMatchesLiteral | grl_lexer.py:26 | STRING matches exactly `n` characters if and only if they are a quoted literal in which a backslash escapes any character but a newline |
| Lexer.FirstMatch | grl_lexer.py:24-73 | the chosen rule matches and every earlier rule does not; there is no match exactly when no rule matches |
| Lexer.FirstMatchIsEarliest | grl_lexer.py:24-73 | the earliest rule that matches is the one chosen |
| Lexer.ShadowedRuleNeverWins | grl_lexer.py:24-73 | a keyword rule is never chosen when an earlier keyword rule's text is a prefix of it |
| Lexer.WinningToken | grl_lexer.py:24-73 | the token built from the chosen rule starts at the current position, is non-empty, and is what that rule matches there |
| Lexer.TokenizeFrom | grl_lexer.py:4-73 | on success the tokens and ignored blanks cover the input exactly; on failure the scan reaches the reported position, which holds a character that is not a blank and that no rule matches |
| Lexer.SegmentsAreWellFormed | grl_lexer.py:24-73 | every token of a successful tokenization is non-empty, has the kind of a rule that accepts its text, and lies in order in the input |
| Lexer.Tokenize | grl_lexer.py:4-73 | tokenizing a whole text either covers it exactly, or stops at the position where the scan gets stuck: a character that is not a blank and that no rule matches |
| Lexer.TokenizeIsSplit | grl_lexer.py:4-73 | tokenizing succeeds with a token list exactly when that list and blanks split the whole text |
| Lexer.TokenizeFailsExactlyAt | grl_lexer.py:4-73 | tokenizing fails at `p` exactly when the text before `p` splits into tokens and blanks and no rule matches the non-blank character at `p` |
| Lexer.TokenizeComplete | grl_lexer.py:4-73 | every split of the text into first-match tokens and blanks is the one the tokenizer returns |
| Lexer.TokenizeStopsAt | grl_lexer.py:4-73 | when the text up to a stuck position splits into tokens and blanks, the tokenizer fails at exactly that position |
| Lexer.SplitIsUnique | grl_lexer.py:24-73 | a text has at most one split into first-match tokens and blanks |
| Lexer.SplitReaches | grl_lexer.py:24-73 | a split of the text up to `p` is a scan that reaches `p` |
| Lexer.ReachedIsSplit | grl_lexer.py:24-73 | a position the scan reaches has a split of the text before it into tokens and blanks |
| Lexer.ScanStopsAtStuck | grl_lexer.py:24-73 | the scan never passes a position where it is stuck |
| Lexer.DigitRunIsMaximal | grl_lexer.py:27 | a maximal run of digits is exactly what the digit scanner finds |
| Lexer.ScanStringFindsClosingQuote | grl_lexer.py:26 | the string scanner stops at the first unescaped closing quote |
| RuleOrder.NoNodesOrEdgesTokens | grl_lexer.py:38-52 | no tokenization ever contains a NODES or an EDGES token, because NODE and EDGE are tried first |
| RuleOrder.TokenizeNeverYieldsNodesOrEdges | grl_lexer.py:38-52 | whatever text is tokenized, the token stream holds no NODES and no EDGES token |
| RuleOrder.TwoCharComparatorsWin | grl_lexer.py:31-34 | `<=` and `>=` are read as single two-character tokens, never as `<` or `>` followed by `=` |
| RuleOrder.ElseIfWins | grl_lexer.py:60-62 | `ELSEIF` is read as one ELSEIF token, not as ELSE followed by IF |
| RuleOrder.FixedTextWins | grl_lexer.py:24-73 | a fixed-text rule wins wherever its text starts, once no earlier rule can match that text |
| RuleOrder.DistanceBetweenWins | grl_lexer.py:47 | `DISTANCE BETWEEN` is read as one token |
| RuleOrder.DistanceFromWins | grl_lexer.py:48 | `DISTANCE FROM` is read as one token, although it shares `DISTANCE ` with the rule before it |
| RuleOrder.DistanceMatrixWins | grl_lexer.py:49 | `DISTANCE MATRIX` is read as one token, although it shares `DISTANCE ` with the two rules before it |
| RuleOrder.TopologicalSortWins | grl_lexer.py:53 | `TOPOLOGICAL SORT` is read as one token |
| RuleOrder.ShortestPathWins | grl_lexer.py:54 | `SHORTEST PATH` is read as one token |
| RuleOrder.QuotedTextIsOneString | grl_lexer.py:26 | quoted text without quotes or backslashes inside is one STRING token covering both quotes |
| RuleOrder.MinusIsIllegal | grl_lexer.py:24-73 | a minus sign matches no rule, so negative literals are a lexical error |

## Left out

- The SLY grammar and parser: parsing itself, precedence and grammar conflicts are not modelled. The interpreter starts from the syntax tree the actions would build.
- The statement separator: no lexer rule produces `LINE_SEPARATOR` or `EXIT`, which the grammar at grl_parser.py:289-299 expects. The model's statement sequences and its `Exit` statement stand for what the grammar describes.
- Graph algorithms: shortest path, distances, the distance matrix, topological sort, neighbours and the edge enumeration order belong to the graph library. They are fields of the `Library` parameter, so their results are not described. Only the algorithm choice made before calling them (grl_parser.py:212-285, 493-508) is modelled.
- Enumeration order: the library's edge and neighbour order is modelled as a function of the graph's kind, node order, edges and weights. networkx's order also depends on the order in which edges were inserted, so after EXPORT and IMPORT the real `EDGES` and `NEIGHBORS` order can differ from the original graph's even though the rebuilt graph has the same nodes, edges and weights.
- DRAW (grl_parser.py:322-335): drawing is I/O. The model only checks that the id names a graph.
- File I/O: a file is an entry of the state's `files` map, keyed by the path with `.grlg` appended. Reading a missing file fails.
- Exported text: the saved file is modelled as the statement each line becomes, not as characters. Every label is the body of a STRING literal (grl_lexer.py:26), which `_export_graph` writes back verbatim and which lexes again as the same body; only a label holding a newline would be split by `readlines` (grl_parser.py:343-344), and that case is not modelled.
- Number literals are natural numbers and weights are integers: the rounding `float()` applies to integer literals above 2^53 (grl_parser.py:566-572) is not modelled. A literal with a fractional part never lexes (see above), so no other float reaches the interpreter from a literal.
- Interpreter.Exec: its own contract states only that printed output grows and saved files stay; what each statement does is stated by ExecAdd, ExecRm, ExecSetWeight and the InterpreterProperties lemmas.
- Interpreter.EvalNode: an identifier used as a node must be bound to a label; any other value raises. Node labels are strings throughout, and graphs are values, not shared objects. In the source, ADD and RM dispatch on the value's type (grl_parser.py:362-373, 384-392). An identifier bound to a graph makes `ADD NODE x g` bind `g` to that same graph object, or raise when `g` exists, and makes `RM NODE x g` delete `g`'s binding. An integer loop value makes ADD NODE and RM NODE raise an unknown-entity error (grl_parser.py:375-376, 393-394). ADD EDGE, RM EDGE, SET WEIGHT, GET WEIGHT, HAS, NEIGHBORS, SHORTEST PATH and the distance queries hand the value to networkx; ADD EDGE then creates a node with that integer label.
- PRINT of a graph variable: `Render` shows a graph through the library's `describe` field rather than networkx's own text.
- The character classes of the lexer are the ASCII ones; `\d` in Python also matches other Unicode digits.
- The interactive driver in main.py, which keeps the interpreter between input lines, is not part of this model.

=== FILE: export.dfy ===
/**
  Saving and loading graphs. EXPORT writes a graph as a list of saved lines (its kind, its
  nodes, its edges with their weights); IMPORT replays those lines as ADD and SET WEIGHT
  statements against a fresh id. The round trip rebuilds the exported graph exactly,
  provided no weight is negative: a negative weight is written with a minus sign that
  does not read back.
*/
module ExportImport {
  import opened Wrappers
  import opened Graphs
  import opened Runtime
  import opened Interpreter
  import opened InterpreterProperties

  /** Replaying `a + b` replays `a`, then `b` from where `a` left off. */
  lemma {:induction false} ReplayAppend(a: seq<Command>, b: seq<Command>, id: string, st: State, lib: Library)
    ensures Replay(a + b, id, st, lib) ==
      match Replay(a, id, st, lib)
      case Done(st1) => Replay(b, id, st1, lib)
      case other => other
    decreases |a|
  {
    if |a| == 0 {
      assert a + b == b;
    } else {
      assert (a + b)[0] == a[0] && (a + b)[1..] == a[1..] + b;
      match ReplayCommand(a[0], id, st, lib)
      case Done(st1) => ReplayAppend(a[1..], b, id, st1, lib);
      case Halted(_) =>
      case Raised(_, _) =>
    }
  }

  /** A readable saved line does exactly what the statement it completes to does. */
  lemma SavedLineIsStatement(c: Command, id: string, st: State, lib: Library)
    ensures Complete(c, id).None? ==> ReplayCommand(c, id, st, lib) == Raised(UnreadableLine, st)
    ensures Complete(c, id).Some? ==> ReplayCommand(c, id, st, lib) == Exec(Complete(c, id).value, st, lib)
  {
  }

  /** Rebinding an id twice keeps only the second binding. */
  lemma SetGraphTwice(st: State, id: string, g1: Graph, g2: Graph)
    ensures SetGraph(SetGraph(st, id, g1), id, g2) == SetGraph(st, id, g2)
  {
  }

  /** A node line adds its node to the graph being loaded. */
  lemma NodeLine(n: string, g: Graph, id: string, st: State, lib: Library)
    requires id in st.env && st.env[id] == GraphVal(g)
    ensures ReplayCommand(AddNodeCmd(n), id, st, lib) == Done(SetGraph(st, id, AddNode(g, n)))
  {
    DecodeQuoted(n);
  }

  /** An edge line adds its edge to the graph being loaded. */
  lemma EdgeLine(u: string, v: string, g: Graph, id: string, st: State, lib: Library)
    requires id in st.env && st.env[id] == GraphVal(g)
    ensures ReplayCommand(AddEdgeCmd(u, v), id, st, lib) == Done(SetGraph(st, id, AddEdge(g, u, v)))
  {
    assert Complete(AddEdgeCmd(u, v), id) == Some(Add(EdgeEntity(EdgeLit(u, v)), id));
    AddEdgeEntity(u, v, id, st);
  }

  /** A weight line sets a non-negative weight on a loaded edge; a negative one does not read. */
  lemma WeightLine(u: string, v: string, w: int, g: Graph, id: string, st: State, lib: Library)
    requires id in st.env && st.env[id] == GraphVal(g) && HasEdge(g, u, v)
    ensures w >= 0 ==> ReplayCommand(SetWeightCmd(u, v, w), id, st, lib) == Done(SetGraph(st, id, SetWeight(g, u, v, w).value))
    ensures w < 0 ==> ReplayCommand(SetWeightCmd(u, v, w), id, st, lib) == Raised(UnreadableLine, st)
  {
    DecodeQuoted(u);
    DecodeQuoted(v);
  }

  /** Replaying one line that completes goes on with the rest from the state it leaves. */
  lemma ReplayStep(cs: seq<Command>, id: string, st: State, st1: State, lib: Library)
    requires |cs| > 0 && ReplayCommand(cs[0], id, st, lib) == Done(st1)
    ensures Replay(cs, id, st, lib) == Replay(cs[1..], id, st1, lib)
  {
  }

  /** The rest of a list of distinct labels is distinct and fresh for a graph that gained the first. */
  lemma DistinctRest(ns: seq<string>, g: Graph)
    requires |ns| > 0 && Distinct(ns)
    requires forall n :: n in ns ==> n !in g.nodes
    ensures Distinct(ns[1..])
    ensures forall n :: n in ns[1..] ==> n !in g.nodes + [ns[0]]
  {
    forall i, j | 0 <= i < j < |ns[1..]| ensures ns[1..][i] != ns[1..][j] {
      assert ns[1..][i] == ns[i + 1] && ns[1..][j] == ns[j + 1];
    }
    forall n | n in ns[1..] ensures n !in g.nodes + [ns[0]] {
      var k :| 0 <= k < |ns[1..]| && ns[1..][k] == n;
      assert ns[k + 1] == n;
    }
  }

  /** Appending the first element and then the rest appends the whole sequence. */
  lemma AppendFirstThenRest(a: seq<string>, ns: seq<string>)
    requires |ns| > 0
    ensures (a + [ns[0]]) + ns[1..] == a + ns
  {
    assert ns == [ns[0]] + ns[1..];
  }

  /** Replaying node lines starts by appending the first node. */
  lemma FirstNodeLine(ns: seq<string>, g: Graph, id: string, st: State, lib: Library)
    requires id in st.env && st.env[id] == GraphVal(g)
    requires |ns| > 0 && ns[0] !in g.nodes
    ensures Replay(NodeCommands(ns), id, st, lib)
      == Replay(NodeCommands(ns[1..]), id, SetGraph(st, id, g.(nodes := g.nodes + [ns[0]])), lib)
  {
    NodeLine(ns[0], g, id, st, lib);
    ReplayStep(NodeCommands(ns), id, st, SetGraph(st, id, g.(nodes := g.nodes + [ns[0]])), lib);
    assert NodeCommands(ns)[1..] == NodeCommands(ns[1..]);
  }

  /** Replaying node lines appends those nodes, in order, to the graph being loaded. */
  lemma {:induction false} ReplayNodes(ns: seq<string>, g: Graph, id: string, st: State, lib: Library)
    requires id in st.env && st.env[id] == GraphVal(g)
    requires Distinct(ns)
    requires forall n :: n in ns ==> n !in g.nodes
    ensures Replay(NodeCommands(ns), id, st, lib) == Done(SetGraph(st, id, g.(nodes := g.nodes + ns)))
    decreases |ns|
  {
    if |ns| == 0 {
      assert g.nodes + ns == g.nodes;
      assert SetGraph(st, id, g) == st;
    } else {
      var g1 := g.(nodes := g.nodes + [ns[0]]);
      var st1 := SetGraph(st, id, g1);
      FirstNodeLine(ns, g, id, st, lib);
      DistinctRest(ns, g);
      ReplayNodes(ns[1..], g1, id, st1, lib);
      var g2 := g1.(nodes := g1.nodes + ns[1..]);
      AppendFirstThenRest(g.nodes, ns);
      assert g2 == g.(nodes := g.nodes + ns);
      SetGraphTwice(st, id, g1, g2);
    }
  }

  /** The canonical keys of the edges an order lists. */
  function Keys(directed: bool, order: seq<Edge>): (ks: set<Edge>)
    ensures forall i :: 0 <= i < |order| ==> Key(directed, order[i].0, order[i].1) in ks
  {
    set i | 0 <= i < |order| :: Key(directed, order[i].0, order[i].1)
  }

  /** The keys of a non-empty order are its first key and the keys of the rest. */
  lemma KeysFirstAndRest(directed: bool, order: seq<Edge>, done: set<Edge>)
    requires |order| > 0
    ensures done + Keys(directed, order) == (done + {Key(directed, order[0].0, order[0].1)}) + Keys(directed, order[1..])
  {
    forall k | k in Keys(directed, order)
      ensures k == Key(directed, order[0].0, order[0].1) || k in Keys(directed, order[1..])
    {
      var i :| 0 <= i < |order| && Key(directed, order[i].0, order[i].1) == k;
      if i > 0 {
        assert order[1..][i - 1] == order[i];
      }
    }
    forall k | k in Keys(directed, order[1..]) ensures k in Keys(directed, order) {
      var i :| 0 <= i < |order[1..]| && Key(directed, order[1..][i].0, order[1..][i].1) == k;
      assert order[i + 1] == order[1..][i];
    }
  }

  /** The part of `g`'s edge table whose keys are in `ks`. */
  function Restrict(g: Graph, ks: set<Edge>): (m: map<Edge, Option<int>>)
    ensures forall e :: e in m <==> e in g.edges && e in ks
    ensures forall e :: e in m ==> m[e] == g.edges[e]
  {
    map e | e in g.edges && e in ks :: g.edges[e]
  }

  /** The weight algorithms see on an edge of `g`, read through its canonical key. */
  function WeightAt(g: Graph, e: Edge): int
  {
    var k := Key(g.directed, e.0, e.1);
    if k in g.edges then EffectiveWeight(g.edges[k]) else 1
  }

  predicate NegativeIn(g: Graph, order: seq<Edge>)
  {
    exists i :: 0 <= i < |order| && WeightAt(g, order[i]) < 0
  }

  /** The saved lines of one edge: the edge, then its weight when it carries one. */
  function EdgeLines(g: Graph, e: Edge): (cs: seq<Command>)
    ensures |cs| > 0 && cs[0] == AddEdgeCmd(e.0, e.1)
  {
    var k := Key(g.directed, e.0, e.1);
    [AddEdgeCmd(e.0, e.1)] + if k in g.edges && g.edges[k].Some? then [SetWeightCmd(e.0, e.1, g.edges[k].value)] else []
  }

  /** Loading one more key of `g` extends the loaded part of its edge table by that key. */
  lemma RestrictGrows(g: Graph, done: set<Edge>, k: Edge)
    requires k in g.edges && k !in done
    ensures k !in Restrict(g, done)
    ensures Restrict(g, done)[k := g.edges[k]] == Restrict(g, done + {k})
  {
  }

  /** Adding a new edge between present nodes only adds the unweighted edge record. */
  lemma AddEdgeBetweenPresentNodes(h: Graph, u: string, v: string)
    requires u in h.nodes && v in h.nodes && Key(h.directed, u, v) !in h.edges
    ensures AddEdge(h, u, v) == h.(edges := h.edges[Key(h.directed, u, v) := None])
  {
  }

  /**
    Replaying one edge's lines loads that edge with its weight, or stops on an unreadable
    line when the weight is negative.
  */
  lemma OneEdgeLoads(g: Graph, e: Edge, done: set<Edge>, id: string, st: State, lib: Library)
    requires Valid(g)
    requires Key(g.directed, e.0, e.1) in g.edges && Key(g.directed, e.0, e.1) !in done
    requires id in st.env && st.env[id] == GraphVal(Graph(g.directed, g.nodes, Restrict(g, done)))
    ensures WeightAt(g, e) >= 0 ==>
      Replay(EdgeLines(g, e), id, st, lib) ==
        Done(SetGraph(st, id, Graph(g.directed, g.nodes, Restrict(g, done + {Key(g.directed, e.0, e.1)}))))
    ensures WeightAt(g, e) < 0 ==>
      Replay(EdgeLines(g, e), id, st, lib).Raised? && Replay(EdgeLines(g, e), id, st, lib).err == UnreadableLine
  {
    var (u, v) := e;
    var k := Key(g.directed, u, v);
    KeyEndpoints(g.directed, u, v);
    var cur := Graph(g.directed, g.nodes, Restrict(g, done));
    var g1 := Graph(g.directed, g.nodes, Restrict(g, done)[k := None]);
    RestrictGrows(g, done, k);
    AddEdgeBetweenPresentNodes(cur, u, v);
    var st1 := SetGraph(st, id, g1);
    EdgeLine(u, v, cur, id, st, lib);
    ReplayStep(EdgeLines(g, e), id, st, st1, lib);
    var g2 := Graph(g.directed, g.nodes, Restrict(g, done + {k}));
    SetGraphTwice(st, id, g1, g2);
    WeightLineLoads(g, e, done, id, st1, lib);
  }

  /** Setting a loaded edge's saved weight gives it back the record it has in `g`. */
  lemma WeightRestores(g: Graph, done: set<Edge>, u: string, v: string, w: int)
    requires Key(g.directed, u, v) in g.edges && Key(g.directed, u, v) !in done
    requires g.edges[Key(g.directed, u, v)] == Some(w)
    ensures
      var g1 := Graph(g.directed, g.nodes, Restrict(g, done)[Key(g.directed, u, v) := None]);
      SetWeight(g1, u, v, w) == Success(Graph(g.directed, g.nodes, Restrict(g, done + {Key(g.directed, u, v)})))
  {
    var k, m := Key(g.directed, u, v), Restrict(g, done);
    RestrictGrows(g, done, k);
    assert m[k := None][k := Some(w)] == m[k := Some(w)];
  }

  /** The weight line of an edge, replayed once the unweighted edge is loaded. */
  lemma WeightLineLoads(g: Graph, e: Edge, done: set<Edge>, id: string, st1: State, lib: Library)
    requires Key(g.directed, e.0, e.1) in g.edges && Key(g.directed, e.0, e.1) !in done
    requires id in st1.env
    requires st1.env[id] == GraphVal(Graph(g.directed, g.nodes, Restrict(g, done)[Key(g.directed, e.0, e.1) := None]))
    ensures WeightAt(g, e) >= 0 ==>
      Replay(EdgeLines(g, e)[1..], id, st1, lib) ==
        Done(SetGraph(st1, id, Graph(g.directed, g.nodes, Restrict(g, done + {Key(g.directed, e.0, e.1)}))))
    ensures WeightAt(g, e) < 0 ==> Replay(EdgeLines(g, e)[1..], id, st1, lib) == Raised(UnreadableLine, st1)
  {
    var (u, v) := e;
    var k := Key(g.directed, u, v);
    var g1 := st1.env[id].g;
    var g2 := Graph(g.directed, g.nodes, Restrict(g, done + {k}));
    RestrictGrows(g, done, k);
    if g.edges[k].Some? {
      var w := g.edges[k].value;
      var line := [SetWeightCmd(u, v, w)];
      assert EdgeLines(g, e)[1..] == line;
      WeightLine(u, v, w, g1, id, st1, lib);
      if w >= 0 {
        WeightRestores(g, done, u, v, w);
        ReplayStep(line, id, st1, SetGraph(st1, id, g2), lib);
        assert line[1..] == [];
      }
    } else {
      assert EdgeLines(g, e)[1..] == [];
      assert g1 == g2;
      SetGraphTwice(st1, id, g1, g1);
    }
  }

  /** A listed weight is negative when the first one is or one of the rest is. */
  lemma NegativeInFirstOrRest(g: Graph, order: seq<Edge>)
    requires |order| > 0
    ensures NegativeIn(g, order) <==> WeightAt(g, order[0]) < 0 || NegativeIn(g, order[1..])
  {
    if NegativeIn(g, order) && WeightAt(g, order[0]) >= 0 {
      var i :| 0 <= i < |order| && WeightAt(g, order[i]) < 0;
      assert order[1..][i - 1] == order[i];
    }
    if NegativeIn(g, order[1..]) {
      var i :| 0 <= i < |order[1..]| && WeightAt(g, order[1..][i]) < 0;
      assert order[i + 1] == order[1..][i];
    }
  }

  /**
    The edges of `order` are edges of `g`, each listed once, and none of them is among the
    keys already loaded.
  */
  predicate Pending(g: Graph, order: seq<Edge>, done: set<Edge>)
  {
    && (forall i :: 0 <= i < |order| ==> Key(g.directed, order[i].0, order[i].1) in g.edges)
    && (forall i, j :: 0 <= i < j < |order| ==>
          Key(g.directed, order[i].0, order[i].1) != Key(g.directed, order[j].0, order[j].1))
    && (forall i :: 0 <= i < |order| ==> Key(g.directed, order[i].0, order[i].1) !in done)
  }

  /** Once the first edge is loaded, the rest are still pending. */
  lemma PendingRest(g: Graph, order: seq<Edge>, done: set<Edge>)
    requires |order| > 0 && Pending(g, order, done)
    ensures Pending(g, order[1..], done + {Key(g.directed, order[0].0, order[0].1)})
  {
    var rest := order[1..];
    forall i | 0 <= i < |rest|
      ensures Key(g.directed, rest[i].0, rest[i].1) != Key(g.directed, order[0].0, order[0].1)
    {
      assert rest[i] == order[i + 1];
    }
    forall i, j | 0 <= i < j < |rest|
      ensures Key(g.directed, rest[i].0, rest[i].1) != Key(g.directed, rest[j].0, rest[j].1)
    {
      assert rest[i] == order[i + 1] && rest[j] == order[j + 1];
    }
  }

  /**
    Replaying the edge lines of `order` against a graph holding `g`'s nodes and the edges
    already loaded (`done`) loads the listed edges with their weights; the first negative
    weight stops the load as an unreadable line.
  */
  lemma {:induction false} ReplayEdges(g: Graph, order: seq<Edge>, done: set<Edge>, id: string, st: State, lib: Library)
    requires Valid(g) && Pending(g, order, done)
    requires id in st.env && st.env[id] == GraphVal(Graph(g.directed, g.nodes, Restrict(g, done)))
    ensures !NegativeIn(g, order) ==>
      Replay(EdgeCommands(g, order), id, st, lib) ==
        Done(SetGraph(st, id, Graph(g.directed, g.nodes, Restrict(g, done + Keys(g.directed, order)))))
    ensures NegativeIn(g, order) ==>
      Replay(EdgeCommands(g, order), id, st, lib).Raised? && Replay(EdgeCommands(g, order), id, st, lib).err == UnreadableLine
    decreases |order|
  {
    if |order| == 0 {
      assert Restrict(g, done + Keys(g.directed, order)) == Restrict(g, done);
      assert SetGraph(st, id, Graph(g.directed, g.nodes, Restrict(g, done))) == st;
      return;
    }
    var k := Key(g.directed, order[0].0, order[0].1);
    var rest := order[1..];
    assert EdgeCommands(g, order) == EdgeLines(g, order[0]) + EdgeCommands(g, rest);
    ReplayAppend(EdgeLines(g, order[0]), EdgeCommands(g, rest), id, st, lib);
    OneEdgeLoads(g, order[0], done, id, st, lib);
    NegativeInFirstOrRest(g, order);
    if WeightAt(g, order[0]) < 0 {
      return;
    }
    var done' := done + {k};
    var st2 := SetGraph(st, id, Graph(g.directed, g.nodes, Restrict(g, done')));
    PendingRest(g, order, done);
    assert Replay(EdgeCommands(g, order), id, st, lib) == Replay(EdgeCommands(g, rest), id, st2, lib);
    ReplayEdges(g, rest, done', id, st2, lib);
    var final := Graph(g.directed, g.nodes, Restrict(g, done + Keys(g.directed, order)));
    KeysFirstAndRest(g.directed, order, done);
    assert Graph(g.directed, g.nodes, Restrict(g, done' + Keys(g.directed, rest))) == final;
    if !NegativeIn(g, order) {
      assert Replay(EdgeCommands(g, rest), id, st2, lib) == Done(SetGraph(st2, id, final));
      SetGraphTwice(st, id, Graph(g.directed, g.nodes, Restrict(g, done')), final);
    }
  }

  /** An order that enumerates every edge once lists a negative weight exactly when the graph has one. */
  lemma NegativeInOrder(g: Graph, order: seq<Edge>)
    requires Valid(g) && EnumeratesEdges(g, order)
    ensures NegativeIn(g, order) <==> HasNegativeWeights(g)
  {
    if HasNegativeWeights(g) {
      var e :| e in g.edges && EffectiveWeight(g.edges[e]) < 0;
      var i :| 0 <= i < |order| && Key(g.directed, order[i].0, order[i].1) == e;
      assert WeightAt(g, order[i]) < 0;
    }
    if NegativeIn(g, order) {
      var i :| 0 <= i < |order| && WeightAt(g, order[i]) < 0;
      assert EffectiveWeight(g.edges[Key(g.directed, order[i].0, order[i].1)]) < 0;
    }
  }

  /** The kind line of a save binds an empty graph of the saved kind under a fresh id. */
  lemma ReplayKind(g: Graph, id: string, st: State, lib: Library)
    requires id !in st.env
    ensures Replay([AddGraphCmd(g.directed)], id, st, lib) == Done(SetGraph(st, id, EmptyGraph(g.directed)))
  {
    assert [AddGraphCmd(g.directed)][1..] == [];
  }

  /** The node lines of `g`, replayed onto an empty graph of its kind, load its nodes in order. */
  lemma NodesOntoEmpty(g: Graph, id: string, st1: State, lib: Library)
    requires Valid(g) && id in st1.env && st1.env[id] == GraphVal(EmptyGraph(g.directed))
    ensures Replay(NodeCommands(g.nodes), id, st1, lib) ==
      Done(SetGraph(st1, id, Graph(g.directed, g.nodes, Restrict(g, {}))))
  {
    ReplayNodes(g.nodes, EmptyGraph(g.directed), id, st1, lib);
    assert Restrict(g, {}) == map[];
    assert EmptyGraph(g.directed).(nodes := [] + g.nodes) == Graph(g.directed, g.nodes, Restrict(g, {}));
  }

  /** The kind line and the node lines of a save bind `g`'s kind and nodes, without edges. */
  lemma ReplayKindAndNodes(g: Graph, id: string, st: State, lib: Library)
    requires Valid(g) && id !in st.env
    ensures Replay([AddGraphCmd(g.directed)] + NodeCommands(g.nodes), id, st, lib) ==
      Done(SetGraph(st, id, Graph(g.directed, g.nodes, Restrict(g, {}))))
  {
    var st1 := SetGraph(st, id, EmptyGraph(g.directed));
    ReplayKind(g, id, st, lib);
    NodesOntoEmpty(g, id, st1, lib);
    SetGraphTwice(st, id, EmptyGraph(g.directed), Graph(g.directed, g.nodes, Restrict(g, {})));
    ReplayAppend([AddGraphCmd(g.directed)], NodeCommands(g.nodes), id, st, lib);
  }

  /** An order that lists every edge once loads the whole edge table. */
  lemma AllKeysLoaded(g: Graph, order: seq<Edge>)
    requires EnumeratesEdges(g, order)
    ensures Restrict(g, {} + Keys(g.directed, order)) == g.edges
  {
    forall e | e in g.edges ensures e in Keys(g.directed, order) {
      var i :| 0 <= i < |order| && Key(g.directed, order[i].0, order[i].1) == e;
    }
  }

  /**
    Importing what EXPORT wrote for a graph without negative weights rebinds exactly that
    graph — same kind, same nodes in the same order, same edges and weights — under the
    new id, and changes nothing else. With a negative weight the import fails on an
    unreadable line.
  */
  lemma ExportImportRoundTrip(g: Graph, order: seq<Edge>, id: string, st: State, lib: Library)
    requires Valid(g) && EnumeratesEdges(g, order)
    requires id !in st.env
    ensures !HasNegativeWeights(g) ==> Replay(ExportCommands(g, order), id, st, lib) == Done(SetGraph(st, id, g))
    ensures HasNegativeWeights(g) ==>
      Replay(ExportCommands(g, order), id, st, lib).Raised? && Replay(ExportCommands(g, order), id, st, lib).err == UnreadableLine
  {
    var prefix := [AddGraphCmd(g.directed)] + NodeCommands(g.nodes);
    var st2 := SetGraph(st, id, Graph(g.directed, g.nodes, Restrict(g, {})));
    ReplayKindAndNodes(g, id, st, lib);
    assert ExportCommands(g, order) == prefix + EdgeCommands(g, order);
    ReplayAppend(prefix, EdgeCommands(g, order), id, st, lib);
    assert Replay(ExportCommands(g, order), id, st, lib) == Replay(EdgeCommands(g, order), id, st2, lib);
    ReplayEdges(g, order, {}, id, st2, lib);
    NegativeInOrder(g, order);
    if !HasNegativeWeights(g) {
      AllKeysLoaded(g, order);
      assert Graph(g.directed, g.nodes, g.edges) == g;
      SetGraphTwice(st, id, Graph(g.directed, g.nodes, Restrict(g, {})), g);
    }
  }

  /** `EXPORT x "p"` on a graph variable stores the exported lines under the file name `p`. */
  lemma ExportStep(x: string, p: string, st: State, lib: Library)
    requires x in st.env && st.env[x].GraphVal?
    ensures var g := st.env[x].g;
      Exec(Export(x, StrLit(Quote(p))), st, lib) ==
        Done(st.(files := st.files[FileName(p) := ExportCommands(g, lib.edgeOrder(g))]))
  {
    DecodeQuoted(p);
  }

  /** `IMPORT h "p"` replays the lines saved under the file name `p` against `h`. */
  lemma ImportStep(h: string, p: string, st: State, lib: Library)
    requires h !in st.env && FileName(p) in st.files
    ensures Exec(Import(h, StrLit(Quote(p))), st, lib) == Replay(st.files[FileName(p)], h, st, lib)
  {
    DecodeQuoted(p);
  }

  /**
    `EXPORT x "p"` followed by `IMPORT h "p"`, with `h` unbound and the library listing
    every edge once, leaves `h` bound to a copy of `x`'s graph when no weight is negative.
  */
  lemma ExportThenImport(x: string, h: string, p: string, st: State, lib: Library)
    requires x in st.env && st.env[x].GraphVal?
    requires h !in st.env
    requires Valid(st.env[x].g) && EnumeratesEdges(st.env[x].g, lib.edgeOrder(st.env[x].g))
    requires !HasNegativeWeights(st.env[x].g)
    ensures var st1 := st.(files := st.files[FileName(p) := ExportCommands(st.env[x].g, lib.edgeOrder(st.env[x].g))]);
      Run([Export(x, StrLit(Quote(p))), Import(h, StrLit(Quote(p)))], st, lib) == Done(SetGraph(st1, h, st.env[x].g))
  {
    var g := st.env[x].g;
    var st1 := st.(files := st.files[FileName(p) := ExportCommands(g, lib.edgeOrder(g))]);
    var s0, s1 := Export(x, StrLit(Quote(p))), Import(h, StrLit(Quote(p)));
    ExportStep(x, p, st, lib);
    ImportStep(h, p, st1, lib);
    ExportImportRoundTrip(g, lib.edgeOrder(g), h, st1, lib);
    assert Exec(s1, st1, lib) == Done(SetGraph(st1, h, g));
    assert ExecBlock([s1], st1, lib) == Done(SetGraph(st1, h, g)) by {
      assert [s1][1..] == [];
    }
    assert [s0, s1][0] == s0 && [s0, s1][1..] == [s1];
  }
}

=== FILE: graphs.dfy ===
/**
  The graph values the interpreter manipulates, standing in for the graph library's
  `Graph` (undirected) and `DiGraph` (directed) classes. Only the behaviour the interpreter
  relies on is modelled, and it is stated here as explicit assumptions about that library:

  - nodes are kept in insertion order and adding a present node changes nothing;
  - adding an edge first adds its missing endpoints (source, then target) and keeps the
    attributes of an edge that is already present;
  - an undirected graph answers `has_edge(u, v)` and `has_edge(v, u)` alike;
  - removing an absent node or edge raises an error;
  - removing a node removes every edge touching it.

  An edge may carry a weight; a missing weight reads as 1. Undirected edges are stored
  under one canonical orientation (the lexicographically smaller endpoint first) so that
  both orientations address the same record.
*/
module Graphs {
  import opened Wrappers
  import Strings

  type Edge = (string, string)

  datatype Graph = Graph(directed: bool, nodes: seq<string>, edges: map<Edge, Option<int>>)

  /** What the library raises when a node or edge operation finds no target. */
  datatype GraphError = NodeNotFound(node: string) | EdgeNotFound(source: string, target: string)

  /** The record under which the edge from `u` to `v` is stored. */
  function Key(directed: bool, u: string, v: string): Edge
  {
    if directed || !Strings.Less(v, u) then (u, v) else (v, u)
  }

  ghost predicate Distinct(s: seq<string>)
  {
    forall i, j :: 0 <= i < j < |s| ==> s[i] != s[j]
  }

  /** Every node once, every edge between present nodes, every edge under its own key. */
  ghost predicate Valid(g: Graph)
  {
    && Distinct(g.nodes)
    && (forall e :: e in g.edges ==> e.0 in g.nodes && e.1 in g.nodes)
    && (forall e :: e in g.edges ==> e == Key(g.directed, e.0, e.1))
  }

  /** `nx.Graph()` / `nx.DiGraph()`. */
  function EmptyGraph(directed: bool): (g: Graph)
    ensures Valid(g)
    ensures g.directed == directed
    ensures forall n :: !HasNode(g, n)
    ensures forall u, v :: !HasEdge(g, u, v)
  {
    Graph(directed, [], map[])
  }

  predicate HasNode(g: Graph, n: string)
  {
    n in g.nodes
  }

  predicate HasEdge(g: Graph, u: string, v: string)
  {
    Key(g.directed, u, v) in g.edges
  }

  /** The weight algorithms use: the stored weight, or 1 when none is stored. */
  function EffectiveWeight(w: Option<int>): int
  {
    match w
    case None => 1
    case Some(x) => x
  }

  function NodeCount(g: Graph): nat
  {
    |g.nodes|
  }

  function EdgeCount(g: Graph): nat
  {
    |g.edges|
  }

  /** Both orientations of an undirected edge address the same record. */
  lemma KeySymmetric(u: string, v: string)
    ensures Key(false, u, v) == Key(false, v, u)
  {
    Strings.Trichotomy(u, v);
  }

  /** An undirected graph has an edge from `u` to `v` exactly when it has one from `v` to `u`. */
  lemma UndirectedHasEdgeSymmetric(g: Graph, u: string, v: string)
    requires !g.directed
    ensures HasEdge(g, u, v) <==> HasEdge(g, v, u)
  {
    KeySymmetric(u, v);
  }

  /** The key of an edge names exactly its two endpoints. */
  lemma KeyEndpoints(directed: bool, u: string, v: string)
    ensures Key(directed, u, v) == (u, v) || (!directed && Key(directed, u, v) == (v, u))
    ensures Key(directed, Key(directed, u, v).0, Key(directed, u, v).1) == Key(directed, u, v)
  {
    KeySymmetric(u, v);
  }

  /** `add_node`: a new node goes to the end, a present one changes nothing. */
  function AddNode(g: Graph, n: string): (r: Graph)
    ensures Valid(g) ==> Valid(r)
    ensures r.directed == g.directed && r.edges == g.edges
    ensures forall m :: HasNode(r, m) <==> HasNode(g, m) || m == n
    ensures g.nodes <= r.nodes
    ensures HasNode(g, n) ==> r == g
    ensures !HasNode(g, n) ==> NodeCount(r) == NodeCount(g) + 1
  {
    if n in g.nodes then g else g.(nodes := g.nodes + [n])
  }

  /** Adding the same node twice is the same as adding it once. */
  lemma AddNodeIdempotent(g: Graph, n: string)
    ensures AddNode(AddNode(g, n), n) == AddNode(g, n)
    ensures NodeCount(AddNode(AddNode(g, n), n)) == NodeCount(AddNode(g, n))
  {
  }

  /**
    `add_edge`: creates the missing endpoints, then the edge (unweighted) unless it is
    already there, in which case its weight is kept.
  */
  function AddEdge(g: Graph, u: string, v: string): (r: Graph)
    ensures Valid(g) ==> Valid(r)
    ensures r.directed == g.directed
    ensures forall m :: HasNode(r, m) <==> HasNode(g, m) || m == u || m == v
    ensures g.nodes <= r.nodes
    ensures HasEdge(r, u, v)
    ensures forall x, y :: HasEdge(r, x, y) <==> HasEdge(g, x, y) || Key(g.directed, x, y) == Key(g.directed, u, v)
    ensures forall e :: e in g.edges ==> e in r.edges && r.edges[e] == g.edges[e]
    ensures !HasEdge(g, u, v) ==> r.edges[Key(g.directed, u, v)] == None
    ensures r.nodes == g.nodes + (if HasNode(g, u) then [] else [u]) + (if HasNode(g, v) || v == u then [] else [v])
  {
    var g1 := AddNode(AddNode(g, u), v);
    assert g1.nodes == g.nodes + (if HasNode(g, u) then [] else [u]) + (if HasNode(g, v) || v == u then [] else [v]);
    var k := Key(g.directed, u, v);
    if k in g1.edges then g1 else
      KeyEndpoints(g.directed, u, v);
      NewEdgeKeepsValid(g1, k);
      g1.(edges := g1.edges[k := None])
  }

  /** An unweighted record between present nodes, under its own key, keeps a graph valid. */
  lemma NewEdgeKeepsValid(g: Graph, k: Edge)
    ensures Valid(g) && k.0 in g.nodes && k.1 in g.nodes && k == Key(g.directed, k.0, k.1) ==>
      Valid(g.(edges := g.edges[k := None]))
  {
  }

  /** The sequence `s` with every occurrence of `x` dropped, order otherwise kept. */
  function Without(s: seq<string>, x: string): (r: seq<string>)
    ensures forall m :: m in r <==> m in s && m != x
    ensures Distinct(s) ==> Distinct(r)
    ensures |r| <= |s|
    ensures x !in s ==> r == s
  {
    if |s| == 0 then []
    else if s[0] == x then Without(s[1..], x)
    else
      var rest := Without(s[1..], x);
      assert Distinct(s) ==> s[0] !in s[1..];
      [s[0]] + rest
  }

  /** In a sequence without repeats, dropping `x` removes exactly its one position. */
  lemma {:induction false} WithoutRemovesAt(s: seq<string>, x: string, k: nat)
    requires Distinct(s) && k < |s| && s[k] == x
    ensures Without(s, x) == s[..k] + s[k + 1..]
    decreases k
  {
    if k == 0 {
      assert x !in s[1..];
      assert s[..0] + s[1..] == s[1..];
    } else {
      var t := s[1..];
      assert s[0] != x && t[k - 1] == x;
      DistinctTail(s);
      WithoutRemovesAt(t, x, k - 1);
      assert Without(s, x) == [s[0]] + Without(t, x);
      assert t[..k - 1] == s[1..k] && t[k..] == s[k + 1..];
      assert [s[0]] + s[1..k] == s[..k];
    }
  }

  /** Dropping the head of a sequence without repeats leaves one without repeats. */
  lemma DistinctTail(s: seq<string>)
    requires |s| > 0 && Distinct(s)
    ensures Distinct(s[1..])
  {
    forall i, j | 0 <= i < j < |s| - 1
      ensures s[1..][i] != s[1..][j]
    {
      assert s[1..][i] == s[i + 1] && s[1..][j] == s[j + 1];
    }
  }

  /** `remove_node`: fails when the node is absent; otherwise drops it and its edges. */
  function RemoveNode(g: Graph, n: string): (r: Result<Graph, GraphError>)
    ensures r.Failure? <==> !HasNode(g, n)
    ensures r.Failure? ==> r.error == NodeNotFound(n)
    ensures r.Success? ==> r.value.directed == g.directed
    ensures r.Success? ==> forall m :: HasNode(r.value, m) <==> HasNode(g, m) && m != n
    ensures r.Success? && Valid(g) ==> Valid(r.value)
    ensures r.Success? && Valid(g) ==>
      forall x, y :: HasEdge(r.value, x, y) <==> HasEdge(g, x, y) && x != n && y != n
  {
    if n !in g.nodes then Failure(NodeNotFound(n))
    else
      var edges := map e | e in g.edges && e.0 != n && e.1 != n :: g.edges[e];
      var r := g.(nodes := Without(g.nodes, n), edges := edges);
      assert Valid(g) ==> forall x, y :: HasEdge(r, x, y) <==> HasEdge(g, x, y) && x != n && y != n by {
        forall x, y ensures Valid(g) ==> (HasEdge(r, x, y) <==> HasEdge(g, x, y) && x != n && y != n) {
          KeyEndpoints(g.directed, x, y);
        }
      }
      Success(r)
  }

  /** Removing a node keeps every other node in its insertion order. */
  lemma RemoveNodeKeepsOrder(g: Graph, n: string, k: nat)
    requires Valid(g) && k < |g.nodes| && g.nodes[k] == n
    ensures RemoveNode(g, n).Success? && RemoveNode(g, n).value.nodes == g.nodes[..k] + g.nodes[k + 1..]
  {
    WithoutRemovesAt(g.nodes, n, k);
  }

  /** `remove_edge`: fails when the edge is absent; otherwise drops that edge only. */
  function RemoveEdge(g: Graph, u: string, v: string): (r: Result<Graph, GraphError>)
    ensures r.Failure? <==> !HasEdge(g, u, v)
    ensures r.Failure? ==> r.error == EdgeNotFound(u, v)
    ensures r.Success? ==> r.value.directed == g.directed && r.value.nodes == g.nodes
    ensures r.Success? ==> !HasEdge(r.value, u, v)
    ensures r.Success? ==>
      forall x, y :: HasEdge(r.value, x, y) <==> HasEdge(g, x, y) && Key(g.directed, x, y) != Key(g.directed, u, v)
    ensures r.Success? && Valid(g) ==> Valid(r.value)
  {
    if !HasEdge(g, u, v) then Failure(EdgeNotFound(u, v))
    else Success(g.(edges := g.edges - {Key(g.directed, u, v)}))
  }

  /** The weight stored on a present edge, `None` when it carries no weight. */
  function StoredWeight(g: Graph, u: string, v: string): Option<int>
    requires HasEdge(g, u, v)
  {
    g.edges[Key(g.directed, u, v)]
  }

  /**
    `graph.edges[edge]["weight"] = w` after the `has_edge` check: fails with the graph
    untouched when the edge is absent; otherwise only that edge's weight changes.
  */
  function SetWeight(g: Graph, u: string, v: string, w: int): (r: Result<Graph, GraphError>)
    ensures r.Failure? <==> !HasEdge(g, u, v)
    ensures r.Failure? ==> r.error == EdgeNotFound(u, v)
    ensures r.Success? ==> r.value.directed == g.directed && r.value.nodes == g.nodes
    ensures r.Success? ==> r.value.edges.Keys == g.edges.Keys
    ensures r.Success? ==> StoredWeight(r.value, u, v) == Some(w)
    ensures r.Success? ==> forall e :: e in g.edges && e != Key(g.directed, u, v) ==> r.value.edges[e] == g.edges[e]
    ensures r.Success? && Valid(g) ==> Valid(r.value)
  {
    if !HasEdge(g, u, v) then Failure(EdgeNotFound(u, v))
    else Success(g.(edges := g.edges[Key(g.directed, u, v) := Some(w)]))
  }

  /** `get_edge_data(u, v).get("weight", 1)` after the `has_edge` check. */
  function GetWeight(g: Graph, u: string, v: string): (r: Result<int, GraphError>)
    ensures r.Failure? <==> !HasEdge(g, u, v)
    ensures r.Failure? ==> r.error == EdgeNotFound(u, v)
    ensures r.Success? ==> r.value == EffectiveWeight(StoredWeight(g, u, v))
  {
    if !HasEdge(g, u, v) then Failure(EdgeNotFound(u, v))
    else Success(EffectiveWeight(g.edges[Key(g.directed, u, v)]))
  }

  /** Reading back a weight just set gives that weight, through either orientation when undirected. */
  lemma SetThenGetWeight(g: Graph, u: string, v: string, w: int)
    requires HasEdge(g, u, v)
    ensures SetWeight(g, u, v, w).Success?
    ensures GetWeight(SetWeight(g, u, v, w).value, u, v) == Success(w)
    ensures !g.directed ==> GetWeight(SetWeight(g, u, v, w).value, v, u) == Success(w)
  {
    KeySymmetric(u, v);
  }

  /** A freshly added edge weighs 1. */
  lemma NewEdgeWeighsOne(g: Graph, u: string, v: string)
    requires !HasEdge(g, u, v)
    ensures GetWeight(AddEdge(g, u, v), u, v) == Success(1)
  {
  }
}

=== FILE: interpreter.dfy ===
/**
  The semantic actions of the GRL grammar, as a functional interpreter over the syntax
  tree the parser would build. Every statement maps a `State` (variable table, printed
  lines, saved graph files) to an `Outcome`: it completes, it halts the program (`EXIT`),
  or it raises an error, in which case the state reached at that point is kept, as the
  interactive driver keeps it.

  The order in which sub-expressions are evaluated is the order of each action's
  parameter list: an identifier given as a literal needs no evaluation, every other
  operand is evaluated left to right before the action runs, and statement bodies are
  handed over unevaluated.
*/
module Interpreter {
  import opened Wrappers
  import opened Graphs
  import opened Runtime
  import Strings

  // ----- Syntax -----

  datatype GraphKind = GraphType | DigraphType

  /** A STRING token's text, quotes included. */
  datatype StrExpr = StrLit(raw: string)

  datatype NodeExpr = NodeStr(s: StrExpr) | NodeId(name: string)

  datatype EdgeExpr = EdgeOf(source: NodeExpr, target: NodeExpr)

  /** Number expressions; a NUMBER token holds digits only, so a literal is a natural number. */
  datatype NumExpr =
    | NumLit(n: nat)
    | NodeCountOf(id: string)
    | EdgeCountOf(id: string)
    | WeightOf(edge: EdgeExpr, id: string)
    | DistanceBetween(edge: EdgeExpr, id: string)

  datatype BoolExpr =
    | BoolLit(text: string)
    | Exists(id: string)
    | IsKind(kind: GraphKind, id: string)
    | HasNodeIn(node: NodeExpr, id: string)
    | HasEdgeIn(edge: EdgeExpr, id: string)
    | Comparison(left: Comparand, op: Comparator, right: Comparand)

  datatype Comparand = CBool(b: BoolExpr) | CNum(n: NumExpr) | CStr(s: StrExpr)

  datatype Entity = GraphEntity(kind: GraphKind) | NodeEntity(node: NodeExpr) | EdgeEntity(edge: EdgeExpr)

  datatype SingleIterator =
    | NodesOf(id: string)
    | TopologicalSortOf(id: string)
    | ShortestPathIn(edge: EdgeExpr, id: string)
    | NeighborsOf(node: NodeExpr, id: string)

  datatype DoubleIterator = EdgesOf(id: string) | DistanceFrom(node: NodeExpr, id: string)

  datatype TripleIterator = DistanceMatrix(id: string)

  datatype PrintArg = PrintBool(b: BoolExpr) | PrintNumber(n: NumExpr) | PrintString(s: StrExpr) | PrintVariable(id: string)

  datatype Stmt =
    | Skip
    | Exit
    | Print(arg: PrintArg)
    | Draw(id: string)
    | Import(id: string, path: StrExpr)
    | Export(id: string, path: StrExpr)
    | Add(entity: Entity, id: string)
    | Rm(entity: Entity, id: string)
    | SetWeightOf(edge: EdgeExpr, weight: NumExpr, id: string)
    | If(cond: BoolExpr, body: seq<Stmt>, elseIfs: seq<ElseIf>, elseBody: ElsePart)
    | For1(x: string, iter1: SingleIterator, body: seq<Stmt>)
    | For2(x: string, y: string, iter2: DoubleIterator, body: seq<Stmt>)
    | For3(x: string, y: string, z: string, iter3: TripleIterator, body: seq<Stmt>)

  datatype ElseIf = ElseIf(cond: BoolExpr, body: seq<Stmt>)

  /** The optional ELSE block of an IF chain. */
  datatype ElsePart = NoElse | Else(body: seq<Stmt>)

  /** One line of a saved graph file: a statement still missing its trailing graph id. */
  datatype Command =
    | AddGraphCmd(directed: bool)
    | AddNodeCmd(node: string)
    | AddEdgeCmd(source: string, target: string)
    | SetWeightCmd(source: string, target: string, weight: int)

  datatype State = State(env: Env, out: seq<string>, files: map<string, seq<Command>>)

  datatype Outcome = Done(st: State) | Halted(st: State) | Raised(err: Error, st: State)

  // ----- Literals -----

  /** A BOOLEAN token is true exactly when its text is `TRUE`. */
  function DecodeBool(text: string): bool
  {
    text == "TRUE"
  }

  /** A STRING token's value is its text without the first and last character (`x[1:-1]`). */
  function DecodeString(raw: string): string
  {
    if |raw| < 2 then "" else raw[1..|raw| - 1]
  }

  function Quote(s: string): string
  {
    "\"" + s + "\""
  }

  /** The node operand written as a string literal. */
  function NodeLiteral(name: string): NodeExpr
  {
    NodeStr(StrLit(Quote(name)))
  }

  /** Decoding undoes quoting, so a label written between quotes reads back unchanged. */
  lemma DecodeQuoted(s: string)
    ensures DecodeString(Quote(s)) == s
  {
    assert Quote(s)[1..|Quote(s)| - 1] == s;
  }

  // ----- Expressions -----

  /** A node operand: a string literal, or an identifier whose binding is used as the label. */
  function EvalNode(n: NodeExpr, env: Env): (r: Result<string, Error>)
    ensures n.NodeStr? ==> r == Success(DecodeString(n.s.raw))
    ensures n.NodeId? ==> (r.Success? <==> n.name in env && env[n.name].Str?)
    ensures n.NodeId? && r.Success? ==> env[n.name] == Str(r.value)
    ensures n.NodeId? && n.name !in env ==> r == Failure(UndefinedVariable(n.name))
  {
    match n
    case NodeStr(s) => Success(DecodeString(s.raw))
    case NodeId(x) =>
      match GetVariable(env, x)
      case Failure(e) => Failure(e)
      case Success(v) => if v.Str? then Success(v.s) else Failure(NotANodeLabel(x))
  }

  /** An edge operand: source, then target. */
  function EvalEdge(e: EdgeExpr, env: Env): (r: Result<(string, string), Error>)
    ensures r.Success? <==> EvalNode(e.source, env).Success? && EvalNode(e.target, env).Success?
    ensures r.Success? ==> r.value == (EvalNode(e.source, env).value, EvalNode(e.target, env).value)
    ensures EvalNode(e.source, env).Failure? ==> r == Failure(EvalNode(e.source, env).error)
  {
    match EvalNode(e.source, env)
    case Failure(err) => Failure(err)
    case Success(u) =>
      match EvalNode(e.target, env)
      case Failure(err) => Failure(err)
      case Success(v) => Success((u, v))
  }

  function InGraphResult<T>(r: Result<T, GraphError>): Result<T, Error>
  {
    match r
    case Failure(e) => Failure(InGraph(e))
    case Success(v) => Success(v)
  }

  function FromLibrary<T>(r: Result<T, string>): Result<T, Error>
  {
    match r
    case Failure(m) => Failure(AlgorithmFailure(m))
    case Success(v) => Success(v)
  }

  /**
    Number expressions. The edge operand is evaluated before the graph is looked up; a
    weight reads as stored or 1; a distance first checks both endpoints, source first, and
    then asks the library with the algorithm the graph's current weights select.
  */
  function EvalNum(e: NumExpr, env: Env, lib: Library): (r: Result<int, Error>)
    ensures e.NumLit? ==> r == Success(e.n)
    ensures (e.NodeCountOf? || e.EdgeCountOf?) ==> (r.Success? <==> GetGraph(env, e.id).Success?)
    ensures e.NodeCountOf? && r.Success? ==> r.value == |GetGraph(env, e.id).value.nodes|
    ensures e.EdgeCountOf? && r.Success? ==> r.value == |GetGraph(env, e.id).value.edges|
    ensures (e.WeightOf? || e.DistanceBetween?) && EvalEdge(e.edge, env).Failure? ==>
      r == Failure(EvalEdge(e.edge, env).error)
    ensures (e.WeightOf? || e.DistanceBetween?) && EvalEdge(e.edge, env).Success? && GetGraph(env, e.id).Failure? ==>
      r == Failure(GetGraph(env, e.id).error)
    ensures e.WeightOf? && EvalEdge(e.edge, env).Success? && GetGraph(env, e.id).Success? ==>
      var g, u, v := GetGraph(env, e.id).value, EvalEdge(e.edge, env).value.0, EvalEdge(e.edge, env).value.1;
      && (r.Failure? <==> !HasEdge(g, u, v))
      && (r.Failure? ==> r.error == InGraph(EdgeNotFound(u, v)))
      && (r.Success? ==> r.value == EffectiveWeight(StoredWeight(g, u, v)))
    ensures e.DistanceBetween? && EvalEdge(e.edge, env).Success? && GetGraph(env, e.id).Success? ==>
      var g, u, v := GetGraph(env, e.id).value, EvalEdge(e.edge, env).value.0, EvalEdge(e.edge, env).value.1;
      && (!HasNode(g, u) ==> r == Failure(InGraph(NodeNotFound(u))))
      && (HasNode(g, u) && !HasNode(g, v) ==> r == Failure(InGraph(NodeNotFound(v))))
      && (HasNode(g, u) && HasNode(g, v) ==>
            r == FromLibrary(lib.distanceBetween(g, u, v, if HasNegativeWeights(g) then BellmanFord else Dijkstra)))
  {
    match e
    case NumLit(n) => Success(n)
    case NodeCountOf(id) =>
      var g :- GetGraph(env, id);
      Success(NodeCount(g))
    case EdgeCountOf(id) =>
      var g :- GetGraph(env, id);
      Success(EdgeCount(g))
    case WeightOf(edge, id) =>
      var uv :- EvalEdge(edge, env);
      var g :- GetGraph(env, id);
      InGraphResult(GetWeight(g, uv.0, uv.1))
    case DistanceBetween(edge, id) =>
      var uv :- EvalEdge(edge, env);
      var g :- GetGraph(env, id);
      if !HasNode(g, uv.0) then Failure(InGraph(NodeNotFound(uv.0)))
      else if !HasNode(g, uv.1) then Failure(InGraph(NodeNotFound(uv.1)))
      else FromLibrary(lib.distanceBetween(g, uv.0, uv.1, ChooseAlgorithm(g)))
  }

  /**
    Boolean expressions. Literals and EXISTS never fail; IS fails only on an unbound name;
    HAS reads the bound graph; a comparison fails only on operands it cannot order.
  */
  function EvalBool(e: BoolExpr, env: Env, lib: Library): (r: Result<bool, Error>)
    decreases e
    ensures (e.BoolLit? || e.Exists?) ==> r.Success?
    ensures e.BoolLit? ==> (r.value <==> e.text == "TRUE")
    ensures e.Exists? ==> (r.value <==> e.id in env)
    ensures e.IsKind? ==> (r.Success? <==> e.id in env)
    ensures e.IsKind? && r.Success? ==> (r.value <==> env[e.id].GraphVal? && (e.kind == DigraphType ==> env[e.id].g.directed))
    ensures e.HasNodeIn? && EvalNode(e.node, env).Success? ==> (r.Success? <==> GetGraph(env, e.id).Success?)
    ensures e.HasNodeIn? && EvalNode(e.node, env).Success? && GetGraph(env, e.id).Success? ==>
      r == Success(HasNode(GetGraph(env, e.id).value, EvalNode(e.node, env).value))
    ensures e.HasEdgeIn? && EvalEdge(e.edge, env).Success? ==> (r.Success? <==> GetGraph(env, e.id).Success?)
    ensures e.HasEdgeIn? && EvalEdge(e.edge, env).Success? && GetGraph(env, e.id).Success? ==>
      r == Success(HasEdge(GetGraph(env, e.id).value, EvalEdge(e.edge, env).value.0, EvalEdge(e.edge, env).value.1))
    ensures e.Comparison? && r.Failure? && EvalComparand(e.left, env, lib).Success? && EvalComparand(e.right, env, lib).Success? ==>
      r.error == NotComparable && e.op !in {Eq, Neq}
  {
    match e
    case BoolLit(text) => Success(DecodeBool(text))
    case Exists(id) => Success(id in env)
    case IsKind(kind, id) =>
      var v :- GetVariable(env, id);
      Success(match kind
        case GraphType => v.GraphVal?
        case DigraphType => v.GraphVal? && v.g.directed)
    case HasNodeIn(node, id) =>
      var n :- EvalNode(node, env);
      var g :- GetGraph(env, id);
      Success(HasNode(g, n))
    case HasEdgeIn(edge, id) =>
      var uv :- EvalEdge(edge, env);
      var g :- GetGraph(env, id);
      Success(HasEdge(g, uv.0, uv.1))
    case Comparison(left, op, right) =>
      var l :- EvalComparand(left, env, lib);
      var r :- EvalComparand(right, env, lib);
      Compare(l, op, r)
  }

  function EvalComparand(c: Comparand, env: Env, lib: Library): (r: Result<Value, Error>)
    decreases c
    ensures r.Success? ==> !r.value.GraphVal?
  {
    match c
    case CBool(b) =>
      var v :- EvalBool(b, env, lib);
      Success(Bool(v))
    case CNum(n) =>
      var v :- EvalNum(n, env, lib);
      Success(Int(v))
    case CStr(s) => Success(Str(DecodeString(s.raw)))
  }

  /** The line PRINT emits: booleans in upper case, a variable through `str`. */
  function EvalPrint(a: PrintArg, env: Env, lib: Library): (r: Result<string, Error>)
    ensures a.PrintBool? ==> (r.Success? <==> EvalBool(a.b, env, lib).Success?)
    ensures a.PrintBool? && r.Success? ==>
      r.value in {"TRUE", "FALSE"} && (r.value == "TRUE" <==> EvalBool(a.b, env, lib).value)
    ensures a.PrintNumber? ==> (r.Success? <==> EvalNum(a.n, env, lib).Success?)
    ensures a.PrintNumber? && r.Success? && EvalNum(a.n, env, lib).value >= 0 ==>
      Strings.AllDigits(r.value) && Strings.DigitsValue(r.value) == EvalNum(a.n, env, lib).value
    ensures a.PrintString? ==> forall x :: a.s.raw == Quote(x) ==> r == Success(x)
    ensures a.PrintVariable? ==> (r.Success? <==> a.id in env)
    ensures a.PrintVariable? && r.Success? && env[a.id].Bool? ==>
      r.value in {"True", "False"} && (r.value == "True" <==> env[a.id].b)
  {
    match a
    case PrintBool(b) =>
      var v :- EvalBool(b, env, lib);
      Success(if v then "TRUE" else "FALSE")
    case PrintNumber(n) =>
      var v :- EvalNum(n, env, lib);
      Success(Strings.IntToString(v))
    case PrintString(s) => Success(DecodeString(s.raw))
    case PrintVariable(id) =>
      var v :- GetVariable(env, id);
      Success(Render(v, lib))
  }

  // ----- Iterators: each produces the rows a FOR loop binds, one value per loop id -----

  function Singles(labels: seq<string>): (rows: seq<seq<Value>>)
    ensures |rows| == |labels|
    ensures forall i :: 0 <= i < |rows| ==> rows[i] == [Str(labels[i])]
  {
    seq(|labels|, i requires 0 <= i < |labels| => [Str(labels[i])])
  }

  /** A list of labels from the library as loop rows, or its failure as an interpreter error. */
  function LabelRows(labels: Result<seq<string>, string>): (r: Result<seq<seq<Value>>, Error>)
    ensures r.Success? <==> labels.Success?
    ensures r.Failure? ==> r.error == AlgorithmFailure(labels.error)
    ensures r.Success? ==> r.value == Singles(labels.value)
  {
    match labels
    case Failure(m) => Failure(AlgorithmFailure(m))
    case Success(ls) => Success(Singles(ls))
  }

  /**
    The single iterators: the graph's nodes in insertion order, or the labels the library
    returns; the shortest path is asked for with the algorithm the current weights select.
  */
  function EvalSingle(it: SingleIterator, env: Env, lib: Library): (r: Result<seq<seq<Value>>, Error>)
    ensures r.Success? ==> forall i :: 0 <= i < |r.value| ==> |r.value[i]| == 1
    ensures it.NodesOf? ==> (r.Success? <==> GetGraph(env, it.id).Success?)
    ensures it.NodesOf? && r.Success? ==> r.value == Singles(GetGraph(env, it.id).value.nodes)
    ensures it.TopologicalSortOf? && GetGraph(env, it.id).Success? ==>
      r == LabelRows(lib.topologicalSort(GetGraph(env, it.id).value))
    ensures it.ShortestPathIn? && EvalEdge(it.edge, env).Success? && GetGraph(env, it.id).Success? ==>
      var g, u, v := GetGraph(env, it.id).value, EvalEdge(it.edge, env).value.0, EvalEdge(it.edge, env).value.1;
      r == LabelRows(lib.shortestPath(g, u, v, if HasNegativeWeights(g) then BellmanFord else Dijkstra))
    ensures it.NeighborsOf? && EvalNode(it.node, env).Success? && GetGraph(env, it.id).Success? ==>
      r == LabelRows(lib.neighbors(GetGraph(env, it.id).value, EvalNode(it.node, env).value))
  {
    match it
    case NodesOf(id) =>
      var g :- GetGraph(env, id);
      Success(Singles(g.nodes))
    case TopologicalSortOf(id) =>
      var g :- GetGraph(env, id);
      var order :- FromLibrary(lib.topologicalSort(g));
      Success(Singles(order))
    case ShortestPathIn(edge, id) =>
      var uv :- EvalEdge(edge, env);
      var g :- GetGraph(env, id);
      var path :- FromLibrary(lib.shortestPath(g, uv.0, uv.1, ChooseAlgorithm(g)));
      Success(Singles(path))
    case NeighborsOf(node, id) =>
      var n :- EvalNode(node, env);
      var g :- GetGraph(env, id);
      var ns :- FromLibrary(lib.neighbors(g, n));
      Success(Singles(ns))
  }

  /**
    The double iterators: every edge as a pair of labels in the library's order, or the
    distance to each node, which first checks that the start node is in the graph.
  */
  function EvalDouble(it: DoubleIterator, env: Env, lib: Library): (r: Result<seq<seq<Value>>, Error>)
    ensures r.Success? ==> forall i :: 0 <= i < |r.value| ==> |r.value[i]| == 2
    ensures it.EdgesOf? ==> (r.Success? <==> GetGraph(env, it.id).Success?)
    ensures it.EdgesOf? && r.Success? ==>
      var order := lib.edgeOrder(GetGraph(env, it.id).value);
      |r.value| == |order| && forall i :: 0 <= i < |order| ==> r.value[i] == [Str(order[i].0), Str(order[i].1)]
    ensures it.DistanceFrom? && EvalNode(it.node, env).Success? && GetGraph(env, it.id).Success? ==>
      var g, n := GetGraph(env, it.id).value, EvalNode(it.node, env).value;
      && (!HasNode(g, n) ==> r == Failure(InGraph(NodeNotFound(n))))
      && (HasNode(g, n) ==>
            var ds := lib.distancesFrom(g, n, if HasNegativeWeights(g) then BellmanFord else Dijkstra);
            && (r.Success? <==> ds.Success?)
            && (r.Failure? ==> r.error == AlgorithmFailure(ds.error))
            && (r.Success? ==> |r.value| == |ds.value|)
            && (r.Success? ==> forall i :: 0 <= i < |ds.value| ==> r.value[i] == [Str(ds.value[i].0), Int(ds.value[i].1)]))
  {
    match it
    case EdgesOf(id) =>
      var g :- GetGraph(env, id);
      var order := lib.edgeOrder(g);
      Success(seq(|order|, i requires 0 <= i < |order| => [Str(order[i].0), Str(order[i].1)]))
    case DistanceFrom(node, id) =>
      var n :- EvalNode(node, env);
      var g :- GetGraph(env, id);
      if !HasNode(g, n) then Failure(InGraph(NodeNotFound(n)))
      else
        var ds :- FromLibrary(lib.distancesFrom(g, n, ChooseAlgorithm(g)));
        Success(seq(|ds|, i requires 0 <= i < |ds| => [Str(ds[i].0), Int(ds[i].1)]))
  }

  /** DISTANCE MATRIX: one row per pair the library reports, with the algorithm the current weights select. */
  function EvalTriple(it: TripleIterator, env: Env, lib: Library): (r: Result<seq<seq<Value>>, Error>)
    ensures r.Success? ==> forall i :: 0 <= i < |r.value| ==> |r.value[i]| == 3
    ensures GetGraph(env, it.id).Failure? ==> r == Failure(GetGraph(env, it.id).error)
    ensures GetGraph(env, it.id).Success? ==>
      var g := GetGraph(env, it.id).value;
      var ds := lib.distanceMatrix(g, if HasNegativeWeights(g) then BellmanFord else Dijkstra);
      && (r.Success? <==> ds.Success?)
      && (r.Failure? ==> r.error == AlgorithmFailure(ds.error))
      && (r.Success? ==> |r.value| == |ds.value|)
      && (r.Success? ==> forall i :: 0 <= i < |ds.value| ==> r.value[i] == [Str(ds.value[i].0), Str(ds.value[i].1), Int(ds.value[i].2)])
  {
    var g :- GetGraph(env, it.id);
    var ds :- FromLibrary(lib.distanceMatrix(g, ChooseAlgorithm(g)));
    Success(seq(|ds|, i requires 0 <= i < |ds| => [Str(ds[i].0), Str(ds[i].1), Int(ds[i].2)]))
  }

  // ----- Loop variables -----

  /** Assigns the row's values to the loop ids, first to last (a later id wins a clash). */
  function Bind(env: Env, ids: seq<string>, row: seq<Value>): Env
    requires |ids| == |row|
    decreases |ids|
  {
    if |ids| == 0 then env else Bind(env[ids[0] := row[0]], ids[1..], row[1..])
  }

  /** `del` of each loop id in turn; the first id that is not bound raises. */
  function Teardown(st: State, ids: seq<string>): (r: Outcome)
    decreases |ids|
    ensures r.st.out == st.out && r.st.files == st.files
  {
    if |ids| == 0 then Done(st)
    else if ids[0] !in st.env then Raised(MissingLoopVariable(ids[0]), st)
    else Teardown(st.(env := st.env - {ids[0]}), ids[1..])
  }

  // ----- Graph statements -----

  datatype EntityValue = NewGraph(directed: bool) | NodeValue(node: string) | EdgeValue(source: string, target: string)

  function EvalEntity(e: Entity, env: Env): Result<EntityValue, Error>
  {
    match e
    case GraphEntity(kind) => Success(NewGraph(kind == DigraphType))
    case NodeEntity(node) =>
      var n :- EvalNode(node, env);
      Success(NodeValue(n))
    case EdgeEntity(edge) =>
      var uv :- EvalEdge(edge, env);
      Success(EdgeValue(uv.0, uv.1))
  }

  function SetGraph(st: State, id: string, g: Graph): State
  {
    st.(env := st.env[id := GraphVal(g)])
  }

  /** ADD: a graph entity binds a fresh graph under an unbound id; a node or edge goes into the bound graph. */
  function ExecAdd(entity: Entity, id: string, st: State): (r: Outcome)
    ensures !r.Halted?
    ensures r.Raised? ==> r.st == st
    ensures entity.GraphEntity? ==> (r.Done? <==> id !in st.env)
    ensures entity.GraphEntity? && id in st.env ==> r == Raised(AlreadyExists(id), st)
    ensures r.Done? ==> r.st.out == st.out && r.st.files == st.files
    ensures r.Done? ==> r.st.env.Keys == st.env.Keys + {id} && r.st.env[id].GraphVal?
    ensures r.Done? ==> forall x :: x in st.env && x != id ==> r.st.env[x] == st.env[x]
    ensures r.Done? && !entity.GraphEntity? ==>
      && GetGraph(st.env, id).Success?
      && r.st.env[id].g.directed == st.env[id].g.directed
      && st.env[id].g.nodes <= r.st.env[id].g.nodes
    ensures r.Done? && entity.NodeEntity? ==> EvalNode(entity.node, st.env).Success?
    ensures r.Done? && entity.EdgeEntity? ==> EvalEdge(entity.edge, st.env).Success?
    ensures r.Done? && entity.NodeEntity? ==> HasNode(r.st.env[id].g, EvalNode(entity.node, st.env).value)
    ensures r.Done? && entity.EdgeEntity? ==>
      HasEdge(r.st.env[id].g, EvalEdge(entity.edge, st.env).value.0, EvalEdge(entity.edge, st.env).value.1)
  {
    match EvalEntity(entity, st.env)
    case Failure(e) => Raised(e, st)
    case Success(NewGraph(directed)) =>
      if id in st.env then Raised(AlreadyExists(id), st)
      else Done(SetGraph(st, id, EmptyGraph(directed)))
    case Success(NodeValue(n)) =>
      (match GetGraph(st.env, id)
       case Failure(e) => Raised(e, st)
       case Success(g) => Done(SetGraph(st, id, AddNode(g, n))))
    case Success(EdgeValue(u, v)) =>
      (match GetGraph(st.env, id)
       case Failure(e) => Raised(e, st)
       case Success(g) => Done(SetGraph(st, id, AddEdge(g, u, v))))
  }

  /** RM: a graph entity of either kind drops the binding; a node or edge leaves the bound graph. */
  function ExecRm(entity: Entity, id: string, st: State): (r: Outcome)
    ensures !r.Halted?
    ensures r.Raised? ==> r.st == st
    ensures r.Done? ==> r.st.out == st.out && r.st.files == st.files
    ensures r.Done? ==> GetGraph(st.env, id).Success?
    ensures r.Done? && entity.GraphEntity? ==> r.st.env == st.env - {id}
    ensures r.Done? && !entity.GraphEntity? ==>
      && r.st.env.Keys == st.env.Keys
      && (forall x :: x in st.env && x != id ==> r.st.env[x] == st.env[x])
      && r.st.env[id].GraphVal?
    ensures r.Done? && entity.NodeEntity? ==> EvalNode(entity.node, st.env).Success?
    ensures r.Done? && entity.EdgeEntity? ==> EvalEdge(entity.edge, st.env).Success?
    ensures r.Done? && entity.NodeEntity? ==> !HasNode(r.st.env[id].g, EvalNode(entity.node, st.env).value)
    ensures r.Done? && entity.EdgeEntity? ==>
      !HasEdge(r.st.env[id].g, EvalEdge(entity.edge, st.env).value.0, EvalEdge(entity.edge, st.env).value.1)
  {
    match EvalEntity(entity, st.env)
    case Failure(e) => Raised(e, st)
    case Success(ev) =>
      match GetGraph(st.env, id)
      case Failure(e) => Raised(e, st)
      case Success(g) =>
        match ev
        case NewGraph(_) => Done(st.(env := st.env - {id}))
        case NodeValue(n) =>
          (match RemoveNode(g, n)
           case Failure(e) => Raised(InGraph(e), st)
           case Success(g') => Done(SetGraph(st, id, g')))
        case EdgeValue(u, v) =>
          (match RemoveEdge(g, u, v)
           case Failure(e) => Raised(InGraph(e), st)
           case Success(g') => Done(SetGraph(st, id, g')))
  }

  /** SET WEIGHT OF EDGE: edge, then weight, then the graph and the presence check. */
  function ExecSetWeight(edge: EdgeExpr, weight: NumExpr, id: string, st: State, lib: Library): (r: Outcome)
    ensures !r.Halted?
    ensures r.Raised? ==> r.st == st
    ensures r.Done? ==> r.st.out == st.out && r.st.files == st.files
    ensures r.Done? ==> EvalEdge(edge, st.env).Success? && EvalNum(weight, st.env, lib).Success?
    ensures r.Done? ==>
      && GetGraph(st.env, id).Success?
      && r.st.env.Keys == st.env.Keys
      && (forall x :: x in st.env && x != id ==> r.st.env[x] == st.env[x])
      && r.st.env[id].GraphVal?
      && r.st.env[id].g.nodes == st.env[id].g.nodes
      && GetWeight(r.st.env[id].g, EvalEdge(edge, st.env).value.0, EvalEdge(edge, st.env).value.1)
           == Success(EvalNum(weight, st.env, lib).value)
  {
    match EvalEdge(edge, st.env)
    case Failure(e) => Raised(e, st)
    case Success(uv) =>
      match EvalNum(weight, st.env, lib)
      case Failure(e) => Raised(e, st)
      case Success(w) =>
        match GetGraph(st.env, id)
        case Failure(e) => Raised(e, st)
        case Success(g) =>
          match SetWeight(g, uv.0, uv.1, w)
          case Failure(e) => Raised(InGraph(e), st)
          case Success(g') => Done(SetGraph(st, id, g'))
  }

  // ----- Saved graphs -----

  function NodeCommands(nodes: seq<string>): (cs: seq<Command>)
    ensures |cs| == |nodes|
    ensures forall i :: 0 <= i < |cs| ==> cs[i] == AddNodeCmd(nodes[i])
  {
    seq(|nodes|, i requires 0 <= i < |nodes| => AddNodeCmd(nodes[i]))
  }

  /** One ADD EDGE line per edge, followed by a SET WEIGHT line when the edge carries a weight. */
  function EdgeCommands(g: Graph, order: seq<Edge>): (cs: seq<Command>)
    ensures |order| <= |cs| <= 2 * |order|
    ensures forall i :: 0 <= i < |cs| ==> cs[i].AddEdgeCmd? || cs[i].SetWeightCmd?
    ensures |order| > 0 ==> cs[0] == AddEdgeCmd(order[0].0, order[0].1)
  {
    if |order| == 0 then []
    else
      var (u, v) := order[0];
      var k := Key(g.directed, u, v);
      var weightLine := if k in g.edges && g.edges[k].Some? then [SetWeightCmd(u, v, g.edges[k].value)] else [];
      [AddEdgeCmd(u, v)] + weightLine + EdgeCommands(g, order[1..])
  }

  /** `_export_graph`: the kind, every node in order, then every edge in the library's order. */
  function ExportCommands(g: Graph, order: seq<Edge>): (cs: seq<Command>)
    ensures 1 + |g.nodes| + |order| <= |cs| <= 1 + |g.nodes| + 2 * |order|
    ensures cs[0] == AddGraphCmd(g.directed)
    ensures forall i :: 0 <= i < |g.nodes| ==> cs[1 + i] == AddNodeCmd(g.nodes[i])
    ensures forall i :: 1 + |g.nodes| <= i < |cs| ==> cs[i].AddEdgeCmd? || cs[i].SetWeightCmd?
  {
    [AddGraphCmd(g.directed)] + NodeCommands(g.nodes) + EdgeCommands(g, order)
  }

  /**
    The statement a saved line becomes once the graph id is appended to it. A negative
    weight is written with a minus sign, which no token rule accepts, so such a line
    does not read back as any statement.
  */
  function Complete(c: Command, id: string): (r: Option<Stmt>)
    ensures r.Some? <==> !(c.SetWeightCmd? && c.weight < 0)
    ensures r.Some? ==> r.value.Add? || r.value.SetWeightOf?
  {
    match c
    case AddGraphCmd(directed) => Some(Add(GraphEntity(if directed then DigraphType else GraphType), id))
    case AddNodeCmd(n) => Some(Add(NodeEntity(NodeLiteral(n)), id))
    case AddEdgeCmd(u, v) => Some(Add(EdgeEntity(EdgeOf(NodeLiteral(u), NodeLiteral(v))), id))
    case SetWeightCmd(u, v, w) =>
      if w < 0 then None else Some(SetWeightOf(EdgeOf(NodeLiteral(u), NodeLiteral(v)), NumLit(w), id))
  }

  /** Executes one completed saved line (an ADD or a SET WEIGHT statement). */
  function ReplayCommand(c: Command, id: string, st: State, lib: Library): (r: Outcome)
    ensures !r.Halted?
    ensures r.st.out == st.out && r.st.files == st.files
  {
    match Complete(c, id)
    case None => Raised(UnreadableLine, st)
    case Some(s) =>
      if s.Add? then ExecAdd(s.entity, s.id, st) else ExecSetWeight(s.edge, s.weight, s.id, st, lib)
  }

  /** `_import_graph`: every saved line in order, stopping at the first that fails. */
  function Replay(cs: seq<Command>, id: string, st: State, lib: Library): (r: Outcome)
    ensures !r.Halted?
    ensures r.st.out == st.out && r.st.files == st.files
    ensures forall x :: x in st.env && x != id ==> x in r.st.env && r.st.env[x] == st.env[x]
  {
    if |cs| == 0 then Done(st)
    else
      var first := ReplayCommand(cs[0], id, st, lib);
      if first.Done? then Replay(cs[1..], id, first.st, lib) else first
  }

  function FileName(path: string): string
  {
    path + ".grlg"
  }

  // ----- Statements -----

  /** Size measures that bound the nesting of statement bodies. */
  function Size(s: Stmt): (n: nat)
    ensures n >= 1
  {
    match s
    case If(_, body, elseIfs, elseBody) =>
      1 + BlockSize(body) + ElseIfsSize(elseIfs) + ElseSize(elseBody)
    case For1(_, _, body) => 1 + BlockSize(body)
    case For2(_, _, _, body) => 1 + BlockSize(body)
    case For3(_, _, _, _, body) => 1 + BlockSize(body)
    case _ => 1
  }

  function ElseSize(elseBody: ElsePart): nat
  {
    match elseBody
    case NoElse => 0
    case Else(b) => 1 + BlockSize(b)
  }

  function BlockSize(b: seq<Stmt>): nat
  {
    if |b| == 0 then 0 else Size(b[0]) + BlockSize(b[1..])
  }

  function ElseIfsSize(es: seq<ElseIf>): nat
  {
    if |es| == 0 then 0 else 1 + BlockSize(es[0].body) + ElseIfsSize(es[1..])
  }

  function Exec(s: Stmt, st: State, lib: Library): (r: Outcome)
    decreases Size(s), 1
    ensures st.out <= r.st.out && st.files.Keys <= r.st.files.Keys
  {
    match s
    case Skip => Done(st)
    case Exit => Halted(st)
    case Print(arg) =>
      (match EvalPrint(arg, st.env, lib)
       case Failure(e) => Raised(e, st)
       case Success(line) => Done(st.(out := st.out + [line])))
    case Draw(id) =>
      (match GetGraph(st.env, id)
       case Failure(e) => Raised(e, st)
       case Success(_) => Done(st))
    case Import(id, path) =>
      if id in st.env then Raised(AlreadyExists(id), st)
      else if FileName(DecodeString(path.raw)) !in st.files then Raised(FileNotFound(FileName(DecodeString(path.raw))), st)
      else Replay(st.files[FileName(DecodeString(path.raw))], id, st, lib)
    case Export(id, path) =>
      (match GetGraph(st.env, id)
       case Failure(e) => Raised(e, st)
       case Success(g) =>
         Done(st.(files := st.files[FileName(DecodeString(path.raw)) := ExportCommands(g, lib.edgeOrder(g))])))
    case Add(entity, id) => ExecAdd(entity, id, st)
    case Rm(entity, id) => ExecRm(entity, id, st)
    case SetWeightOf(edge, weight, id) => ExecSetWeight(edge, weight, id, st, lib)
    case If(cond, body, elseIfs, elseBody) =>
      (match EvalBool(cond, st.env, lib)
       case Failure(e) => Raised(e, st)
       case Success(true) => ExecBlock(body, st, lib)
       case Success(false) => ExecElseIfs(elseIfs, elseBody, st, lib))
    case For1(x, it, body) =>
      (match EvalSingle(it, st.env, lib)
       case Failure(e) => Raised(e, st)
       case Success(rows) => ExecFor([x], rows, body, st, lib))
    case For2(x, y, it, body) =>
      (match EvalDouble(it, st.env, lib)
       case Failure(e) => Raised(e, st)
       case Success(rows) => ExecFor([x, y], rows, body, st, lib))
    case For3(x, y, z, it, body) =>
      (match EvalTriple(it, st.env, lib)
       case Failure(e) => Raised(e, st)
       case Success(rows) => ExecFor([x, y, z], rows, body, st, lib))
  }

  /** A statement sequence: each statement in turn until one halts or raises. */
  function ExecBlock(b: seq<Stmt>, st: State, lib: Library): (r: Outcome)
    decreases BlockSize(b), 2
    ensures st.out <= r.st.out && st.files.Keys <= r.st.files.Keys
  {
    if |b| == 0 then Done(st)
    else
      match Exec(b[0], st, lib)
      case Done(st1) => ExecBlock(b[1..], st1, lib)
      case other => other
  }

  /**
    The ELSEIF chain after a false IF condition: the first true condition runs its block
    and ends the chain; ELSE runs only when no condition held.
  */
  function ExecElseIfs(es: seq<ElseIf>, elseBody: ElsePart, st: State, lib: Library): (r: Outcome)
    decreases ElseIfsSize(es) + ElseSize(elseBody), 3
    ensures st.out <= r.st.out && st.files.Keys <= r.st.files.Keys
  {
    if |es| == 0 then
      (match elseBody
       case NoElse => Done(st)
       case Else(b) => ExecBlock(b, st, lib))
    else
      match EvalBool(es[0].cond, st.env, lib)
      case Failure(e) => Raised(e, st)
      case Success(true) => ExecBlock(es[0].body, st, lib)
      case Success(false) => ExecElseIfs(es[1..], elseBody, st, lib)
  }

  /** The loop proper: bind each row, run the body; a halt or an error leaves the loop at once. */
  function ExecLoop(ids: seq<string>, rows: seq<seq<Value>>, body: seq<Stmt>, st: State, lib: Library): (r: Outcome)
    requires forall i :: 0 <= i < |rows| ==> |rows[i]| == |ids|
    decreases BlockSize(body), 3, |rows|
    ensures st.out <= r.st.out && st.files.Keys <= r.st.files.Keys
  {
    if |rows| == 0 then Done(st)
    else
      match ExecBlock(body, st.(env := Bind(st.env, ids, rows[0])), lib)
      case Done(st1) => ExecLoop(ids, rows[1..], body, st1, lib)
      case other => other
  }

  /** FOR: the loop, then the loop ids are deleted in order. */
  function ExecFor(ids: seq<string>, rows: seq<seq<Value>>, body: seq<Stmt>, st: State, lib: Library): (r: Outcome)
    requires forall i :: 0 <= i < |rows| ==> |rows[i]| == |ids|
    decreases BlockSize(body), 4
    ensures st.out <= r.st.out && st.files.Keys <= r.st.files.Keys
  {
    match ExecLoop(ids, rows, body, st, lib)
    case Done(st1) => Teardown(st1, ids)
    case other => other
  }

  /** The `program` action: the top-level statement sequence, once, in order. */
  function Run(program: seq<Stmt>, st: State, lib: Library): (r: Outcome)
    ensures st.out <= r.st.out && st.files.Keys <= r.st.files.Keys
  {
    ExecBlock(program, st, lib)
  }
}

=== FILE: interpreter_properties.dfy ===
/**
  Properties of the interpreter's statements: the IF chain runs the block of the first
  true condition, loops bind each row in order and unbind their ids afterwards, and the
  graph statements change exactly what they name.
*/
module InterpreterProperties {
  import opened Wrappers
  import opened Graphs
  import opened Runtime
  import opened Interpreter

  // ----- IF / ELSEIF / ELSE -----

  /**
    The first condition that evaluates to true, scanning left to right in `env`; an error
    from a condition stops the scan before any later condition is evaluated.
  */
  function FirstTrue(conds: seq<BoolExpr>, env: Env, lib: Library): (r: Result<Option<nat>, Error>)
    ensures r.Success? && r.value.Some? ==>
      && r.value.value < |conds|
      && EvalBool(conds[r.value.value], env, lib) == Success(true)
      && forall j :: 0 <= j < r.value.value ==> EvalBool(conds[j], env, lib) == Success(false)
    ensures r == Success(None) ==> forall j :: 0 <= j < |conds| ==> EvalBool(conds[j], env, lib) == Success(false)
    ensures r.Failure? ==> exists i :: (0 <= i < |conds| && EvalBool(conds[i], env, lib) == Failure(r.error)
      && forall j :: 0 <= j < i ==> EvalBool(conds[j], env, lib) == Success(false))
  {
    if |conds| == 0 then Success(None)
    else
      match EvalBool(conds[0], env, lib)
      case Failure(e) => Failure(e)
      case Success(true) => Success(Some(0))
      case Success(false) =>
        match FirstTrue(conds[1..], env, lib)
        case Failure(e) =>
          ghost var i :| (0 <= i < |conds[1..]| && EvalBool(conds[1..][i], env, lib) == Failure(e)
            && forall j :: 0 <= j < i ==> EvalBool(conds[1..][j], env, lib) == Success(false));
          assert EvalBool(conds[i + 1], env, lib) == Failure(e);
          Failure(e)
        case Success(None) => Success(None)
        case Success(Some(i)) => Success(Some(i + 1))
  }

  /**
    The reference meaning of an IF chain: the block paired with the first true condition
    runs and nothing else; the ELSE block runs only when no condition held.
  */
  function RunChain(conds: seq<BoolExpr>, blocks: seq<seq<Stmt>>, elseBody: ElsePart, st: State, lib: Library): Outcome
    requires |conds| == |blocks|
  {
    match FirstTrue(conds, st.env, lib)
    case Failure(e) => Raised(e, st)
    case Success(Some(i)) => ExecBlock(blocks[i], st, lib)
    case Success(None) =>
      match elseBody
      case NoElse => Done(st)
      case Else(b) => ExecBlock(b, st, lib)
  }

  function ElseIfConds(es: seq<ElseIf>): (cs: seq<BoolExpr>)
    ensures |cs| == |es| && forall i :: 0 <= i < |es| ==> cs[i] == es[i].cond
  {
    seq(|es|, i requires 0 <= i < |es| => es[i].cond)
  }

  function ElseIfBlocks(es: seq<ElseIf>): (bs: seq<seq<Stmt>>)
    ensures |bs| == |es| && forall i :: 0 <= i < |es| ==> bs[i] == es[i].body
  {
    seq(|es|, i requires 0 <= i < |es| => es[i].body)
  }

  /** The conditions of an IF statement in order: its own, then each ELSEIF's. */
  function Conditions(s: Stmt): (cs: seq<BoolExpr>)
    requires s.If?
    ensures |cs| == 1 + |s.elseIfs| && cs[0] == s.cond
  {
    [s.cond] + ElseIfConds(s.elseIfs)
  }

  /** The blocks of an IF statement, paired with `Conditions`. */
  function Blocks(s: Stmt): (bs: seq<seq<Stmt>>)
    requires s.If?
    ensures |bs| == 1 + |s.elseIfs| && bs[0] == s.body
  {
    [s.body] + ElseIfBlocks(s.elseIfs)
  }

  /** A chain whose first condition fails raises that error. */
  lemma RunChainAtFailure(cs: seq<BoolExpr>, bs: seq<seq<Stmt>>, elseBody: ElsePart, e: Error, st: State, lib: Library)
    requires |cs| == |bs| > 0 && EvalBool(cs[0], st.env, lib) == Failure(e)
    ensures RunChain(cs, bs, elseBody, st, lib) == Raised(e, st)
  {
  }

  /** A chain whose first condition holds runs the first block. */
  lemma RunChainAtTrue(cs: seq<BoolExpr>, bs: seq<seq<Stmt>>, elseBody: ElsePart, st: State, lib: Library)
    requires |cs| == |bs| > 0 && EvalBool(cs[0], st.env, lib) == Success(true)
    ensures RunChain(cs, bs, elseBody, st, lib) == ExecBlock(bs[0], st, lib)
  {
  }

  /** A chain whose first condition is false runs the rest of the chain. */
  lemma RunChainPastFalse(cs: seq<BoolExpr>, bs: seq<seq<Stmt>>, elseBody: ElsePart, st: State, lib: Library)
    requires |cs| == |bs| > 0 && EvalBool(cs[0], st.env, lib) == Success(false)
    ensures RunChain(cs, bs, elseBody, st, lib) == RunChain(cs[1..], bs[1..], elseBody, st, lib)
  {
    var r := FirstTrue(cs[1..], st.env, lib);
    if r.Success? && r.value.Some? {
      FirstTrueShifts(cs, r.value.value, st.env, lib);
    }
  }

  lemma {:induction false} ElseIfsAreChain(es: seq<ElseIf>, elseBody: ElsePart, st: State, lib: Library)
    ensures ExecElseIfs(es, elseBody, st, lib) == RunChain(ElseIfConds(es), ElseIfBlocks(es), elseBody, st, lib)
    decreases |es|
  {
    if |es| > 0 {
      var cs, bs := ElseIfConds(es), ElseIfBlocks(es);
      match EvalBool(es[0].cond, st.env, lib)
      case Failure(e) =>
        RunChainAtFailure(cs, bs, elseBody, e, st, lib);
      case Success(true) =>
        RunChainAtTrue(cs, bs, elseBody, st, lib);
      case Success(false) =>
        assert cs[1..] == ElseIfConds(es[1..]);
        assert bs[1..] == ElseIfBlocks(es[1..]);
        RunChainPastFalse(cs, bs, elseBody, st, lib);
        ElseIfsAreChain(es[1..], elseBody, st, lib);
    }
  }

  /** An IF chain runs the block of its first true condition, or ELSE, or nothing. */
  lemma IfRunsFirstTrueBlock(s: Stmt, st: State, lib: Library)
    requires s.If?
    ensures Exec(s, st, lib) == RunChain(Conditions(s), Blocks(s), s.elseBody, st, lib)
  {
    var cs, bs := Conditions(s), Blocks(s);
    assert cs[1..] == ElseIfConds(s.elseIfs);
    assert bs[1..] == ElseIfBlocks(s.elseIfs);
    match EvalBool(s.cond, st.env, lib)
    case Failure(e) =>
      assert FirstTrue(cs, st.env, lib) == Failure(e);
    case Success(true) =>
      assert FirstTrue(cs, st.env, lib) == Success(Some(0));
    case Success(false) =>
      ElseIfsAreChain(s.elseIfs, s.elseBody, st, lib);
      assert Exec(s, st, lib) == ExecElseIfs(s.elseIfs, s.elseBody, st, lib);
  }

  /** Once a condition holds, the conditions after it are never looked at. */
  lemma TailOfPrefix(a: seq<BoolExpr>, i: nat)
    requires i < |a|
    ensures a[1..][..i] == a[..i + 1][1..]
  {
  }

  /** A true first condition is the first true one. */
  lemma FirstTrueAtHead(conds: seq<BoolExpr>, env: Env, lib: Library)
    requires |conds| > 0 && EvalBool(conds[0], env, lib) == Success(true)
    ensures FirstTrue(conds, env, lib) == Success(Some(0))
  {
  }

  /** Past a false first condition, the scan goes on in the rest, one position further. */
  lemma FirstTrueShifts(conds: seq<BoolExpr>, i: nat, env: Env, lib: Library)
    requires |conds| > 0 && EvalBool(conds[0], env, lib) == Success(false)
    ensures FirstTrue(conds, env, lib) == Success(Some(i + 1)) <==> FirstTrue(conds[1..], env, lib) == Success(Some(i))
  {
  }

  lemma {:induction false} LaterConditionsIgnored(conds: seq<BoolExpr>, conds': seq<BoolExpr>, i: nat, env: Env, lib: Library)
    requires FirstTrue(conds, env, lib) == Success(Some(i))
    requires i < |conds'| && conds'[..i + 1] == conds[..i + 1]
    ensures FirstTrue(conds', env, lib) == Success(Some(i))
    decreases i
  {
    assert conds'[0] == conds[..i + 1][0];
    if i == 0 {
      FirstTrueAtHead(conds', env, lib);
    } else {
      assert EvalBool(conds[0], env, lib) == Success(false);
      FirstTrueShifts(conds, i - 1, env, lib);
      FirstTrueShifts(conds', i - 1, env, lib);
      TailOfPrefix(conds, i);
      TailOfPrefix(conds', i);
      LaterConditionsIgnored(conds[1..], conds'[1..], i - 1, env, lib);
    }
  }

  /**
    Rewriting the conditions after the one that holds does not change what an IF chain
    does: they are not evaluated.
  */
  lemma IfIgnoresLaterConditions(s: Stmt, s': Stmt, i: nat, st: State, lib: Library)
    requires s.If? && s'.If?
    requires Blocks(s') == Blocks(s) && s'.elseBody == s.elseBody
    requires FirstTrue(Conditions(s), st.env, lib) == Success(Some(i))
    requires i < |Conditions(s')| && Conditions(s')[..i + 1] == Conditions(s)[..i + 1]
    ensures Exec(s', st, lib) == Exec(s, st, lib)
  {
    IfRunsFirstTrueBlock(s, st, lib);
    IfRunsFirstTrueBlock(s', st, lib);
    LaterConditionsIgnored(Conditions(s), Conditions(s'), i, st.env, lib);
  }

  // ----- FOR -----

  /** A loop over `r1 + r2` runs over `r1`, then over `r2` from where it left off. */
  lemma {:induction false} LoopRunsRowsInOrder(ids: seq<string>, r1: seq<seq<Value>>, r2: seq<seq<Value>>, body: seq<Stmt>, st: State, lib: Library)
    requires forall i :: 0 <= i < |r1| ==> |r1[i]| == |ids|
    requires forall i :: 0 <= i < |r2| ==> |r2[i]| == |ids|
    ensures ExecLoop(ids, r1 + r2, body, st, lib) ==
      match ExecLoop(ids, r1, body, st, lib)
      case Done(st1) => ExecLoop(ids, r2, body, st1, lib)
      case other => other
    decreases |r1|
  {
    if |r1| == 0 {
      assert r1 + r2 == r2;
    } else {
      assert (r1 + r2)[0] == r1[0];
      assert (r1 + r2)[1..] == r1[1..] + r2;
      match ExecBlock(body, st.(env := Bind(st.env, ids, r1[0])), lib)
      case Done(st1) => LoopRunsRowsInOrder(ids, r1[1..], r2, body, st1, lib);
      case Halted(_) =>
      case Raised(_, _) =>
    }
  }

  /** One row: the body runs once, with the loop ids bound to that row's values. */
  lemma LoopRunsBodyOncePerRow(ids: seq<string>, row: seq<Value>, body: seq<Stmt>, st: State, lib: Library)
    requires |row| == |ids|
    ensures ExecLoop(ids, [row], body, st, lib) == ExecBlock(body, st.(env := Bind(st.env, ids, row)), lib)
  {
    match ExecBlock(body, st.(env := Bind(st.env, ids, row)), lib)
    case Done(st1) => assert [row][1..] == [];
    case Halted(_) =>
    case Raised(_, _) =>
  }

  /** The loop value a single id ends up with. */
  lemma BindOne(env: Env, x: string, v: Value)
    ensures Bind(env, [x], [v]) == env[x := v]
  {
    assert [x][1..] == [] && [v][1..] == [];
  }

  /**
    Teardown deletes the loop ids in order. It succeeds exactly when each id is still
    bound at its turn — for distinct ids, when all are bound — and then leaves every
    other binding as it was.
  */
  lemma {:induction false} TeardownUnbinds(st: State, ids: seq<string>)
    ensures Teardown(st, ids).Done? ==>
      Teardown(st, ids).st == st.(env := st.env - set x | x in ids)
    ensures Teardown(st, ids).Raised? ==> Teardown(st, ids).err.MissingLoopVariable?
    ensures !Teardown(st, ids).Halted?
    ensures (forall i, j :: 0 <= i < j < |ids| ==> ids[i] != ids[j]) ==>
      (Teardown(st, ids).Done? <==> forall x :: x in ids ==> x in st.env)
    decreases |ids|
  {
    if |ids| > 0 && ids[0] in st.env {
      var st1 := st.(env := st.env - {ids[0]});
      TeardownUnbinds(st1, ids[1..]);
      assert (set x | x in ids) == {ids[0]} + (set x | x in ids[1..]);
      assert st.env - (set x | x in ids) == st1.env - (set x | x in ids[1..]);
      if forall i, j :: 0 <= i < j < |ids| ==> ids[i] != ids[j] {
        assert forall i, j :: 0 <= i < j < |ids[1..]| ==> ids[1..][i] != ids[1..][j] by {
          forall i, j | 0 <= i < j < |ids[1..]| ensures ids[1..][i] != ids[1..][j] {
            assert ids[1..][i] == ids[i + 1] && ids[1..][j] == ids[j + 1];
          }
        }
        forall x | x in ids[1..] ensures (x in st1.env <==> x in st.env) {
          var k :| 0 <= k < |ids[1..]| && ids[1..][k] == x;
          assert ids[k + 1] == x;
        }
      }
    }
  }

  /** After a single-id FOR loop completes, its id is unbound, whatever it was before. */
  lemma ForUnbindsLoopId(x: string, it: SingleIterator, body: seq<Stmt>, st: State, lib: Library)
    ensures Exec(For1(x, it, body), st, lib).Done? ==> x !in Exec(For1(x, it, body), st, lib).st.env
  {
    match EvalSingle(it, st.env, lib)
    case Failure(_) =>
    case Success(rows) =>
      match ExecLoop([x], rows, body, st, lib)
      case Done(st1) => TeardownUnbinds(st1, [x]);
      case Halted(_) =>
      case Raised(_, _) =>
  }

  /** After a two- or three-id FOR loop completes, all its ids are unbound. */
  lemma ForUnbindsLoopIds(s: Stmt, st: State, lib: Library)
    requires s.For2? || s.For3?
    ensures Exec(s, st, lib).Done? ==> s.x !in Exec(s, st, lib).st.env && s.y !in Exec(s, st, lib).st.env
    ensures s.For3? && Exec(s, st, lib).Done? ==> s.z !in Exec(s, st, lib).st.env
  {
    var ids := if s.For2? then [s.x, s.y] else [s.x, s.y, s.z];
    var rows := if s.For2? then EvalDouble(s.iter2, st.env, lib) else EvalTriple(s.iter3, st.env, lib);
    if rows.Success? {
      match ExecLoop(ids, rows.value, s.body, st, lib)
      case Done(st1) => TeardownUnbinds(st1, ids);
      case Halted(_) =>
      case Raised(_, _) =>
    }
  }

  /**
    A loop over an empty sequence runs nothing, and its teardown fails exactly when the
    id was not bound beforehand.
  */
  lemma ForOverNothing(x: string, it: SingleIterator, body: seq<Stmt>, st: State, lib: Library)
    requires EvalSingle(it, st.env, lib) == Success([])
    ensures x !in st.env ==> Exec(For1(x, it, body), st, lib) == Raised(MissingLoopVariable(x), st)
    ensures x in st.env ==> Exec(For1(x, it, body), st, lib) == Done(st.(env := st.env - {x}))
  {
    assert ExecLoop([x], [], body, st, lib) == Done(st);
    assert Exec(For1(x, it, body), st, lib) == Teardown(st, [x]);
    assert [x][0] == x && [x][1..] == [];
    if x in st.env {
      assert Teardown(st, [x]) == Teardown(st.(env := st.env - {x}), []);
    }
  }

  /** One turn of a loop whose body prints the loop variable: the bound label is printed. */
  lemma PrintVariableTurn(n: string, x: string, st: State, lib: Library)
    ensures ExecBlock([Print(PrintVariable(n))], st.(env := Bind(st.env, [n], [Str(x)])), lib) ==
      Done(State(st.env[n := Str(x)], st.out + [x], st.files))
  {
    var env1 := st.env[n := Str(x)];
    BindOne(st.env, n, Str(x));
    assert Exec(Print(PrintVariable(n)), st.(env := env1), lib) == Done(State(env1, st.out + [x], st.files));
    assert [Print(PrintVariable(n))][1..] == [];
  }

  /** After the first label, the rest of the labels leave the last one bound and printed. */
  lemma LabelsAfterFirst(env: Env, out: seq<string>, n: string, labels: seq<string>)
    requires |labels| > 0
    ensures (out + [labels[0]]) + labels[1..] == out + labels
    ensures (if |labels[1..]| == 0 then env[n := Str(labels[0])]
             else env[n := Str(labels[0])][n := Str(labels[1..][|labels[1..]| - 1])])
      == env[n := Str(labels[|labels| - 1])]
  {
    if |labels| > 1 {
      assert labels[1..][|labels[1..]| - 1] == labels[|labels| - 1];
    }
  }

  /** Printing the loop variable of a loop over node labels prints every name once, in order. */
  lemma {:induction false} PrintLoop(n: string, labels: seq<string>, st: State, lib: Library)
    ensures ExecLoop([n], Singles(labels), [Print(PrintVariable(n))], st, lib) ==
      Done(State(if |labels| == 0 then st.env else st.env[n := Str(labels[|labels| - 1])], st.out + labels, st.files))
    decreases |labels|
  {
    if |labels| == 0 {
      assert st.out + labels == st.out;
    } else {
      var st1 := State(st.env[n := Str(labels[0])], st.out + [labels[0]], st.files);
      PrintVariableTurn(n, labels[0], st, lib);
      assert Singles(labels)[1..] == Singles(labels[1..]);
      PrintLoop(n, labels[1..], st1, lib);
      LabelsAfterFirst(st.env, st.out, n, labels);
    }
  }

  /**
    `FOR n OF NODES g { PRINT n }` prints every node of `g` exactly once, in the graph's
    node order, and leaves `n` unbound.
  */
  lemma ForNodesPrintsEachNodeOnce(n: string, g: string, st: State, lib: Library)
    requires g in st.env && st.env[g].GraphVal?
    requires |st.env[g].g.nodes| > 0 || n in st.env
    ensures Exec(For1(n, NodesOf(g), [Print(PrintVariable(n))]), st, lib) ==
      Done(State(st.env - {n}, st.out + st.env[g].g.nodes, st.files))
  {
    var labels := st.env[g].g.nodes;
    PrintLoop(n, labels, st, lib);
    var env1 := if |labels| == 0 then st.env else st.env[n := Str(labels[|labels| - 1])];
    var st1 := State(env1, st.out + labels, st.files);
    assert Teardown(st1, [n]) == Teardown(st1.(env := env1 - {n}), []);
    assert env1 - {n} == st.env - {n};
  }

  // ----- Graph statements -----

  /**
    ADD of a graph entity fails when the id is bound; otherwise it binds a fresh empty
    graph of the requested kind and no other binding changes.
  */
  lemma AddGraphBindsFreshGraph(kind: GraphKind, id: string, st: State, lib: Library)
    ensures id in st.env ==> Exec(Add(GraphEntity(kind), id), st, lib) == Raised(AlreadyExists(id), st)
    ensures id !in st.env ==>
      var r := Exec(Add(GraphEntity(kind), id), st, lib);
      && r.Done?
      && r.st.env.Keys == st.env.Keys + {id}
      && r.st.env[id].GraphVal?
      && r.st.env[id].g.directed == (kind == DigraphType)
      && NodeCount(r.st.env[id].g) == 0 && EdgeCount(r.st.env[id].g) == 0
      && (forall x :: x in st.env ==> r.st.env[x] == st.env[x])
      && r.st.out == st.out && r.st.files == st.files
  {
  }

  /** ADD of the same node twice leaves the program where adding it once did. */
  lemma AddNodeTwiceIsOnce(name: string, id: string, st: State, lib: Library)
    ensures ExecBlock([Add(NodeEntity(NodeLiteral(name)), id), Add(NodeEntity(NodeLiteral(name)), id)], st, lib)
      == Exec(Add(NodeEntity(NodeLiteral(name)), id), st, lib)
  {
    var s := Add(NodeEntity(NodeLiteral(name)), id);
    DecodeQuoted(name);
    assert [s, s][0] == s && [s, s][1..] == [s] && [s][1..] == [];
    if id in st.env && st.env[id].GraphVal? {
      var g := st.env[id].g;
      var st1 := SetGraph(st, id, AddNode(g, name));
      AddNodeStep(name, id, st, lib);
      AddNodeStep(name, id, st1, lib);
      AddNodeIdempotent(g, name);
      assert SetGraph(st1, id, AddNode(AddNode(g, name), name)) == st1;
      BlockStep(s, [], st1, st1, lib);
      BlockStep(s, [s], st, st1, lib);
      assert [s, s] == [s] + [s];
    }
  }

  /**
    RM of a graph entity drops the binding of a graph of either kind, whichever kind the
    statement names; afterwards EXISTS is false and a graph lookup fails.
  */
  lemma RmGraphDropsBinding(kind: GraphKind, id: string, st: State, lib: Library)
    requires id in st.env && st.env[id].GraphVal?
    ensures Exec(Rm(GraphEntity(kind), id), st, lib) == Done(st.(env := st.env - {id}))
    ensures EvalBool(Exists(id), st.env - {id}, lib) == Success(false)
    ensures GetGraph(st.env - {id}, id) == Failure(GraphNotFound(id))
  {
  }

  /** A BOOLEAN literal is true exactly when its text is `TRUE`; `FALSE` reads as false. */
  lemma BooleanLiterals(env: Env, lib: Library)
    ensures EvalBool(BoolLit("TRUE"), env, lib) == Success(true)
    ensures EvalBool(BoolLit("FALSE"), env, lib) == Success(false)
  {
  }

  // ----- PRINT -----

  /**
    What PRINT appends for each literal argument: a boolean expression in upper case, a
    number as decimal text that reads back as the number, a string without its quotes.
  */
  lemma PrintLiterals(n: nat, x: string, st: State, lib: Library)
    ensures Exec(Print(PrintBool(BoolLit("TRUE"))), st, lib) == Done(st.(out := st.out + ["TRUE"]))
    ensures Exec(Print(PrintBool(BoolLit("FALSE"))), st, lib) == Done(st.(out := st.out + ["FALSE"]))
    ensures Exec(Print(PrintNumber(NumLit(n))), st, lib) == Done(st.(out := st.out + [Strings.IntToString(n)]))
    ensures Strings.AllDigits(Strings.IntToString(n)) && Strings.DigitsValue(Strings.IntToString(n)) == n
    ensures Exec(Print(PrintString(StrLit(Quote(x)))), st, lib) == Done(st.(out := st.out + [x]))
  {
    BooleanLiterals(st.env, lib);
  }

  /**
    A loop variable holding a distance, as `FOR x, d OF DISTANCE FROM …` binds it, prints
    as its decimal text, which reads back as the distance when that is non-negative.
  */
  lemma PrintNumberVariable(id: string, d: int, st: State, lib: Library)
    requires id in st.env && st.env[id] == Int(d)
    ensures Exec(Print(PrintVariable(id)), st, lib) == Done(st.(out := st.out + [Strings.IntToString(d)]))
    ensures d >= 0 ==> Strings.AllDigits(Strings.IntToString(d)) && Strings.DigitsValue(Strings.IntToString(d)) == d
  {
  }

  /** RM of a graph entity needs the id to hold a graph. */
  lemma RmGraphNeedsGraph(kind: GraphKind, id: string, st: State, lib: Library)
    requires id in st.env && !st.env[id].GraphVal?
    ensures Exec(Rm(GraphEntity(kind), id), st, lib) == Raised(NotAGraph(id), st)
  {
  }

  /** IS GRAPH holds for every graph, directed or not; IS DIGRAPH only for directed ones. */
  lemma IsKindSemantics(id: string, env: Env, lib: Library)
    ensures id !in env ==> EvalBool(IsKind(GraphType, id), env, lib) == Failure(UndefinedVariable(id))
    ensures id in env ==> EvalBool(IsKind(GraphType, id), env, lib) == Success(env[id].GraphVal?)
    ensures id in env ==> EvalBool(IsKind(DigraphType, id), env, lib) == Success(env[id].GraphVal? && env[id].g.directed)
  {
  }

  /**
    SET WEIGHT fails, changing nothing, when the edge is absent; otherwise only that
    edge's weight changes: nodes, edges and other bindings stay as they were.
  */
  lemma SetWeightChangesOnlyThatEdge(u: string, v: string, w: nat, id: string, st: State, lib: Library)
    requires id in st.env && st.env[id].GraphVal?
    ensures var g := st.env[id].g;
      !HasEdge(g, u, v) ==>
        Exec(SetWeightOf(EdgeOf(NodeLiteral(u), NodeLiteral(v)), NumLit(w), id), st, lib) == Raised(InGraph(EdgeNotFound(u, v)), st)
    ensures var g := st.env[id].g;
      var r := Exec(SetWeightOf(EdgeOf(NodeLiteral(u), NodeLiteral(v)), NumLit(w), id), st, lib);
      HasEdge(g, u, v) ==>
        && r.Done?
        && r.st.env.Keys == st.env.Keys
        && (forall x :: x in st.env && x != id ==> r.st.env[x] == st.env[x])
        && r.st.env[id].GraphVal?
        && r.st.env[id].g.nodes == g.nodes
        && r.st.env[id].g.edges.Keys == g.edges.Keys
        && GetWeight(r.st.env[id].g, u, v) == Success(w)
        && (forall e :: e in g.edges && e != Key(g.directed, u, v) ==> r.st.env[id].g.edges[e] == g.edges[e])
  {
    DecodeQuoted(u);
    DecodeQuoted(v);
    assert EvalEdge(EdgeLit(u, v), st.env) == Success((u, v));
    assert EvalEntity(EdgeEntity(EdgeLit(u, v)), st.env) == Success(EdgeValue(u, v));
    assert GetGraph(st.env, id) == Success(st.env[id].g);
  }

  /** GET WEIGHT fails when the edge is absent; otherwise it is the stored weight, or 1. */
  lemma GetWeightReadsStoredOrOne(u: string, v: string, id: string, env: Env, lib: Library)
    requires id in env && env[id].GraphVal?
    ensures var g := env[id].g;
      EvalNum(WeightOf(EdgeOf(NodeLiteral(u), NodeLiteral(v)), id), env, lib) ==
        if !HasEdge(g, u, v) then Failure(InGraph(EdgeNotFound(u, v)))
        else if StoredWeight(g, u, v).None? then Success(1)
        else Success(StoredWeight(g, u, v).value)
  {
    DecodeQuoted(u);
    DecodeQuoted(v);
  }

  // ----- Scenarios -----

  function AddNodeStmt(name: string, id: string): Stmt
  {
    Add(NodeEntity(NodeLiteral(name)), id)
  }

  function EdgeLit(u: string, v: string): EdgeExpr
  {
    EdgeOf(NodeLiteral(u), NodeLiteral(v))
  }

  /** A statement that completes hands its state to the rest of the block. */
  lemma BlockStep(s: Stmt, rest: seq<Stmt>, st: State, st1: State, lib: Library)
    requires Exec(s, st, lib) == Done(st1)
    ensures ExecBlock([s] + rest, st, lib) == ExecBlock(rest, st1, lib)
  {
    assert ([s] + rest)[0] == s && ([s] + rest)[1..] == rest;
  }

  /** Two statements that each complete run as a block of two. */
  lemma BlockOfTwo(a: Stmt, b: Stmt, st: State, st1: State, st2: State, lib: Library)
    requires Exec(a, st, lib) == Done(st1) && Exec(b, st1, lib) == Done(st2)
    ensures ExecBlock([a, b], st, lib) == Done(st2)
  {
    BlockStep(b, [], st1, st2, lib);
    assert [b] + [] == [b];
    BlockStep(a, [b], st, st1, lib);
    assert [a] + [b] == [a, b];
  }

  /** Three statements that each complete run as a block of three. */
  lemma BlockOfThree(a: Stmt, b: Stmt, c: Stmt, st: State, st1: State, st2: State, st3: State, lib: Library)
    requires Exec(a, st, lib) == Done(st1) && Exec(b, st1, lib) == Done(st2) && Exec(c, st2, lib) == Done(st3)
    ensures ExecBlock([a, b, c], st, lib) == Done(st3)
  {
    BlockOfTwo(b, c, st1, st2, st3, lib);
    BlockStep(a, [b, c], st, st1, lib);
    assert [a] + [b, c] == [a, b, c];
  }

  /** ADD of a graph kind under a fresh id binds an empty graph of that kind. */
  lemma AddGraphStep(kind: GraphKind, id: string, st: State, lib: Library)
    requires id !in st.env
    ensures Exec(Add(GraphEntity(kind), id), st, lib) == Done(SetGraph(st, id, EmptyGraph(kind == DigraphType)))
  {
  }

  /** ADD NODE with a quoted label adds that node to the bound graph. */
  lemma AddNodeStep(name: string, id: string, st: State, lib: Library)
    requires id in st.env && st.env[id].GraphVal?
    ensures Exec(AddNodeStmt(name, id), st, lib) == Done(SetGraph(st, id, AddNode(st.env[id].g, name)))
  {
    DecodeQuoted(name);
  }

  /** ADD EDGE with quoted endpoints adds that edge to the bound graph. */
  lemma AddEdgeStep(u: string, v: string, id: string, st: State, lib: Library)
    requires id in st.env && st.env[id].GraphVal?
    ensures Exec(Add(EdgeEntity(EdgeLit(u, v)), id), st, lib) == Done(SetGraph(st, id, AddEdge(st.env[id].g, u, v)))
  {
    AddRunsExecAdd(EdgeEntity(EdgeLit(u, v)), id, st, lib);
    AddEdgeEntity(u, v, id, st);
  }

  /** An ADD statement runs the ADD of its entity. */
  lemma AddRunsExecAdd(entity: Entity, id: string, st: State, lib: Library)
    ensures Exec(Add(entity, id), st, lib) == ExecAdd(entity, id, st)
  {
  }

  lemma AddEdgeEntity(u: string, v: string, id: string, st: State)
    requires id in st.env && st.env[id].GraphVal?
    ensures ExecAdd(EdgeEntity(EdgeLit(u, v)), id, st) == Done(SetGraph(st, id, AddEdge(st.env[id].g, u, v)))
  {
    DecodeQuoted(u);
    DecodeQuoted(v);
    assert EvalEntity(EdgeEntity(EdgeLit(u, v)), st.env) == Success(EdgeValue(u, v));
    assert GetGraph(st.env, id) == Success(st.env[id].g);
  }

  /** Running `a + b` runs `a`, then `b` from where `a` left off. */
  lemma {:induction false} BlockAppend(a: seq<Stmt>, b: seq<Stmt>, st: State, lib: Library)
    ensures ExecBlock(a + b, st, lib) ==
      match ExecBlock(a, st, lib)
      case Done(st1) => ExecBlock(b, st1, lib)
      case other => other
    decreases |a|
  {
    if |a| == 0 {
      assert a + b == b;
    } else {
      assert (a + b)[0] == a[0] && (a + b)[1..] == a[1..] + b;
      match Exec(a[0], st, lib)
      case Done(st1) => BlockAppend(a[1..], b, st1, lib);
      case Halted(_) =>
      case Raised(_, _) =>
    }
  }

  /** The state after a graph of the given kind with nodes "a" and "b" is built under "g". */
  function TwoNodeState(directed: bool, st: State): State
  {
    SetGraph(st, "g", AddNode(AddNode(EmptyGraph(directed), "a"), "b"))
  }

  function BuildTwoNodes(kind: GraphKind): seq<Stmt>
  {
    [Add(GraphEntity(kind), "g"), AddNodeStmt("a", "g"), AddNodeStmt("b", "g")]
  }

  /** Binding a graph under an id that already holds one replaces it. */
  lemma SetGraphAgain(st: State, id: string, g: Graph, h: Graph)
    ensures id in SetGraph(st, id, g).env && SetGraph(st, id, g).env[id] == GraphVal(g)
    ensures SetGraph(SetGraph(st, id, g), id, h) == SetGraph(st, id, h)
  {
    assert SetGraph(st, id, g).env[id := GraphVal(h)] == st.env[id := GraphVal(h)];
  }

  /** `ADD <kind> g; ADD NODE "a" g; ADD NODE "b" g` builds that graph under a fresh "g". */
  lemma BuildTwoNodesRuns(kind: GraphKind, st: State, lib: Library)
    requires "g" !in st.env
    ensures ExecBlock(BuildTwoNodes(kind), st, lib) == Done(TwoNodeState(kind == DigraphType, st))
  {
    var g0 := EmptyGraph(kind == DigraphType);
    var g1 := AddNode(g0, "a");
    var g2 := AddNode(g1, "b");
    var st1 := SetGraph(st, "g", g0);
    var st2 := SetGraph(st1, "g", g1);
    var st3 := SetGraph(st2, "g", g2);
    AddGraphStep(kind, "g", st, lib);
    SetGraphAgain(st, "g", g0, g1);
    SetGraphAgain(st1, "g", g1, g2);
    SetGraphAgain(st, "g", g0, g2);
    AddNodeStep("a", "g", st1, lib);
    AddNodeStep("b", "g", st2, lib);
    BlockOfThree(Add(GraphEntity(kind), "g"), AddNodeStmt("a", "g"), AddNodeStmt("b", "g"),
      st, st1, st2, st3, lib);
  }

  /** SET WEIGHT with quoted endpoints and a literal weight on a present edge stores that weight. */
  lemma SetWeightStep(u: string, v: string, w: nat, id: string, st: State, lib: Library)
    requires id in st.env && st.env[id].GraphVal? && HasEdge(st.env[id].g, u, v)
    ensures Exec(SetWeightOf(EdgeLit(u, v), NumLit(w), id), st, lib) ==
      Done(SetGraph(st, id, SetWeight(st.env[id].g, u, v, w).value))
  {
    DecodeQuoted(u);
    DecodeQuoted(v);
    assert EvalEdge(EdgeLit(u, v), st.env) == Success((u, v));
    assert EvalEntity(EdgeEntity(EdgeLit(u, v)), st.env) == Success(EdgeValue(u, v));
    assert GetGraph(st.env, id) == Success(st.env[id].g);
  }

  /**
    `ADD DIGRAPH g; ADD NODE "a" g; ADD NODE "b" g; ADD EDGE "a" "b" g;
    SET WEIGHT OF EDGE "a" "b" 5 g` completes, after which `GET WEIGHT OF EDGE "a" "b" g`
    is 5.
  */
  lemma WeightScenario(st: State, lib: Library)
    requires "g" !in st.env
    ensures var r := Run(BuildTwoNodes(DigraphType) + [Add(EdgeEntity(EdgeLit("a", "b")), "g"), SetWeightOf(EdgeLit("a", "b"), NumLit(5), "g")], st, lib);
      r.Done? && EvalNum(WeightOf(EdgeLit("a", "b"), "g"), r.st.env, lib) == Success(5)
  {
    var s3, s4 := Add(EdgeEntity(EdgeLit("a", "b")), "g"), SetWeightOf(EdgeLit("a", "b"), NumLit(5), "g");
    var st3 := TwoNodeState(true, st);
    BuildTwoNodesRuns(DigraphType, st, lib);
    BlockAppend(BuildTwoNodes(DigraphType), [s3, s4], st, lib);
    var g := WeightedEdgeRuns(st3, lib);
    SetThenGetWeight(g, "a", "b", 5);
    GetWeightReadsStoredOrOne("a", "b", "g", SetGraph(st3, "g", SetWeight(g, "a", "b", 5).value).env, lib);
  }

  /** The last two statements of the weight scenario, from the two-node digraph. */
  lemma WeightedEdgeRuns(st3: State, lib: Library) returns (g: Graph)
    requires "g" in st3.env && st3.env["g"].GraphVal?
    ensures g == AddEdge(st3.env["g"].g, "a", "b") && HasEdge(g, "a", "b")
    ensures ExecBlock([Add(EdgeEntity(EdgeLit("a", "b")), "g"), SetWeightOf(EdgeLit("a", "b"), NumLit(5), "g")], st3, lib)
      == Done(SetGraph(st3, "g", SetWeight(g, "a", "b", 5).value))
  {
    var s3, s4 := Add(EdgeEntity(EdgeLit("a", "b")), "g"), SetWeightOf(EdgeLit("a", "b"), NumLit(5), "g");
    g := AddEdge(st3.env["g"].g, "a", "b");
    var st4 := SetGraph(st3, "g", g);
    AddEdgeStep("a", "b", "g", st3, lib);
    SetGraphAgain(st3, "g", g, SetWeight(g, "a", "b", 5).value);
    SetWeightStep("a", "b", 5, "g", st4, lib);
    BlockOfTwo(s3, s4, st3, st4, SetGraph(st3, "g", SetWeight(g, "a", "b", 5).value), lib);
  }

  /** `HAS EDGE u v id` on a graph variable reads the graph's edge test. */
  lemma HasEdgeReadsGraph(u: string, v: string, id: string, env: Env, lib: Library)
    requires id in env && env[id].GraphVal?
    ensures EvalBool(HasEdgeIn(EdgeLit(u, v), id), env, lib) == Success(HasEdge(env[id].g, u, v))
  {
    DecodeQuoted(u);
    DecodeQuoted(v);
  }

  /**
    In an undirected graph with nodes "a" and "b", `HAS EDGE "a" "b" g` is FALSE; after
    `ADD EDGE "a" "b" g` it is TRUE, and so is `HAS EDGE "b" "a" g`.
  */
  lemma HasEdgeScenario(st: State, lib: Library)
    requires "g" !in st.env
    ensures var r := Run(BuildTwoNodes(GraphType), st, lib);
      && r.Done?
      && EvalBool(HasEdgeIn(EdgeLit("a", "b"), "g"), r.st.env, lib) == Success(false)
      && Exec(Add(EdgeEntity(EdgeLit("a", "b")), "g"), r.st, lib).Done?
      && EvalBool(HasEdgeIn(EdgeLit("a", "b"), "g"), Exec(Add(EdgeEntity(EdgeLit("a", "b")), "g"), r.st, lib).st.env, lib) == Success(true)
      && EvalBool(HasEdgeIn(EdgeLit("b", "a"), "g"), Exec(Add(EdgeEntity(EdgeLit("a", "b")), "g"), r.st, lib).st.env, lib) == Success(true)
  {
    DecodeQuoted("a");
    DecodeQuoted("b");
    BuildTwoNodesRuns(GraphType, st, lib);
    var st3 := TwoNodeState(false, st);
    var g := st3.env["g"].g;
    assert g.edges == map[];
    HasEdgeReadsGraph("a", "b", "g", st3.env, lib);
    AddEdgeStep("a", "b", "g", st3, lib);
    var st4 := SetGraph(st3, "g", AddEdge(g, "a", "b"));
    HasEdgeReadsGraph("a", "b", "g", st4.env, lib);
    HasEdgeReadsGraph("b", "a", "g", st4.env, lib);
    UndirectedHasEdgeSymmetric(AddEdge(g, "a", "b"), "a", "b");
  }

  // ----- Distance queries -----

  /** Every effective weight is non-negative: the graphs the library is asked about with Dijkstra. */
  ghost predicate NoNegativeWeights(g: Graph)
  {
    forall e :: e in g.edges ==> EffectiveWeight(g.edges[e]) >= 0
  }

  /**
    `GET DISTANCE BETWEEN "u" "v" id` checks the source, then the target, and only then asks
    the library, with Dijkstra exactly when no effective weight is negative.
  */
  lemma DistanceBetweenQuery(u: string, v: string, id: string, env: Env, lib: Library)
    requires id in env && env[id].GraphVal?
    ensures var g, r := env[id].g, EvalNum(DistanceBetween(EdgeLit(u, v), id), env, lib);
      && (!HasNode(g, u) ==> r == Failure(InGraph(NodeNotFound(u))))
      && (HasNode(g, u) && !HasNode(g, v) ==> r == Failure(InGraph(NodeNotFound(v))))
      && (HasNode(g, u) && HasNode(g, v) ==>
            r == FromLibrary(lib.distanceBetween(g, u, v, if NoNegativeWeights(g) then Dijkstra else BellmanFord)))
  {
    DecodeQuoted(u);
    DecodeQuoted(v);
    var a := ChooseAlgorithm(env[id].g);
  }

  /** `FOR x OF SHORTEST PATH "u" "v" id` iterates the library's path, found with the selected algorithm. */
  lemma ShortestPathQuery(u: string, v: string, id: string, env: Env, lib: Library)
    requires id in env && env[id].GraphVal?
    ensures var g := env[id].g;
      EvalSingle(ShortestPathIn(EdgeLit(u, v), id), env, lib) ==
        LabelRows(lib.shortestPath(g, u, v, if NoNegativeWeights(g) then Dijkstra else BellmanFord))
  {
    DecodeQuoted(u);
    DecodeQuoted(v);
    var a := ChooseAlgorithm(env[id].g);
  }

  /**
    `FOR x, d OF DISTANCE FROM "n" id` fails when `n` is not a node; otherwise it pairs each
    node the library reaches with its distance, found with the selected algorithm.
  */
  lemma DistanceFromQuery(n: string, id: string, env: Env, lib: Library)
    requires id in env && env[id].GraphVal?
    ensures var g, r := env[id].g, EvalDouble(DistanceFrom(NodeLiteral(n), id), env, lib);
      && (!HasNode(g, n) ==> r == Failure(InGraph(NodeNotFound(n))))
      && (HasNode(g, n) ==>
            var ds := lib.distancesFrom(g, n, if NoNegativeWeights(g) then Dijkstra else BellmanFord);
            && (r.Success? <==> ds.Success?)
            && (r.Failure? ==> r.error == AlgorithmFailure(ds.error))
            && (r.Success? ==> |r.value| == |ds.value|)
            && (r.Success? ==> forall i :: 0 <= i < |ds.value| ==> r.value[i] == [Str(ds.value[i].0), Int(ds.value[i].1)]))
  {
    DecodeQuoted(n);
    var a := ChooseAlgorithm(env[id].g);
  }

  /** `FOR x, y, d OF DISTANCE MATRIX id` lists every pair the library reports, with the selected algorithm. */
  lemma DistanceMatrixQuery(id: string, env: Env, lib: Library)
    requires id in env && env[id].GraphVal?
    ensures var g, r := env[id].g, EvalTriple(DistanceMatrix(id), env, lib);
      var ds := lib.distanceMatrix(g, if NoNegativeWeights(g) then Dijkstra else BellmanFord);
      && (r.Success? <==> ds.Success?)
      && (r.Failure? ==> r.error == AlgorithmFailure(ds.error))
      && (r.Success? ==> |r.value| == |ds.value|)
      && (r.Success? ==> forall i :: 0 <= i < |ds.value| ==> r.value[i] == [Str(ds.value[i].0), Str(ds.value[i].1), Int(ds.value[i].2)])
  {
    var a := ChooseAlgorithm(env[id].g);
  }

  /**
    In the graph `ADD DIGRAPH g; ADD NODE "a" g; ADD NODE "b" g` builds, no weight is set,
    so `GET DISTANCE BETWEEN "a" "b" g` asks the library with Dijkstra, while
    `GET DISTANCE BETWEEN "a" "c" g` fails on the missing node "c" without asking it.
  */
  lemma DistanceScenario(st: State, lib: Library)
    requires "g" !in st.env
    ensures var r := Run(BuildTwoNodes(DigraphType), st, lib);
      && r.Done?
      && EvalNum(DistanceBetween(EdgeLit("a", "b"), "g"), r.st.env, lib) ==
           FromLibrary(lib.distanceBetween(r.st.env["g"].g, "a", "b", Dijkstra))
      && EvalNum(DistanceBetween(EdgeLit("a", "c"), "g"), r.st.env, lib) == Failure(InGraph(NodeNotFound("c")))
  {
    BuildTwoNodesRuns(DigraphType, st, lib);
    var env := TwoNodeState(true, st).env;
    var g := env["g"].g;
    assert g.edges == map[];
    assert HasNode(g, "a") && HasNode(g, "b") && !HasNode(g, "c");
    DistanceBetweenQuery("a", "b", "g", env, lib);
    DistanceBetweenQuery("a", "c", "g", env, lib);
  }
}

=== FILE: lexer.dfy ===
/**
  The GRL tokenizer. At each position, spaces and tabs are skipped; otherwise the rules are
  tried in their declaration order and the FIRST rule whose pattern matches there produces
  the token (ordered alternation, not longest match). A position where no rule matches is a
  lexical error.

  Patterns are fixed texts, the STRING literal `"(?:[^"\\]|\\.)*"`, the NUMBER literal
  (whose first alternative `\d+` always wins, so only digit runs are produced) and the
  identifier `[_a-z][_a-z0-9]*`. Each is implemented by a scanner and described by an
  independent predicate; the two are proved to agree.
*/
module Lexer {
  import opened Wrappers

  datatype Kind =
    | True | False | String | Number
    | Eq | Neq | Leq | Lt | Geq | Gt
    | Graph | Digraph | Node | Edge | Weight
    | Add | Rm | Get | Set
    | DistanceBetween | DistanceFrom | DistanceMatrix
    | Nodes | Edges | TopologicalSort | ShortestPath | Neighbors
    | For | Comma | Of | If | ElseIf | Else
    | LeftParent | RightParent | LeftCurly | RightCurly
    | Print | Export | Import
    | Id


  /** A fixed token text; no rule has an empty one. */
  type Literal = s: string | |s| > 0 witness "x"

  datatype Pattern = Exactly(text: Literal) | StringPattern | NumberPattern | IdPattern

  datatype Rule = Rule(kind: Kind, pattern: Pattern)

  datatype Token = Token(kind: Kind, text: string, pos: nat)

  /** Rule `k` of the table, in declaration order; the order decides which rule wins. */
  function RuleAt(k: nat): Rule
    requires k < 41
  {
    if k == 0 then Rule(True, Exactly("TRUE"))
    else if k == 1 then Rule(False, Exactly("FALSE"))
    else if k == 2 then Rule(String, StringPattern)
    else if k == 3 then Rule(Number, NumberPattern)
    else if k == 4 then Rule(Eq, Exactly("=="))
    else if k == 5 then Rule(Neq, Exactly("!="))
    else if k == 6 then Rule(Leq, Exactly("<="))
    else if k == 7 then Rule(Lt, Exactly("<"))
    else if k == 8 then Rule(Geq, Exactly(">="))
    else if k == 9 then Rule(Gt, Exactly(">"))
    else if k == 10 then Rule(Graph, Exactly("GRAPH"))
    else if k == 11 then Rule(Digraph, Exactly("DIGRAPH"))
    else if k == 12 then Rule(Node, Exactly("NODE"))
    else if k == 13 then Rule(Edge, Exactly("EDGE"))
    else if k == 14 then Rule(Weight, Exactly("WEIGHT"))
    else if k == 15 then Rule(Add, Exactly("ADD"))
    else if k == 16 then Rule(Rm, Exactly("RM"))
    else if k == 17 then Rule(Get, Exactly("GET"))
    else if k == 18 then Rule(Set, Exactly("SET"))
    else if k == 19 then Rule(DistanceBetween, Exactly("DISTANCE BETWEEN"))
    else if k == 20 then Rule(DistanceFrom, Exactly("DISTANCE FROM"))
    else if k == 21 then Rule(DistanceMatrix, Exactly("DISTANCE MATRIX"))
    else if k == 22 then Rule(Nodes, Exactly("NODES"))
    else if k == 23 then Rule(Edges, Exactly("EDGES"))
    else if k == 24 then Rule(TopologicalSort, Exactly("TOPOLOGICAL SORT"))
    else if k == 25 then Rule(ShortestPath, Exactly("SHORTEST PATH"))
    else if k == 26 then Rule(Neighbors, Exactly("NEIGHBORS"))
    else if k == 27 then Rule(For, Exactly("FOR"))
    else if k == 28 then Rule(Comma, Exactly(","))
    else if k == 29 then Rule(Of, Exactly("OF"))
    else if k == 30 then Rule(If, Exactly("IF"))
    else if k == 31 then Rule(ElseIf, Exactly("ELSEIF"))
    else if k == 32 then Rule(Else, Exactly("ELSE"))
    else if k == 33 then Rule(LeftParent, Exactly("("))
    else if k == 34 then Rule(RightParent, Exactly(")"))
    else if k == 35 then Rule(LeftCurly, Exactly("{"))
    else if k == 36 then Rule(RightCurly, Exactly("}"))
    else if k == 37 then Rule(Print, Exactly("PRINT"))
    else if k == 38 then Rule(Export, Exactly("EXPORT"))
    else if k == 39 then Rule(Import, Exactly("IMPORT"))
    else Rule(Id, IdPattern)
  }

  /** The token rules, in declaration order. */
  function Rules(): seq<Rule>
  {
    seq(41, k requires 0 <= k < 41 => RuleAt(k))
  }

  /** Characters skipped between tokens. */
  predicate Ignored(c: char)
  {
    c == ' ' || c == '\t'
  }

  predicate IsDigit(c: char)
  {
    '0' <= c <= '9'
  }

  predicate IsIdStart(c: char)
  {
    c == '_' || 'a' <= c <= 'z'
  }

  predicate IsIdPart(c: char)
  {
    IsIdStart(c) || IsDigit(c)
  }

  // ----- Reference descriptions of the literal tokens -----

  /** A NUMBER token's text: one or more ASCII digits. */
  predicate IsDigits(t: string)
  {
    |t| > 0 && forall k :: 0 <= k < |t| ==> IsDigit(t[k])
  }

  /** An identifier: a lower-case letter or `_`, then letters, digits and `_`. */
  predicate IsIdentifier(t: string)
  {
    |t| > 0 && IsIdStart(t[0]) && forall k :: 1 <= k < |t| ==> IsIdPart(t[k])
  }

  /**
    The inside of a STRING literal: characters other than `"` and `\`, and escapes of a
    backslash followed by any character but a newline.
  */
  predicate StringBody(b: string)
    decreases |b|
  {
    if |b| == 0 then true
    else if b[0] == '"' then false
    else if b[0] == '\\' then |b| >= 2 && b[1] != '\n' && StringBody(b[2..])
    else StringBody(b[1..])
  }

  /** A STRING token's text: a body between double quotes. */
  predicate IsStringLiteral(t: string)
  {
    |t| >= 2 && t[0] == '"' && t[|t| - 1] == '"' && StringBody(t[1..|t| - 1])
  }

  /** What a pattern accepts as a whole token text. */
  predicate Accepts(p: Pattern, t: string)
  {
    match p
    case Exactly(text) => t == text
    case StringPattern => IsStringLiteral(t)
    case NumberPattern => IsDigits(t)
    case IdPattern => IsIdentifier(t)
  }

  // ----- Scanners -----

  /** A slice of a slice is a slice of the original text. */
  lemma SliceOfSlice(s: string, a: nat, b: nat, c: nat, d: nat)
    requires a <= b <= |s| && c <= d <= b - a
    ensures s[a..b][c..d] == s[a + c..a + d]
  {
    var x, y := s[a..b][c..d], s[a + c..a + d];
    forall k | 0 <= k < d - c ensures x[k] == y[k] {
      assert x[k] == s[a..b][c + k] == s[a + c + k];
    }
  }

  /** The length of the run of characters satisfying the digit test from `j`. */
  function DigitRun(s: string, j: nat): (n: nat)
    requires j <= |s|
    ensures j + n <= |s|
    ensures forall k :: j <= k < j + n ==> IsDigit(s[k])
    ensures j + n == |s| || !IsDigit(s[j + n])
    decreases |s| - j
  {
    if j < |s| && IsDigit(s[j]) then 1 + DigitRun(s, j + 1) else 0
  }

  /** The length of the run of identifier characters from `j`. */
  function IdRun(s: string, j: nat): (n: nat)
    requires j <= |s|
    ensures j + n <= |s|
    ensures forall k :: j <= k < j + n ==> IsIdPart(s[k])
    ensures j + n == |s| || !IsIdPart(s[j + n])
    decreases |s| - j
  {
    if j < |s| && IsIdPart(s[j]) then 1 + IdRun(s, j + 1) else 0
  }

  /**
    Scans a STRING body from `j`: the position just after the closing quote, or nothing when
    the input ends, or a backslash is last or followed by a newline, before a closing quote.
  */
  function ScanString(s: string, j: nat): (r: Option<nat>)
    requires j <= |s|
    ensures r.Some? ==> j < r.value <= |s| && s[r.value - 1] == '"' && StringBody(s[j..r.value - 1])
    decreases |s| - j
  {
    if j >= |s| then None
    else if s[j] == '"' then
      assert s[j..j] == [];
      Some(j + 1)
    else if s[j] == '\\' then
      if j + 1 < |s| && s[j + 1] != '\n' then
        var r := ScanString(s, j + 2);
        if r.Some? then
          assert s[j..r.value - 1][2..] == s[j + 2..r.value - 1];
          r
        else r
      else None
    else
      var r := ScanString(s, j + 1);
      if r.Some? then
        assert s[j..r.value - 1][1..] == s[j + 1..r.value - 1];
        r
      else r
  }

  /** The length of the text `p` matches at position `i`, if it matches there. */
  function MatchLen(p: Pattern, s: string, i: nat): (r: Option<nat>)
    requires i <= |s|
    ensures r.Some? ==> 0 < r.value && i + r.value <= |s| && Accepts(p, s[i..i + r.value])
  {
    match p
    case Exactly(text) =>
      if text <= s[i..] then
        assert s[i..i + |text|] == s[i..][..|text|];
        Some(|text|)
      else None
    case NumberPattern =>
      var n := DigitRun(s, i);
      if n > 0 then Some(n) else None
    case IdPattern =>
      if i < |s| && IsIdStart(s[i]) then
        var n := 1 + IdRun(s, i + 1);
        var t := s[i..i + n];
        forall k | 1 <= k < n ensures IsIdPart(t[k]) {
          assert t[k] == s[i + k];
        }
        Some(n)
      else None
    case StringPattern =>
      if i < |s| && s[i] == '"' then
        match ScanString(s, i + 1)
        case None => None
        case Some(e) =>
          SliceOfSlice(s, i, e, 1, e - i - 1);
          Some(e - i)
      else None
  }

  // ----- Scanners against their descriptions -----

  /** NUMBER matches exactly a maximal run of digits. */
  lemma NumberMatchesMaximalDigits(s: string, i: nat, n: nat)
    requires i + n <= |s|
    ensures MatchLen(NumberPattern, s, i) == Some(n) <==>
      IsDigits(s[i..i + n]) && (i + n == |s| || !IsDigit(s[i + n]))
  {
    if IsDigits(s[i..i + n]) && (i + n == |s| || !IsDigit(s[i + n])) {
      DigitRunIsMaximal(s, i, n);
    }
  }

  lemma {:induction false} DigitRunIsMaximal(s: string, j: nat, n: nat)
    requires j + n <= |s|
    requires forall k :: j <= k < j + n ==> IsDigit(s[k])
    requires j + n == |s| || !IsDigit(s[j + n])
    ensures DigitRun(s, j) == n
    decreases n
  {
    if n > 0 {
      DigitRunIsMaximal(s, j + 1, n - 1);
    }
  }

  lemma {:induction false} IdRunIsMaximal(s: string, j: nat, n: nat)
    requires j + n <= |s|
    requires forall k :: j <= k < j + n ==> IsIdPart(s[k])
    requires j + n == |s| || !IsIdPart(s[j + n])
    ensures IdRun(s, j) == n
    decreases n
  {
    if n > 0 {
      IdRunIsMaximal(s, j + 1, n - 1);
    }
  }

  /** ID matches exactly a maximal identifier. */
  lemma IdMatchesMaximalIdentifier(s: string, i: nat, n: nat)
    requires i + n <= |s|
    ensures MatchLen(IdPattern, s, i) == Some(n) <==>
      IsIdentifier(s[i..i + n]) && (i + n == |s| || !IsIdPart(s[i + n]))
  {
    if IsIdentifier(s[i..i + n]) && (i + n == |s| || !IsIdPart(s[i + n])) {
      assert s[i..i + n][0] == s[i];
      forall k | i + 1 <= k < i + n ensures IsIdPart(s[k]) {
        assert s[i..i + n][k - i] == s[k];
      }
      IdRunIsMaximal(s, i + 1, n - 1);
    }
  }

  /** A well-formed body followed by a quote is scanned to exactly that quote. */
  lemma {:induction false} ScanStringFindsClosingQuote(s: string, j: nat, e: nat)
    requires j < e <= |s| && s[e - 1] == '"' && StringBody(s[j..e - 1])
    ensures ScanString(s, j) == Some(e)
    decreases e - j
  {
    var b := s[j..e - 1];
    if j < e - 1 {
      assert b[0] == s[j];
      if s[j] == '\\' {
        assert b[1] == s[j + 1];
        assert b[2..] == s[j + 2..e - 1];
        ScanStringFindsClosingQuote(s, j + 2, e);
      } else {
        assert b[1..] == s[j + 1..e - 1];
        ScanStringFindsClosingQuote(s, j + 1, e);
      }
    }
  }

  /**
    STRING matches exactly a string literal: a literal starting at `i` is the unique STRING
    match there, since its body cannot hold an unescaped quote.
  */
  lemma StringMatchesLiteral(s: string, i: nat, n: nat)
    requires i + n <= |s|
    ensures MatchLen(StringPattern, s, i) == Some(n) <==> IsStringLiteral(s[i..i + n])
  {
    if IsStringLiteral(s[i..i + n]) {
      var t := s[i..i + n];
      assert s[i] == t[0];
      assert s[i + n - 1] == t[|t| - 1];
      assert |t| == n;
      SliceOfSlice(s, i, i + n, 1, n - 1);
      ScanStringFindsClosingQuote(s, i + 1, i + n);
    }
  }

  /** Text without quotes or backslashes is a string body, so it can be written as a literal. */
  lemma {:induction false} PlainTextIsStringBody(b: string)
    requires forall k :: 0 <= k < |b| ==> b[k] != '"' && b[k] != '\\'
    ensures StringBody(b)
    decreases |b|
  {
    if |b| > 0 {
      PlainTextIsStringBody(b[1..]);
    }
  }

  // ----- First match over a rule table -----

  /** The length rule `k` of the table matches at `i`, if it matches there. */
  function RuleMatch(rules: seq<Rule>, k: nat, s: string, i: nat): (r: Option<nat>)
    requires k < |rules| && i <= |s|
    ensures r.Some? ==> 0 < r.value && i + r.value <= |s| && Accepts(rules[k].pattern, s[i..i + r.value])
  {
    MatchLen(rules[k].pattern, s, i)
  }

  /** The first rule, from index `j` on, that matches at `i`, with the length it matches. */
  function FirstMatchFrom(rules: seq<Rule>, s: string, i: nat, j: nat): (r: Option<(nat, nat)>)
    requires i <= |s| && j <= |rules|
    ensures r.Some? ==> j <= r.value.0 < |rules| && RuleMatch(rules, r.value.0, s, i) == Some(r.value.1)
    ensures r.Some? ==> forall k :: j <= k < r.value.0 ==> RuleMatch(rules, k, s, i).None?
    ensures r.None? ==> forall k :: j <= k < |rules| ==> RuleMatch(rules, k, s, i).None?
    decreases |rules| - j
  {
    if j == |rules| then None
    else
      match RuleMatch(rules, j, s, i)
      case Some(n) => Some((j, n))
      case None => FirstMatchFrom(rules, s, i, j + 1)
  }

  /** The winning rule at `i`: the earliest in table order that matches. */
  function FirstMatch(rules: seq<Rule>, s: string, i: nat): (r: Option<(nat, nat)>)
    requires i <= |s|
    ensures r.Some? ==> r.value.0 < |rules| && RuleMatch(rules, r.value.0, s, i) == Some(r.value.1)
    ensures r.Some? ==> forall k :: 0 <= k < r.value.0 ==> RuleMatch(rules, k, s, i).None?
    ensures r.None? <==> forall k :: 0 <= k < |rules| ==> RuleMatch(rules, k, s, i).None?
  {
    FirstMatchFrom(rules, s, i, 0)
  }

  /** A rule that matches wins exactly when no earlier rule matches. */
  lemma FirstMatchIsEarliest(rules: seq<Rule>, s: string, i: nat, j: nat, n: nat)
    requires i <= |s| && j < |rules|
    requires RuleMatch(rules, j, s, i) == Some(n)
    requires forall k :: 0 <= k < j ==> RuleMatch(rules, k, s, i).None?
    ensures FirstMatch(rules, s, i) == Some((j, n))
  {
  }

  /**
    A rule whose text begins with an earlier rule's fixed text never wins: wherever it
    matches, the earlier rule matches too.
  */
  lemma ShadowedRuleNeverWins(rules: seq<Rule>, s: string, i: nat, early: nat, late: nat)
    requires i <= |s| && early < late < |rules|
    requires rules[early].pattern.Exactly? && rules[late].pattern.Exactly?
    requires rules[early].pattern.text <= rules[late].pattern.text
    ensures FirstMatch(rules, s, i).Some? ==> FirstMatch(rules, s, i).value.0 != late
  {
    var a, b := rules[early].pattern.text, rules[late].pattern.text;
    if b <= s[i..] {
      assert a == b[..|a|] == s[i..][..|a|];
      assert RuleMatch(rules, early, s, i).Some?;
    }
  }

  // ----- Tokenizing -----

  /** Every character of `t` is skipped between tokens. */
  predicate AllIgnored(t: string)
  {
    forall k :: 0 <= k < |t| ==> Ignored(t[k])
  }

  /** The token the winning rule produces at a position. */
  predicate Lexes(rules: seq<Rule>, s: string, t: Token)
  {
    && t.pos <= |s|
    && FirstMatch(rules, s, t.pos).Some?
    && rules[FirstMatch(rules, s, t.pos).value.0].kind == t.kind
    && t.pos + FirstMatch(rules, s, t.pos).value.1 <= |s|
    && t.text == s[t.pos..t.pos + FirstMatch(rules, s, t.pos).value.1]
  }

  /**
    `toks` splits `s` from `i` up to `p`: each token starts at a character that is not
    skipped and is what the winning rule produces there, and everything between tokens and
    after the last one, up to `p`, is skipped whitespace.
  */
  ghost predicate SegmentsUpTo(rules: seq<Rule>, s: string, i: nat, p: nat, toks: seq<Token>)
    decreases |toks|
  {
    && i <= p <= |s|
    && if |toks| == 0 then AllIgnored(s[i..p])
       else
         && i <= toks[0].pos < |s|
         && !Ignored(s[toks[0].pos])
         && Lexes(rules, s, toks[0])
         && AllIgnored(s[i..toks[0].pos])
         && SegmentsUpTo(rules, s, toks[0].pos + |toks[0].text|, p, toks[1..])
  }

  /** `toks` splits all of `s` from `i` on. */
  ghost predicate Segments(rules: seq<Rule>, s: string, i: nat, toks: seq<Token>)
  {
    SegmentsUpTo(rules, s, i, |s|, toks)
  }

  /** The scan can take a step at `i`: the character there is skipped, or some rule matches. */
  predicate CanStep(rules: seq<Rule>, s: string, i: nat)
  {
    i < |s| && (Ignored(s[i]) || FirstMatch(rules, s, i).Some?)
  }

  /** Where one scan step from `i` lands: past the skipped character, or past the winning match. */
  function Next(rules: seq<Rule>, s: string, i: nat): (n: nat)
    requires CanStep(rules, s, i)
    ensures i < n <= |s|
  {
    if Ignored(s[i]) then i + 1 else i + FirstMatch(rules, s, i).value.1
  }

  /** Scanning from `i` arrives at `p`: one step at a time, the scan lands exactly on `p`. */
  ghost predicate Reaches(rules: seq<Rule>, s: string, i: nat, p: nat)
    decreases p - i
  {
    && i <= p <= |s|
    && (i == p || (CanStep(rules, s, i) && Next(rules, s, i) <= p && Reaches(rules, s, Next(rules, s, i), p)))
  }

  /** A token's text is accepted by the pattern of a rule of its kind. */
  ghost predicate WellFormed(rules: seq<Rule>, t: Token)
  {
    exists k :: 0 <= k < |rules| && rules[k].kind == t.kind && Accepts(rules[k].pattern, t.text)
  }

  /** A skipped character in front of a split is part of the split. */
  lemma SkipIgnored(rules: seq<Rule>, s: string, i: nat, p: nat, toks: seq<Token>)
    requires i < |s| && Ignored(s[i]) && SegmentsUpTo(rules, s, i + 1, p, toks)
    ensures SegmentsUpTo(rules, s, i, p, toks)
  {
    if |toks| > 0 {
      IgnoredBefore(s, i, toks[0].pos);
    } else {
      IgnoredBefore(s, i, p);
    }
  }

  /** A skipped character in front of a skipped stretch makes a longer skipped stretch. */
  lemma IgnoredBefore(s: string, i: nat, q: nat)
    requires i < q <= |s| && Ignored(s[i]) && AllIgnored(s[i + 1..q])
    ensures AllIgnored(s[i..q])
  {
    assert s[i..q] == [s[i]] + s[i + 1..q];
  }

  /** The winning token at a character that is not skipped, then a split of what follows. */
  lemma TokenInFront(rules: seq<Rule>, s: string, tok: Token, j: nat, p: nat, rest: seq<Token>)
    requires tok.pos < |s| && !Ignored(s[tok.pos]) && Lexes(rules, s, tok)
    requires j == tok.pos + |tok.text| && SegmentsUpTo(rules, s, j, p, rest)
    ensures SegmentsUpTo(rules, s, tok.pos, p, [tok] + rest)
  {
    assert s[tok.pos..tok.pos] == [];
    assert ([tok] + rest)[1..] == rest;
  }

  /** The token the winning rule produces at `i`. */
  function WinningToken(rules: seq<Rule>, s: string, i: nat): (t: Token)
    requires i <= |s| && FirstMatch(rules, s, i).Some?
    ensures Lexes(rules, s, t) && t.pos == i && |t.text| > 0
    ensures !Ignored(s[i]) ==> CanStep(rules, s, i) && Next(rules, s, i) == i + |t.text|
  {
    var (j, n) := FirstMatch(rules, s, i).value;
    Token(rules[j].kind, s[i..i + n], i)
  }

  /**
    Tokenizes from `i`: the tokens, or the position where the scan gets stuck on a character
    no rule accepts (the illegal-character error); everything before that position has been
    split into tokens and skipped whitespace.
  */
  function TokenizeFrom(rules: seq<Rule>, s: string, i: nat): (r: Result<seq<Token>, nat>)
    requires i <= |s|
    ensures r.Success? ==> Segments(rules, s, i, r.value)
    ensures r.Failure? ==> i <= r.error < |s| && !Ignored(s[r.error]) && FirstMatch(rules, s, r.error).None?
    ensures r.Failure? ==> Reaches(rules, s, i, r.error)
    decreases |s| - i
  {
    if i == |s| then
      assert s[i..] == [];
      Success([])
    else if Ignored(s[i]) then
      var r := TokenizeFrom(rules, s, i + 1);
      if r.Success? then
        SkipIgnored(rules, s, i, |s|, r.value);
        r
      else
        ReachesByNext(rules, s, i, i + 1, r.error);
        r
    else if FirstMatch(rules, s, i).None? then
        Failure(i)
    else
      var tok := WinningToken(rules, s, i);
      var r := TokenizeFrom(rules, s, Next(rules, s, i));
      if r.Success? then
        TokenInFront(rules, s, tok, Next(rules, s, i), |s|, r.value);
        Success([tok] + r.value)
      else
        ReachesByNext(rules, s, i, Next(rules, s, i), r.error);
        r
  }

  /** The first character of a skipped stretch is skipped, and so is the rest of it. */
  lemma IgnoredFront(s: string, i: nat, q: nat)
    requires i < q <= |s| && AllIgnored(s[i..q])
    ensures Ignored(s[i]) && AllIgnored(s[i + 1..q])
  {
    assert s[i..q][0] == s[i];
    assert s[i + 1..q] == s[i..q][1..];
  }

  /** A split that does not start with a token at `i` starts with a skipped character. */
  lemma SplitSkipsFront(rules: seq<Rule>, s: string, i: nat, p: nat, toks: seq<Token>)
    requires SegmentsUpTo(rules, s, i, p, toks) && i < p && (|toks| == 0 || i < toks[0].pos)
    ensures i < |s| && Ignored(s[i]) && SegmentsUpTo(rules, s, i + 1, p, toks)
  {
    if |toks| == 0 {
      IgnoredFront(s, i, p);
    } else {
      IgnoredFront(s, i, toks[0].pos);
    }
  }

  /** A split that starts with a token at `i`: the token, then a split of the rest. */
  lemma SplitTakesFront(rules: seq<Rule>, s: string, i: nat, p: nat, toks: seq<Token>)
    requires SegmentsUpTo(rules, s, i, p, toks) && |toks| > 0 && toks[0].pos == i
    ensures toks[0].pos < |s| && !Ignored(s[toks[0].pos]) && Lexes(rules, s, toks[0])
    ensures SegmentsUpTo(rules, s, toks[0].pos + |toks[0].text|, p, toks[1..])
  {
  }

  /**
    A split up to `p` starts with a token at `i` exactly when `i` is before `p` and not
    skipped; any first token lies before `p`.
  */
  lemma SplitFront(rules: seq<Rule>, s: string, i: nat, p: nat, toks: seq<Token>)
    requires SegmentsUpTo(rules, s, i, p, toks)
    ensures |toks| > 0 ==> i <= toks[0].pos < p && |toks[0].text| > 0
    ensures (|toks| > 0 && toks[0].pos == i) <==> (i < p && !Ignored(s[i]))
  {
    if |toks| == 0 {
      if i < p {
        IgnoredFront(s, i, p);
      }
    } else {
      var t := toks[0];
      assert |t.text| == FirstMatch(rules, s, t.pos).value.1 > 0;
      if i < t.pos {
        IgnoredFront(s, i, t.pos);
      }
    }
  }

  /** Two tokens the winning rule produces at the same position are the same token. */
  lemma LexedIsUnique(rules: seq<Rule>, s: string, t: Token, u: Token)
    requires Lexes(rules, s, t) && Lexes(rules, s, u) && t.pos == u.pos
    ensures t == u
  {
  }

  /** A scan that takes one step from `i` and then arrives at `p` arrives at `p` from `i`. */
  lemma ReachesByNext(rules: seq<Rule>, s: string, i: nat, j: nat, p: nat)
    requires CanStep(rules, s, i) && j == Next(rules, s, i) && Reaches(rules, s, j, p)
    ensures Reaches(rules, s, i, p)
  {
  }

  /** A scan that arrives at `p` from before it takes its first step on the way. */
  lemma ReachesPastNext(rules: seq<Rule>, s: string, i: nat, p: nat)
    requires Reaches(rules, s, i, p) && i < p
    ensures CanStep(rules, s, i) && Reaches(rules, s, Next(rules, s, i), p)
  {
  }

  /** A split from one position is a split from any position equal to it. */
  lemma SplitFrom(rules: seq<Rule>, s: string, i: nat, j: nat, p: nat, toks: seq<Token>)
    requires i == j && SegmentsUpTo(rules, s, i, p, toks)
    ensures SegmentsUpTo(rules, s, j, p, toks)
  {
  }

  /** A split up to `p` from a skipped character at `i` is a split from `i + 1`. */
  lemma SplitSkip(rules: seq<Rule>, s: string, i: nat, p: nat, toks: seq<Token>)
    requires SegmentsUpTo(rules, s, i, p, toks) && i < p && Ignored(s[i])
    ensures SegmentsUpTo(rules, s, i + 1, p, toks)
  {
    SplitFront(rules, s, i, p, toks);
    SplitSkipsFront(rules, s, i, p, toks);
  }

  /** A split that ends where it starts has no tokens. */
  lemma SplitEmpty(rules: seq<Rule>, s: string, i: nat, p: nat, toks: seq<Token>)
    requires SegmentsUpTo(rules, s, i, p, toks) && p <= i
    ensures toks == []
  {
    SplitFront(rules, s, i, p, toks);
  }

  /** A split with a first token: that token, lexed at or after `i`, then a split of the rest. */
  lemma SplitHead(rules: seq<Rule>, s: string, i: nat, p: nat, toks: seq<Token>)
      returns (t: Token, j: nat, rest: seq<Token>)
    requires SegmentsUpTo(rules, s, i, p, toks) && |toks| > 0
    ensures toks == [t] + rest && i <= t.pos && Lexes(rules, s, t)
    ensures i < j && SegmentsUpTo(rules, s, j, p, rest)
  {
    SplitFront(rules, s, i, p, toks);
    t, j, rest := toks[0], toks[0].pos + |toks[0].text|, toks[1..];
  }

  /** A split that starts with a token at `i` takes the winning match there, then splits the rest. */
  lemma SplitStep(rules: seq<Rule>, s: string, i: nat, p: nat, toks: seq<Token>)
      returns (t: Token, j: nat, rest: seq<Token>)
    requires SegmentsUpTo(rules, s, i, p, toks) && i < p && !Ignored(s[i])
    ensures toks == [t] + rest && t.pos == i && Lexes(rules, s, t)
    ensures CanStep(rules, s, i) && j == Next(rules, s, i)
    ensures i < j && SegmentsUpTo(rules, s, j, p, rest)
  {
    SplitFront(rules, s, i, p, toks);
    SplitTakesFront(rules, s, i, p, toks);
    t, j, rest := toks[0], toks[0].pos + |toks[0].text|, toks[1..];
  }

  /** Two splits of the same stretch of text are the same split. */
  lemma {:induction false} SplitIsUnique(rules: seq<Rule>, s: string, i: nat, p: nat, a: seq<Token>, b: seq<Token>)
    requires SegmentsUpTo(rules, s, i, p, a) && SegmentsUpTo(rules, s, i, p, b)
    ensures a == b
    decreases p - i
  {
    if i < p && Ignored(s[i]) {
      SplitSkip(rules, s, i, p, a);
      SplitSkip(rules, s, i, p, b);
      SplitIsUnique(rules, s, i + 1, p, a, b);
    } else if i < p {
      var t, j, ra := SplitStep(rules, s, i, p, a);
      var u, k, rb := SplitStep(rules, s, i, p, b);
      LexedIsUnique(rules, s, t, u);
      SplitFrom(rules, s, k, j, p, rb);
      SplitIsUnique(rules, s, j, p, ra, rb);
    } else {
      SplitEmpty(rules, s, i, p, a);
      SplitEmpty(rules, s, i, p, b);
    }
  }

  /** A split up to `p` is a scan that arrives at `p`. */
  lemma {:induction false} SplitReaches(rules: seq<Rule>, s: string, i: nat, p: nat, toks: seq<Token>)
    requires SegmentsUpTo(rules, s, i, p, toks)
    ensures Reaches(rules, s, i, p)
    decreases p - i
  {
    if i < p && Ignored(s[i]) {
      SplitSkip(rules, s, i, p, toks);
      SplitReaches(rules, s, i + 1, p, toks);
      ReachesByNext(rules, s, i, i + 1, p);
    } else if i < p {
      var _, j, rest := SplitStep(rules, s, i, p, toks);
      SplitReaches(rules, s, j, p, rest);
      ReachesByNext(rules, s, i, j, p);
    }
  }

  /** A character no rule accepts, where the scan cannot go on. */
  predicate Stuck(rules: seq<Rule>, s: string, p: nat)
  {
    p < |s| && !Ignored(s[p]) && FirstMatch(rules, s, p).None?
  }

  /** A scan never passes a position where it gets stuck. */
  lemma {:induction false} ScanStopsAtStuck(rules: seq<Rule>, s: string, i: nat, p: nat, q: nat)
    requires Reaches(rules, s, i, p) && Reaches(rules, s, i, q)
    ensures Stuck(rules, s, p) ==> q <= p
    decreases p - i
  {
    if i < p && i < q {
      ReachesPastNext(rules, s, i, p);
      ReachesPastNext(rules, s, i, q);
      ScanStopsAtStuck(rules, s, Next(rules, s, i), p, q);
    } else if i < q {
      ReachesPastNext(rules, s, i, q);
    }
  }

  /** Two scans from one position, each ending where it is stuck or at the end, end together. */
  lemma ScansStopTogether(rules: seq<Rule>, s: string, i: nat, p: nat, e: nat)
    requires Reaches(rules, s, i, p) && Reaches(rules, s, i, e)
    requires Stuck(rules, s, p) && (e == |s| || Stuck(rules, s, e))
    ensures e == p
  {
    ScanStopsAtStuck(rules, s, i, p, e);
    ScanStopsAtStuck(rules, s, i, e, p);
  }

  /** A split of the whole text is the one the tokenizer produces. */
  lemma TokenizeComplete(rules: seq<Rule>, s: string, i: nat, toks: seq<Token>)
    requires Segments(rules, s, i, toks)
    ensures TokenizeFrom(rules, s, i) == Success(toks)
  {
    var r := TokenizeFrom(rules, s, i);
    SplitReaches(rules, s, i, |s|, toks);
    ScanStopsAtStuck(rules, s, i, if r.Failure? then r.error else |s|, |s|);
    if r.Success? {
      SplitIsUnique(rules, s, i, |s|, r.value, toks);
    }
  }

  /** When the text splits up to a character no rule accepts, tokenizing fails exactly there. */
  lemma TokenizeStopsAt(rules: seq<Rule>, s: string, i: nat, p: nat, toks: seq<Token>)
    requires SegmentsUpTo(rules, s, i, p, toks) && Stuck(rules, s, p)
    ensures TokenizeFrom(rules, s, i) == Failure(p)
  {
    var r := TokenizeFrom(rules, s, i);
    SplitReaches(rules, s, i, p, toks);
    if r.Success? {
      SplitReaches(rules, s, i, |s|, r.value);
    }
    ScansStopTogether(rules, s, i, p, if r.Failure? then r.error else |s|);
  }

  /** The split the scan builds on its way from `i` to `p`. */
  lemma {:induction false} SplitToReached(rules: seq<Rule>, s: string, i: nat, p: nat) returns (toks: seq<Token>)
    requires Reaches(rules, s, i, p)
    ensures SegmentsUpTo(rules, s, i, p, toks)
    decreases p - i
  {
    if i == p {
      toks := [];
      assert s[i..i] == [];
    } else {
      ReachesPastNext(rules, s, i, p);
      var j := Next(rules, s, i);
      if Ignored(s[i]) {
        toks := SplitToReached(rules, s, j, p);
        SkipIgnored(rules, s, i, p, toks);
      } else {
        var t := WinningToken(rules, s, i);
        var rest := SplitToReached(rules, s, j, p);
        TokenInFront(rules, s, t, j, p, rest);
        toks := [t] + rest;
      }
    }
  }

  /** Where the scan arrives, the text before it splits into tokens and whitespace. */
  lemma ReachedIsSplit(rules: seq<Rule>, s: string, i: nat, p: nat)
    requires Reaches(rules, s, i, p)
    ensures exists toks :: SegmentsUpTo(rules, s, i, p, toks)
  {
    var toks := SplitToReached(rules, s, i, p);
  }

  /** A token the winning rule produces is accepted by the pattern of a rule of its kind. */
  lemma LexedIsWellFormed(rules: seq<Rule>, s: string, t: Token)
    requires Lexes(rules, s, t)
    ensures WellFormed(rules, t)
  {
    var j := FirstMatch(rules, s, t.pos).value.0;
    assert rules[j].kind == t.kind && Accepts(rules[j].pattern, t.text);
  }

  /** Every token of a split is produced by a rule of its kind, at or after where the split starts. */
  lemma {:induction false} SegmentsAreWellFormed(rules: seq<Rule>, s: string, i: nat, toks: seq<Token>)
    requires Segments(rules, s, i, toks)
    ensures forall k :: 0 <= k < |toks| ==> WellFormed(rules, toks[k]) && i <= toks[k].pos
    decreases |toks|
  {
    if |toks| > 0 {
      var t, j, rest := SplitHead(rules, s, i, |s|, toks);
      LexedIsWellFormed(rules, s, t);
      SegmentsAreWellFormed(rules, s, j, rest);
      forall k | 1 <= k < |toks| ensures WellFormed(rules, toks[k]) && i <= toks[k].pos {
        assert toks[k] == rest[k - 1];
      }
    }
  }

  /**
    The GRL token stream of a line, or the position of the illegal character the scan gets
    stuck on.
  */
  function Tokenize(s: string): (r: Result<seq<Token>, nat>)
    ensures r.Success? ==> Segments(Rules(), s, 0, r.value)
    ensures r.Failure? ==> r.error < |s| && !Ignored(s[r.error]) && FirstMatch(Rules(), s, r.error).None?
    ensures r.Failure? ==> Reaches(Rules(), s, 0, r.error)
  {
    TokenizeFrom(Rules(), s, 0)
  }

  /** A line tokenizes to `toks` exactly when `toks` splits it. */
  lemma TokenizeIsSplit(s: string, toks: seq<Token>)
    ensures Tokenize(s) == Success(toks) <==> Segments(Rules(), s, 0, toks)
  {
    if Segments(Rules(), s, 0, toks) {
      TokenizeComplete(Rules(), s, 0, toks);
    }
  }

  /**
    A line fails to tokenize at `p` exactly when the text before `p` splits into tokens and
    whitespace and no rule accepts the character at `p`.
  */
  lemma TokenizeFailsExactlyAt(s: string, p: nat)
    ensures Tokenize(s) == Failure(p) <==>
      && p < |s| && !Ignored(s[p]) && FirstMatch(Rules(), s, p).None?
      && exists toks :: SegmentsUpTo(Rules(), s, 0, p, toks)
  {
    if Tokenize(s) == Failure(p) {
      ReachedIsSplit(Rules(), s, 0, p);
    }
    if Stuck(Rules(), s, p) && exists toks :: SegmentsUpTo(Rules(), s, 0, p, toks) {
      var toks :| SegmentsUpTo(Rules(), s, 0, p, toks);
      TokenizeStopsAt(Rules(), s, 0, p, toks);
    }
  }

  // ----- Rules a text excludes -----

  /** `a` and `b` differ at some index from `m` on that both of them have. */
  predicate DivergeFrom(a: string, b: string, m: nat)
    decreases |a| - m
  {
    m < |a| && m < |b| && (a[m] != b[m] || DivergeFrom(a, b, m + 1))
  }

  /** Texts that differ at a common index are not both prefixes of one input. */
  lemma {:induction false} DivergedNotBothPrefixes(a: string, b: string, u: string, m: nat)
    requires DivergeFrom(a, b, m)
    ensures !(a <= u && b <= u)
    decreases |a| - m
  {
    if a[m] == b[m] {
      DivergedNotBothPrefixes(a, b, u, m + 1);
    } else {
      assert a <= u ==> a[m] == u[m];
      assert b <= u ==> b[m] == u[m];
    }
  }

  /**
    Pattern `p` cannot match where the input starts with `w`: a fixed text that differs from
    `w` at an index both have, or a literal pattern that cannot start with the first
    character of `w`.
  */
  predicate Excludes(p: Pattern, w: string)
    requires |w| > 0
  {
    match p
    case Exactly(text) => DivergeFrom(text, w, 0)
    case StringPattern => w[0] != '"'
    case NumberPattern => !IsDigit(w[0])
    case IdPattern => !IsIdStart(w[0])
  }

  /** An excluded pattern does not match at a position where `w` starts. */
  lemma ExcludedDoesNotMatch(p: Pattern, w: string, s: string, i: nat)
    requires |w| > 0 && i <= |s| && w <= s[i..] && Excludes(p, w)
    ensures MatchLen(p, s, i).None?
  {
    assert s[i..][0] == s[i];
    match p
    case Exactly(text) =>
      DivergedNotBothPrefixes(text, w, s[i..], 0);
    case StringPattern =>
    case NumberPattern =>
    case IdPattern =>
  }

  /** Every rule from index `lo` up to `hi` is excluded by `w`. */
  predicate ExcludedFrom(rules: seq<Rule>, lo: nat, hi: nat, w: string)
    requires lo <= hi <= |rules| && |w| > 0
    decreases hi - lo
  {
    lo == hi || (Excludes(rules[lo].pattern, w) && ExcludedFrom(rules, lo + 1, hi, w))
  }

  /** Where `w` starts, no rule that `w` excludes matches. */
  lemma {:induction false} NoEarlierMatch(rules: seq<Rule>, w: string, s: string, i: nat, lo: nat, hi: nat)
    requires |w| > 0 && i <= |s| && w <= s[i..] && lo <= hi <= |rules| && ExcludedFrom(rules, lo, hi, w)
    ensures forall k :: lo <= k < hi ==> RuleMatch(rules, k, s, i).None?
    decreases hi - lo
  {
    if lo < hi {
      ExcludedDoesNotMatch(rules[lo].pattern, w, s, i);
      NoEarlierMatch(rules, w, s, i, lo + 1, hi);
    }
  }
}

=== FILE: parse_tree_node.dfy ===
/**
  The deferred-evaluation tree that every grammar action builds instead of computing
  eagerly. A node pairs an evaluator with an ordered parameter list; a parameter is either
  a value that is already known (a literal, an identifier's text, or a list of statement
  nodes kept for later) or another node. Evaluators may change the interpreter's state
  (its variable table), so the state is threaded through evaluation explicitly: `S` is the
  state, `V` the values parameters carry and evaluators return, `E` the errors they raise.
*/
module ParseTreeNode {
  import opened Wrappers

  datatype Param<!S, !V, E> = Lit(value: V) | Sub(node: Node<S, V, E>)

  datatype Node<!S, !V, E> = Node(evaluator: (S, seq<V>) -> Result<(S, V), E>, params: seq<Param<S, V, E>>)

  /** Evaluates every parameter left to right, then applies the evaluator to the results. */
  function Evaluate<S, V, E>(n: Node<S, V, E>, s: S): Result<(S, V), E>
    decreases n
  {
    match EvaluateParams(n.params, s)
    case Failure(e) => Failure(e)
    case Success((s', args)) => n.evaluator(s', args)
  }

  /** One parameter: a node is replaced by its result, anything else passes through as is. */
  function EvaluateParam<S, V, E>(p: Param<S, V, E>, s: S): (r: Result<(S, V), E>)
    decreases p
    ensures p.Lit? ==> r == Success((s, p.value))
  {
    match p
    case Lit(v) => Success((s, v))
    case Sub(m) => Evaluate(m, s)
  }

  /**
    The argument list an evaluator receives: one argument per parameter, in parameter
    order, with every non-node parameter delivered unchanged.
  */
  function EvaluateParams<S, V, E>(ps: seq<Param<S, V, E>>, s: S): (r: Result<(S, seq<V>), E>)
    decreases ps
    ensures r.Success? ==> |r.value.1| == |ps|
    ensures r.Success? ==> forall i :: 0 <= i < |ps| && ps[i].Lit? ==> r.value.1[i] == ps[i].value
  {
    if |ps| == 0 then Success((s, []))
    else
      match EvaluateParam(ps[0], s)
      case Failure(e) => Failure(e)
      case Success((s1, v)) =>
        match EvaluateParams(ps[1..], s1)
        case Failure(e) => Failure(e)
        case Success((s2, vs)) => Success((s2, [v] + vs))
  }

  /** The node `empty()` builds: no parameters, and evaluating it yields "nothing" with no effect. */
  function Empty<S, V, E>(nothing: V): (n: Node<S, V, E>)
    ensures |n.params| == 0
  {
    Node((s: S, args: seq<V>) => Success((s, nothing)), [])
  }

  /** Evaluating the empty node yields "nothing" and leaves the state as it was. */
  lemma EmptyHasNoEffect<S, V, E>(nothing: V, s: S)
    ensures Evaluate(Empty<S, V, E>(nothing), s) == Success((s, nothing))
  {
  }

  /** Sequencing: evaluate `b` in the state `a` left behind, appending the arguments. */
  function AndThen<S, V, E>(ra: Result<(S, seq<V>), E>, b: seq<Param<S, V, E>>): Result<(S, seq<V>), E>
  {
    match ra
    case Failure(e) => Failure(e)
    case Success((s1, va)) =>
      match EvaluateParams(b, s1)
      case Failure(e) => Failure(e)
      case Success((s2, vb)) => Success((s2, va + vb))
  }

  /**
    Parameters are evaluated strictly left to right: evaluating `a + b` is evaluating `a`
    and then `b` in the state `a` left behind; an error in `a` means `b` is never evaluated.
  */
  lemma {:induction false} LeftToRight<S, V, E>(a: seq<Param<S, V, E>>, b: seq<Param<S, V, E>>, s: S)
    ensures EvaluateParams(a + b, s) == AndThen(EvaluateParams(a, s), b)
    decreases |a|
  {
    if |a| == 0 {
      assert a + b == b;
      match EvaluateParams(b, s)
      case Failure(e) =>
      case Success((s2, vb)) => assert [] + vb == vb;
    } else {
      assert (a + b)[0] == a[0];
      assert (a + b)[1..] == a[1..] + b;
      match EvaluateParam(a[0], s)
      case Failure(e) =>
      case Success((s1, v)) =>
        LeftToRight(a[1..], b, s1);
        match EvaluateParams(a[1..], s1)
        case Failure(e) =>
        case Success((s2, va)) =>
          match EvaluateParams(b, s2)
          case Failure(e) =>
          case Success((s3, vb)) => assert [v] + (va + vb) == ([v] + va) + vb;
    }
  }

  /** A failing parameter stops evaluation: nothing to its right is evaluated. */
  lemma ErrorStopsEvaluation<S, V, E>(a: seq<Param<S, V, E>>, b: seq<Param<S, V, E>>, s: S, e: E)
    requires EvaluateParams(a, s) == Failure(e)
    ensures EvaluateParams(a + b, s) == Failure(e)
  {
    LeftToRight(a, b, s);
  }

  /** A node parameter is replaced by exactly what evaluating that node produces. */
  lemma {:induction false} NodeParamIsItsResult<S, V, E>(m: Node<S, V, E>, s: S)
    ensures Evaluate(m, s).Failure? ==> EvaluateParams([Sub(m)], s) == Failure(Evaluate(m, s).error)
    ensures Evaluate(m, s).Success? ==>
      EvaluateParams([Sub(m)], s) == Success((Evaluate(m, s).value.0, [Evaluate(m, s).value.1]))
  {
    var ps := [Sub(m)];
    assert ps[0] == Sub(m);
    assert ps[1..] == [];
    match Evaluate(m, s)
    case Failure(e) =>
    case Success((s1, v)) =>
      assert EvaluateParams(ps[1..], s1) == Success((s1, []));
      assert [v] + [] == [v];
  }

  /** The values carried by a list of literal parameters. */
  function LitValues<S, V, E>(ps: seq<Param<S, V, E>>): (vs: seq<V>)
    requires forall i :: 0 <= i < |ps| ==> ps[i].Lit?
    ensures |vs| == |ps| && forall i :: 0 <= i < |ps| ==> vs[i] == ps[i].value
  {
    seq(|ps|, i requires 0 <= i < |ps| => ps[i].value)
  }

  /**
    Laziness: when no parameter is a node — e.g. a loop body handed over as a list of
    statement nodes — the evaluator is applied to the unchanged state and the unevaluated
    values, so nothing inside those lists runs before the evaluator decides to run it.
  */
  lemma {:induction false} LiteralsAreNotEvaluated<S, V, E>(n: Node<S, V, E>, s: S)
    requires forall i :: 0 <= i < |n.params| ==> n.params[i].Lit?
    ensures Evaluate(n, s) == n.evaluator(s, LitValues(n.params))
  {
    LiteralParamsKeepState(n.params, s);
  }

  lemma {:induction false} LiteralParamsKeepState<S, V, E>(ps: seq<Param<S, V, E>>, s: S)
    requires forall i :: 0 <= i < |ps| ==> ps[i].Lit?
    ensures EvaluateParams(ps, s) == Success((s, LitValues(ps)))
    decreases |ps|
  {
    if |ps| > 0 {
      LiteralParamsKeepState(ps[1..], s);
      assert [ps[0].value] + LitValues(ps[1..]) == LitValues(ps);
    }
  }
}

=== FILE: rule_order.dfy ===
/**
  Consequences of the order of the GRL token rules: where one rule's text begins with
  another's, or two rules could match at one position, the earlier declaration wins.
*/
module RuleOrder {
  import opened Wrappers
  import opened Lexer

  /** Where each rule of interest sits in the table. */
  lemma RulePositions()
    ensures |Rules()| == 41
    ensures Rules()[2] == Rule(String, StringPattern)
    ensures Rules()[6] == Rule(Leq, Exactly("<=")) && Rules()[7] == Rule(Lt, Exactly("<"))
    ensures Rules()[8] == Rule(Geq, Exactly(">=")) && Rules()[9] == Rule(Gt, Exactly(">"))
    ensures Rules()[12] == Rule(Node, Exactly("NODE")) && Rules()[13] == Rule(Edge, Exactly("EDGE"))
    ensures Rules()[22] == Rule(Nodes, Exactly("NODES")) && Rules()[23] == Rule(Edges, Exactly("EDGES"))
    ensures Rules()[31] == Rule(ElseIf, Exactly("ELSEIF")) && Rules()[32] == Rule(Else, Exactly("ELSE"))
  {
    assert Rules()[2] == RuleAt(2);
    assert Rules()[6] == RuleAt(6);
    assert Rules()[7] == RuleAt(7);
    assert Rules()[8] == RuleAt(8);
    assert Rules()[9] == RuleAt(9);
    assert Rules()[12] == RuleAt(12);
    assert Rules()[13] == RuleAt(13);
    assert Rules()[22] == RuleAt(22);
    assert Rules()[23] == RuleAt(23);
    assert Rules()[31] == RuleAt(31);
    assert Rules()[32] == RuleAt(32);
  }

  /**
    Every rule declared from index `lo` up to `hi` is excluded by `w`, read off the
    declarations.
  */
  predicate TableExcludes(lo: nat, hi: nat, w: string)
    requires lo <= hi <= 41 && |w| > 0
  {
    forall k :: lo <= k < hi ==> Excludes(RuleAt(k).pattern, w)
  }

  /** What the declarations exclude, the rule table excludes. */
  lemma {:induction false} TableExcludesRules(lo: nat, hi: nat, w: string)
    requires lo <= hi <= 41 && |w| > 0 && TableExcludes(lo, hi, w)
    ensures ExcludedFrom(Rules(), lo, hi, w)
    decreases hi - lo
  {
    if lo < hi {
      assert Rules()[lo] == RuleAt(lo);
      TableExcludesRules(lo + 1, hi, w);
    }
  }

  /**
    Where the input starts with the fixed text of rule `k`, and `w` excludes every rule
    declared before it, rule `k` wins and its token is exactly that text.
  */
  lemma FixedTextWins(s: string, i: nat, k: nat, kind: Kind, w: Literal)
    requires i <= |s| && w <= s[i..]
    requires k < 41 && RuleAt(k) == Rule(kind, Exactly(w)) && TableExcludes(0, k, w)
    ensures FirstMatch(Rules(), s, i) == Some((k, |w|)) && Rules()[k].kind == kind
  {
    assert Rules()[k] == RuleAt(k);
    TableExcludesRules(0, k, w);
    NoEarlierMatch(Rules(), w, s, i, 0, k);
    FirstMatchIsEarliest(Rules(), s, i, k, |w|);
  }

  /** Only the NODES and EDGES rules produce NODES and EDGES tokens. */
  lemma {:induction false} OnlyRulesOfKind(j: nat)
    requires j < |Rules()|
    ensures Rules()[j].kind == Nodes ==> j == 22
    ensures Rules()[j].kind == Edges ==> j == 23
  {
  }

  /**
    NODE is declared before NODES and EDGE before EDGES, and each is a prefix of the other,
    so no tokenization ever contains a NODES or EDGES token.
  */
  lemma {:induction false} NoNodesOrEdgesTokens(s: string, i: nat, toks: seq<Token>)
    requires Segments(Rules(), s, i, toks)
    ensures forall k :: 0 <= k < |toks| ==> toks[k].kind != Nodes && toks[k].kind != Edges
    decreases |toks|
  {
    if |toks| > 0 {
      var p := toks[0].pos;
      RulePositions();
      assert "NODE" <= "NODES" && "EDGE" <= "EDGES";
      ShadowedRuleNeverWins(Rules(), s, p, 12, 22);
      ShadowedRuleNeverWins(Rules(), s, p, 13, 23);
      OnlyRulesOfKind(FirstMatch(Rules(), s, p).value.0);
      NoNodesOrEdgesTokens(s, p + |toks[0].text|, toks[1..]);
      assert forall k :: 1 <= k < |toks| ==> toks[k] == toks[1..][k - 1];
    }
  }

  /** Whatever text is tokenized, the token stream never holds a NODES or an EDGES token. */
  lemma TokenizeNeverYieldsNodesOrEdges(s: string)
    ensures Tokenize(s).Success? ==>
      forall k :: 0 <= k < |Tokenize(s).value| ==> Tokenize(s).value[k].kind !in {Nodes, Edges}
  {
    if Tokenize(s).Success? {
      NoNodesOrEdgesTokens(s, 0, Tokenize(s).value);
    }
  }

  /** No rule declared before `<=`, or before `>=`, can match where that text starts. */
  lemma ComparatorsExcludeEarlierRules()
    ensures TableExcludes(0, 6, "<=") && TableExcludes(0, 8, ">=")
  {
  }

  /** `<=` and `>=` are declared before `<` and `>`, so they lex as one token, never two. */
  lemma TwoCharComparatorsWin(s: string, i: nat)
    requires i <= |s|
    ensures "<=" <= s[i..] ==> FirstMatch(Rules(), s, i) == Some((6, 2)) && Rules()[6].kind == Leq
    ensures ">=" <= s[i..] ==> FirstMatch(Rules(), s, i) == Some((8, 2)) && Rules()[8].kind == Geq
  {
    ComparatorsExcludeEarlierRules();
    if "<=" <= s[i..] {
      FixedTextWins(s, i, 6, Leq, "<=");
    }
    if ">=" <= s[i..] {
      FixedTextWins(s, i, 8, Geq, ">=");
    }
  }

  /** No rule declared before ELSEIF can match where `ELSEIF` starts. */
  lemma ElseIfExcludesEarlierRules()
    ensures TableExcludes(0, 31, "ELSEIF")
  {
  }

  /** ELSEIF is declared before ELSE, so `ELSEIF` is one token. */
  lemma ElseIfWins(s: string, i: nat)
    requires i <= |s| && "ELSEIF" <= s[i..]
    ensures FirstMatch(Rules(), s, i) == Some((31, 6)) && Rules()[31].kind == ElseIf
  {
    ElseIfExcludesEarlierRules();
    FixedTextWins(s, i, 31, ElseIf, "ELSEIF");
  }

  /**
    The three distance keywords share the text `DISTANCE `; each is read whole, as the
    keyword it spells, because the earlier ones differ from it after that text.
  */
  lemma DistanceBetweenExcludesEarlierRules()
    ensures TableExcludes(0, 19, "DISTANCE BETWEEN")
  {
  }

  lemma DistanceBetweenWins(s: string, i: nat)
    requires i <= |s| && "DISTANCE BETWEEN" <= s[i..]
    ensures FirstMatch(Rules(), s, i) == Some((19, 16)) && Rules()[19].kind == DistanceBetween
  {
    DistanceBetweenExcludesEarlierRules();
    FixedTextWins(s, i, 19, DistanceBetween, "DISTANCE BETWEEN");
  }

  lemma DistanceFromExcludesEarlierRules()
    ensures TableExcludes(0, 20, "DISTANCE FROM")
  {
  }

  lemma DistanceFromWins(s: string, i: nat)
    requires i <= |s| && "DISTANCE FROM" <= s[i..]
    ensures FirstMatch(Rules(), s, i) == Some((20, 13)) && Rules()[20].kind == DistanceFrom
  {
    DistanceFromExcludesEarlierRules();
    FixedTextWins(s, i, 20, DistanceFrom, "DISTANCE FROM");
  }

  lemma DistanceMatrixExcludesEarlierRules()
    ensures TableExcludes(0, 21, "DISTANCE MATRIX")
  {
  }

  lemma DistanceMatrixWins(s: string, i: nat)
    requires i <= |s| && "DISTANCE MATRIX" <= s[i..]
    ensures FirstMatch(Rules(), s, i) == Some((21, 15)) && Rules()[21].kind == DistanceMatrix
  {
    DistanceMatrixExcludesEarlierRules();
    FixedTextWins(s, i, 21, DistanceMatrix, "DISTANCE MATRIX");
  }

  /** The two-word keywords TOPOLOGICAL SORT and SHORTEST PATH are each one token. */
  lemma TopologicalSortExcludesEarlierRules()
    ensures TableExcludes(0, 24, "TOPOLOGICAL SORT")
  {
  }

  lemma TopologicalSortWins(s: string, i: nat)
    requires i <= |s| && "TOPOLOGICAL SORT" <= s[i..]
    ensures FirstMatch(Rules(), s, i) == Some((24, 16)) && Rules()[24].kind == TopologicalSort
  {
    TopologicalSortExcludesEarlierRules();
    FixedTextWins(s, i, 24, TopologicalSort, "TOPOLOGICAL SORT");
  }

  lemma ShortestPathExcludesEarlierRules()
    ensures TableExcludes(0, 25, "SHORTEST PATH")
  {
  }

  lemma ShortestPathWins(s: string, i: nat)
    requires i <= |s| && "SHORTEST PATH" <= s[i..]
    ensures FirstMatch(Rules(), s, i) == Some((25, 13)) && Rules()[25].kind == ShortestPath
  {
    ShortestPathExcludesEarlierRules();
    FixedTextWins(s, i, 25, ShortestPath, "SHORTEST PATH");
  }

  /**
    A quoted label whose text holds no quote or backslash is read as one STRING token
    spanning both quotes.
  */
  lemma QuotedTextIsOneString(s: string, i: nat, b: string)
    requires i + |b| + 2 <= |s|
    requires s[i..i + |b| + 2] == "\"" + b + "\""
    requires forall k :: 0 <= k < |b| ==> b[k] != '"' && b[k] != '\\'
    ensures FirstMatch(Rules(), s, i) == Some((2, |b| + 2)) && Rules()[2].kind == String
  {
    RulePositions();
    PlainTextIsStringBody(b);
    var t := s[i..i + |b| + 2];
    assert t[1..|t| - 1] == b;
    StringMatchesLiteral(s, i, |b| + 2);
    assert "\"" <= s[i..] by {
      assert s[i] == t[0];
    }
    TableExcludesRules(0, 2, "\"");
    NoEarlierMatch(Rules(), "\"", s, i, 0, 2);
    FirstMatchIsEarliest(Rules(), s, i, 2, |b| + 2);
  }

  /** A minus sign excludes every rule of the table. */
  lemma MinusExcludesAllRules()
    ensures TableExcludes(0, 41, "-")
  {
  }

  /** No rule accepts a minus sign, so a negative number cannot be written. */
  lemma MinusIsIllegal(s: string, i: nat)
    requires i < |s| && s[i] == '-'
    ensures FirstMatch(Rules(), s, i).None?
  {
    assert "-" <= s[i..] by {
      assert s[i..][0] == s[i];
    }
    MinusExcludesAllRules();
    TableExcludesRules(0, 41, "-");
    NoEarlierMatch(Rules(), "-", s, i, 0, 41);
  }
}

=== FILE: runtime.dfy ===
/**
  The interpreter's runtime: dynamically typed values, the single flat variable table,
  the errors evaluation raises, the lookups every action goes through, the comparator,
  and the negative-weight check that selects the shortest-path algorithm.

  The graph algorithms themselves (shortest paths, distances, topological order,
  neighbours, and the order in which edges are enumerated) belong to the graph library
  and are not modelled: they are the uninterpreted functions of a `Library` value that
  every evaluation receives as a parameter.
*/
module Runtime {
  import opened Wrappers
  import opened Graphs
  import Strings

  datatype Value = Bool(b: bool) | Int(i: int) | Str(s: string) | GraphVal(g: Graph)

  /** The variable table: one namespace for the whole program. */
  type Env = map<string, Value>

  datatype Error =
    | UndefinedVariable(name: string)
    | GraphNotFound(name: string)
    | NotAGraph(name: string)
    | AlreadyExists(name: string)
    | InGraph(cause: GraphError)
    | MissingLoopVariable(name: string)
    | NotANodeLabel(name: string)
    | NotComparable
    | FileNotFound(path: string)
    | AlgorithmFailure(message: string)
    | UnreadableLine

  /** `_get_variable`: the binding, or an error when the name is unbound. */
  function GetVariable(env: Env, name: string): (r: Result<Value, Error>)
    ensures r.Failure? <==> name !in env
    ensures r.Failure? ==> r.error == UndefinedVariable(name)
    ensures r.Success? ==> r.value == env[name]
  {
    if name !in env then Failure(UndefinedVariable(name)) else Success(env[name])
  }

  /**
    `_get_graph`: the bound graph; an error when the name is unbound, another when
    the binding is not a graph.
  */
  function GetGraph(env: Env, id: string): (r: Result<Graph, Error>)
    ensures r.Success? <==> id in env && env[id].GraphVal?
    ensures id !in env ==> r == Failure(GraphNotFound(id))
    ensures id in env && !env[id].GraphVal? ==> r == Failure(NotAGraph(id))
    ensures r.Success? ==> env[id] == GraphVal(r.value)
  {
    if id !in env then Failure(GraphNotFound(id))
    else if env[id].GraphVal? then Success(env[id].g)
    else Failure(NotAGraph(id))
  }

  /** A graph lookup succeeds only where a plain lookup succeeds, and sees the same binding. */
  lemma GetGraphRefinesGetVariable(env: Env, id: string)
    ensures GetGraph(env, id).Success? ==>
      GetVariable(env, id) == Success(GraphVal(GetGraph(env, id).value))
    ensures GetVariable(env, id).Failure? ==> GetGraph(env, id).Failure?
  {
  }

  // ----- Algorithm selection -----

  datatype Algorithm = Dijkstra | BellmanFord

  /** Some edge weighs less than zero, a missing weight counting as 1. */
  predicate HasNegativeWeights(g: Graph)
  {
    exists e | e in g.edges :: EffectiveWeight(g.edges[e]) < 0
  }

  /** An order in which the library enumerates a graph's edges: every edge exactly once. */
  ghost predicate EnumeratesEdges(g: Graph, order: seq<Edge>)
  {
    && (forall i :: 0 <= i < |order| ==> Key(g.directed, order[i].0, order[i].1) in g.edges)
    && (forall i, j :: 0 <= i < j < |order| ==>
          Key(g.directed, order[i].0, order[i].1) != Key(g.directed, order[j].0, order[j].1))
    && (forall e :: e in g.edges ==> exists i :: 0 <= i < |order| && Key(g.directed, order[i].0, order[i].1) == e)
  }

  /**
    `_graph_has_negative_weights`: `any` over the edges in the library's order, stopping
    at the first negative weight. Whatever the order, the answer is `HasNegativeWeights`.
  */
  method ScanForNegativeWeight(g: Graph, order: seq<Edge>) returns (found: bool)
    requires EnumeratesEdges(g, order)
    ensures found <==> HasNegativeWeights(g)
  {
    var i := 0;
    while i < |order|
      invariant 0 <= i <= |order|
      invariant forall j :: 0 <= j < i ==> EffectiveWeight(StoredWeight(g, order[j].0, order[j].1)) >= 0
    {
      if EffectiveWeight(StoredWeight(g, order[i].0, order[i].1)) < 0 {
        return true;
      }
      i := i + 1;
    }
    forall e | e in g.edges
      ensures EffectiveWeight(g.edges[e]) >= 0
    {
      var j :| 0 <= j < |order| && Key(g.directed, order[j].0, order[j].1) == e;
    }
    return false;
  }

  /** Bellman-Ford when some weight is negative, Dijkstra otherwise; decided per query. */
  function ChooseAlgorithm(g: Graph): (a: Algorithm)
    ensures a == Dijkstra <==> forall e :: e in g.edges ==> EffectiveWeight(g.edges[e]) >= 0
  {
    if HasNegativeWeights(g) then BellmanFord else Dijkstra
  }

  /** A graph without stored weights never selects Bellman-Ford. */
  lemma UnweightedGraphUsesDijkstra(g: Graph)
    requires forall e :: e in g.edges ==> g.edges[e] == None
    ensures ChooseAlgorithm(g) == Dijkstra
  {
  }

  /**
    The choice follows the graph's current contents: setting a negative weight switches
    to Bellman-Ford, and a non-negative one keeps a non-negative graph on Dijkstra.
  */
  lemma SetWeightAndAlgorithm(g: Graph, u: string, v: string, w: int)
    requires HasEdge(g, u, v)
    ensures w < 0 ==> ChooseAlgorithm(SetWeight(g, u, v, w).value) == BellmanFord
    ensures w >= 0 && ChooseAlgorithm(g) == Dijkstra ==> ChooseAlgorithm(SetWeight(g, u, v, w).value) == Dijkstra
  {
    var r := SetWeight(g, u, v, w).value;
    var k := Key(g.directed, u, v);
    assert r.edges[k] == Some(w);
    if w < 0 {
      assert EffectiveWeight(r.edges[k]) < 0;
    }
  }

  /** Adding an edge never makes a graph select Bellman-Ford. */
  lemma AddEdgeKeepsAlgorithm(g: Graph, u: string, v: string)
    ensures ChooseAlgorithm(g) == Dijkstra ==> ChooseAlgorithm(AddEdge(g, u, v)) == Dijkstra
  {
  }

  /**
    What the graph library computes, left uninterpreted. Failures carry the library's
    message.
  */
  datatype Library = Library(
    edgeOrder: Graph -> seq<Edge>,
    neighbors: (Graph, string) -> Result<seq<string>, string>,
    topologicalSort: Graph -> Result<seq<string>, string>,
    shortestPath: (Graph, string, string, Algorithm) -> Result<seq<string>, string>,
    distancesFrom: (Graph, string, Algorithm) -> Result<seq<(string, int)>, string>,
    distanceMatrix: (Graph, Algorithm) -> Result<seq<(string, string, int)>, string>,
    distanceBetween: (Graph, string, string, Algorithm) -> Result<int, string>,
    describe: Graph -> string)

  // ----- Comparisons -----

  datatype Comparator = Eq | Neq | Lt | Leq | Gt | Geq

  /** Python treats `True`/`False` as the integers 1/0 when comparing. */
  predicate Numeric(v: Value)
  {
    v.Bool? || v.Int?
  }

  function AsInt(v: Value): int
    requires Numeric(v)
  {
    if v.Int? then v.i else if v.b then 1 else 0
  }

  /** Python `==` on the values a comparison can see: numbers and booleans by value, strings by content. */
  predicate Equal(l: Value, r: Value)
  {
    if Numeric(l) && Numeric(r) then AsInt(l) == AsInt(r)
    else if l.Str? && r.Str? then l.s == r.s
    else false
  }

  /** Python `<`: numbers, or two strings; anything else raises. */
  function Below(l: Value, r: Value): Result<bool, Error>
  {
    if Numeric(l) && Numeric(r) then Success(AsInt(l) < AsInt(r))
    else if l.Str? && r.Str? then Success(Strings.Less(l.s, r.s))
    else Failure(NotComparable)
  }

  /**
    The comparator action. Five comparators mean their operator; `>=` computes strict
    `>`, as the source writes it.
  */
  function Compare(l: Value, op: Comparator, r: Value): (res: Result<bool, Error>)
    requires !l.GraphVal? && !r.GraphVal?
    ensures op == Eq ==> res == Success(Equal(l, r))
    ensures op == Neq ==> res == Success(!Equal(l, r))
    ensures res.Failure? <==> op !in {Eq, Neq} && !(Numeric(l) && Numeric(r)) && !(l.Str? && r.Str?)
    ensures Numeric(l) && Numeric(r) ==> match op
      case Eq => res == Success(AsInt(l) == AsInt(r))
      case Neq => res == Success(AsInt(l) != AsInt(r))
      case Lt => res == Success(AsInt(l) < AsInt(r))
      case Leq => res == Success(AsInt(l) <= AsInt(r))
      case Gt => res == Success(AsInt(l) > AsInt(r))
      case Geq => res == Success(AsInt(l) > AsInt(r))
    ensures l.Str? && r.Str? ==> match op
      case Eq => res == Success(l.s == r.s)
      case Neq => res == Success(l.s != r.s)
      case Lt => res == Success(Strings.Less(l.s, r.s))
      case Leq => res == Success(Strings.Less(l.s, r.s) || l.s == r.s)
      case Gt => res == Success(Strings.Less(r.s, l.s))
      case Geq => res == Success(Strings.Less(r.s, l.s))
  {
    match op
    case Eq => Success(Equal(l, r))
    case Neq => Success(!Equal(l, r))
    case Lt => Below(l, r)
    case Leq =>
      (match Below(l, r)
       case Failure(e) => Failure(e)
       case Success(b) => Success(b || Equal(l, r)))
    case Gt => Below(r, l)
    case Geq => Below(r, l)
  }

  /** `>=` and `>` give the same answer on every pair of values. */
  lemma GeqIsStrict(l: Value, r: Value)
    requires !l.GraphVal? && !r.GraphVal?
    ensures Compare(l, Geq, r) == Compare(l, Gt, r)
    ensures Compare(l, Geq, l) == Compare(l, Gt, l)
  {
  }

  /** Consequently `x >= x` is FALSE for every number and string `x`. */
  lemma {:induction false} GeqIsIrreflexive(x: Value)
    requires Numeric(x) || x.Str?
    ensures Compare(x, Geq, x) == Success(false)
  {
    if x.Str? {
      Strings.Trichotomy(x.s, x.s);
    }
  }

  /**
    On two numbers or two strings exactly one of `<`, `==`, `>` holds, `<` and `>` are
    converse, and `<=` is `<` or `==`.
  */
  lemma {:induction false} ComparatorsAgree(l: Value, r: Value)
    requires (Numeric(l) && Numeric(r)) || (l.Str? && r.Str?)
    ensures Compare(l, Lt, r).Success? && Compare(l, Gt, r).Success? && Compare(l, Leq, r).Success?
    ensures Compare(l, Lt, r) == Compare(r, Gt, l)
    ensures Compare(l, Leq, r).value == (Compare(l, Lt, r).value || Compare(l, Eq, r).value)
    ensures [Compare(l, Lt, r).value, Compare(l, Eq, r).value, Compare(l, Gt, r).value] in
      [[true, false, false], [false, true, false], [false, false, true]]
  {
    if l.Str? && r.Str? {
      Strings.Trichotomy(l.s, r.s);
    }
  }

  /**
    Python's rendering `str(value)` used by `print` on a variable: a boolean is
    capitalised, not upper-cased; a number is its decimal text; a label is itself.
  */
  function Render(v: Value, lib: Library): (r: string)
    ensures v.Bool? ==> r in {"True", "False"} && (r == "True" <==> v.b)
    ensures v.Int? ==> |r| > 0 && ((r[0] == '-') <==> v.i < 0)
    ensures v.Int? && v.i >= 0 ==> Strings.AllDigits(r) && Strings.DigitsValue(r) == v.i
    ensures v.Str? ==> r == v.s
  {
    match v
    case Bool(b) => if b then "True" else "False"
    case Int(i) => Strings.IntToString(i)
    case Str(s) => s
    case GraphVal(g) => lib.describe(g)
  }
}

=== FILE: strings.dfy ===
/**
  Python's ordering of `str` values (lexicographic by code point, a proper prefix first)
  and the decimal rendering `str(int)` uses.
*/
module Strings {

  /** `a < b` on Python strings. */
  predicate Less(a: string, b: string)
    decreases |a|
  {
    if |b| == 0 then false
    else if |a| == 0 then true
    else if a[0] != b[0] then a[0] < b[0]
    else Less(a[1..], b[1..])
  }

  /** Exactly one of `a < b`, `a == b`, `b < a` holds: the order is a strict total order. */
  lemma {:induction false} Trichotomy(a: string, b: string)
    ensures a == b || Less(a, b) || Less(b, a)
    ensures !(Less(a, b) && Less(b, a))
    ensures !Less(a, a)
    decreases |a|
  {
    if |a| > 0 {
      Trichotomy(a[1..], a[1..]);
      if |b| > 0 {
        Trichotomy(a[1..], b[1..]);
        if a[0] == b[0] && a[1..] == b[1..] {
          assert a == [a[0]] + a[1..] && b == [b[0]] + b[1..];
        }
      }
    }
  }

  /** Strict order: `Less` is transitive. */
  lemma {:induction false} LessTransitive(a: string, b: string, c: string)
    requires Less(a, b) && Less(b, c)
    ensures Less(a, c)
    decreases |a|
  {
    if |a| > 0 && a[0] == b[0] && b[0] == c[0] {
      LessTransitive(a[1..], b[1..], c[1..]);
    }
  }

  function DigitChar(d: nat): (c: char)
    requires d < 10
    ensures '0' <= c <= '9'
  {
    ['0', '1', '2', '3', '4', '5', '6', '7', '8', '9'][d]
  }

  /** Decimal digits of a natural number, most significant first, no leading zeros. */
  function NatDigits(n: nat): (s: string)
    ensures |s| > 0
    ensures forall i :: 0 <= i < |s| ==> '0' <= s[i] <= '9'
    ensures n >= 10 ==> s[0] != '0'
    decreases n
  {
    if n < 10 then [DigitChar(n)] else NatDigits(n / 10) + [DigitChar(n % 10)]
  }

  /** `str(n)` for an int: the digits, preceded by `-` when negative. */
  function IntToString(n: int): (s: string)
    ensures |s| > 0
    ensures (s[0] == '-') <==> n < 0
    ensures n >= 0 ==> AllDigits(s) && DigitsValue(s) == n
    ensures n < 0 ==> AllDigits(s[1..]) && DigitsValue(s[1..]) == -n
  {
    if n < 0 then
      NatDigitsAreDigits(-n);
      "-" + NatDigits(-n)
    else
      NatDigitsAreDigits(n);
      NatDigits(n)
  }

  /** The decimal text of a natural number is all digits and reads back as that number. */
  lemma NatDigitsAreDigits(n: nat)
    ensures AllDigits(NatDigits(n)) && DigitsValue(NatDigits(n)) == n
    ensures ("-" + NatDigits(n))[1..] == NatDigits(n)
  {
    NatDigitsRoundTrip(n);
  }

  predicate AllDigits(s: string)
  {
    forall i :: 0 <= i < |s| ==> '0' <= s[i] <= '9'
  }

  /** The value a digit string denotes. */
  function DigitsValue(s: string): int
    requires AllDigits(s)
  {
    if |s| == 0 then 0 else DigitsValue(s[..|s| - 1]) * 10 + (s[|s| - 1] as int - '0' as int)
  }

  /** Rendering a natural number and reading the digits back gives the number. */
  lemma {:induction false} NatDigitsRoundTrip(n: nat)
    ensures DigitsValue(NatDigits(n)) == n
    decreases n
  {
    var s := NatDigits(n);
    if n >= 10 {
      NatDigitsRoundTrip(n / 10);
      assert s[..|s| - 1] == NatDigits(n / 10);
    }
  }
}

=== FILE: wrappers.dfy ===
/** Failure-compatible wrappers shared by every module of the model. */
module Wrappers {

  /** An optional value. */
  datatype Option<+T> = None | Some(value: T)

  /** The outcome of an operation that either succeeds with a value or raises an error. */
  datatype Result<+T, +E> = Success(value: T) | Failure(error: E) {
    predicate IsFailure() {
      Failure?
    }

    function PropagateFailure<U>(): Result<U, E>
      requires Failure?
    {
      Failure(error)
    }

    function Extract(): T
      requires Success?
    {
      value
    }
  }
}
